=== FILE: README.md ===
# VibeVerse in Dafny

VibeVerse is an Android mood journal with a social layer. Users post mood events, each with:
- a mood (one of eight, each with an emoji and a colour);
- an intensity;
- an optional reason, trigger, social situation, photo and location;
- a public or private flag.

Users can follow each other, comment on posts and reply to comments, and receive follow-request notifications. They earn achievements, XP and levels, which unlock themes. They can browse their own history and their followers' moods as lists, on a map and as insight charts.

This project models the app's logic as pure functions over immutable data. Each module follows one Android activity, fragment or adapter, or a small group of related ones:

- `Moods`: the eight moods: names, emoji, colours and the name lookup.
- `Records`: the mood fields the screens read.
- `MoodEvents`: mood-event maps as saved to and loaded from Firestore.
- `Photographs`: photo metadata.
- `FilterDialogs`: the time and mood filter dialog.
- `ProfilePage`: the user's own history: filtering, search, edits and deletes.
- `SelectMood`, `MoodForms`, `AddMood`: creating a mood event.
- `EditMood`: editing a mood event.
- `MoodEventAdapter`, `ListAdapters`: the list rows.
- `HomePage`: the followed users' feed.
- `Notifications`, `NotificationsAdapter`: follow requests and their answers.
- `Social`, `UsersProfile`: following and another user's profile.
- `AchievementChecker`, `AchievementAdapter`: achievement progress and claims.
- `Levels`, `Themes`: XP, levels and theme unlocks.
- `Comments`: comments and replies.
- `Maps`: the mood map and its radius filter.
- `Navigation`: the bottom navigation bar.
- `Insights`: the mood insight screens.
- `UserDetails`, `Login`, `UserSearch`: profile creation, sign-in and sign-up routing, and user search.

Three helper modules supply the rest:
- `Wrappers` has the Option type; Java's `null` is `None`.
- `Seqs` has filtering, counting and subsequences.
- `Text` has Java's `trim`, ASCII case mapping, substring search and decimal rendering.

Firestore documents are Dafny values, and array updates are sequence operations. The clock, the calendar, the map distance and HashMap iteration order come in as parameters.

Each operation's contract states what the app promises. Lemmas connect operations to their partners: an inverse, a preserved invariant or an independent definition.

Where the code does something its own design evidently did not intend, the model has both versions: the code as written, with a lemma exhibiting the discrepancy, and the corrected version, which the rest of the model uses (see "## Findings").

Some things are not findings:
- `SelectMood` stores the photo size under "photoSize", while `MoodEvent` reads "photoSizeKB". Each key is modelled as its own file writes it.
- Callers use a `MoodEvent` accessor API that `MoodEvent.java` does not declare. Those callers are modelled over `Records`.
- The store's theme list is a list of names, while the theme adapter's is a list of theme records. Both are modelled over theme names.
- `MoodInsightsActivity` stores its emoji as mis-encoded text. Only the table's keys matter to the model.
- In `ProfilePage`, an unknown time filter keeps nothing. The model keeps that behaviour as written.

## Model

| member | source | states |
|---|---|---|
| FilterDialogs.WindowMs | code/app/src/main/java/com/example/vibeverse/FilterDialog.java:247-263 | The four named time filters have a window that is a positive whole number of days; every other string, "all_time" included, has no window. |
| FilterDialogs.WindowsInDays | code/app/src/main/java/com/example/vibeverse/FilterDialog.java:249-259 | The windows are exactly 1, 3, 7 and 30 days (86400000, 259200000, 604800000 and 2592000000 ms). |
| FilterDialogs.LiteralIsUpperName | code/app/src/main/java/com/example/vibeverse/FilterDialog.java:272-279 | Each literal compared against is the upper-cased enum name; the literals are non-empty and tell the moods apart. |
| FilterDialogs.ComparedTitle | code/app/src/main/java/com/example/vibeverse/FilterDialog.java:267-269 | A null title is compared as ""; a present title keeps its length when upper-cased. |
| FilterDialogs.LiteralMood | code/app/src/main/java/com/example/vibeverse/FilterDialog.java:271-279 | Finds the mood whose literal equals the compared title, and finds none exactly when no literal does. |
| FilterDialogs.MoodMatchesIff | code/app/src/main/java/com/example/vibeverse/FilterDialog.java:267-285 | With at least one box checked, an event passes iff some checked mood's literal equals its upper-cased title; a null title never passes. |
| FilterDialogs.AnyCaseMatches | code/app/src/main/java/com/example/vibeverse/FilterDialog.java:267-279 | A checked mood's name matches whatever its letter case. |
| FilterDialogs.ApplyFilters | code/app/src/main/java/com/example/vibeverse/FilterDialog.java:241-289 | The result is an order-preserving subsequence of the input; every kept event is dated, in the window and passes the mood check, and every such event is kept. |
| Seqs.FilterCount | code/app/src/main/java/com/example/vibeverse/FilterDialog.java:241-289 | A filter decides each element alone: a passing element keeps all its copies and a failing one keeps none. |
| FilterDialogs.WindowBoundInclusive | code/app/src/main/java/com/example/vibeverse/FilterDialog.java:250-259 | An event exactly one window old is kept and one a millisecond older is not. |
| FilterDialogs.NoLimitNoBoxKeepsDated | code/app/src/main/java/com/example/vibeverse/FilterDialog.java:242-285 | A filter string without a window and no checked box keep exactly the dated events, in order. |
| FilterDialogs.NoBoxKeepsWindow | code/app/src/main/java/com/example/vibeverse/FilterDialog.java:282-285 | With no box checked and every event dated inside the window, nothing is removed. |
| FilterDialogs.RadioFilter | code/app/src/main/java/com/example/vibeverse/FilterDialog.java:153-165 | The filter read from the radios has no window iff no radio or the all-time radio is checked. |
| FilterDialogs.ShownRadio | code/app/src/main/java/com/example/vibeverse/FilterDialog.java:112-128 | On opening, the all-time radio is checked iff the remembered filter has no window. |
| FilterDialogs.Apply | code/app/src/main/java/com/example/vibeverse/FilterDialog.java:167-199 | The remembered selection equals the one passed on to the filter, and the remembered boxes are the checked ones. |
| FilterDialogs.ReopenShowsApplied | code/app/src/main/java/com/example/vibeverse/FilterDialog.java:112-185 | Reopening shows the selection just applied: the same boxes and the same radio, all time when none was checked. |
| FilterDialogs.InitialShowsAllTime | code/app/src/main/java/com/example/vibeverse/FilterDialog.java:39-47 | The first opening shows all time and no box, which removes only undated events. |
| ListAdapters.Search | code/app/src/main/java/com/example/vibeverse/MoodEventAdapter.java:400-416 | A search never changes the original list; a blank normalised query shows the original list; the shown list is an ordered subsequence of the original. |
| ListAdapters.SearchesDoNotCompound | code/app/src/main/java/com/example/vibeverse/MoodEventAdapter.java:400-416 | A search after another equals the search alone, so filter(q) then filter("") shows the full list. |
| ListAdapters.BlankQueryRestores | code/app/src/main/java/com/example/vibeverse/MoodEventAdapter.java:401-405 | A query made only of whitespace shows the original list. |
| ListAdapters.UpdateThenSearch | code/app/src/main/java/com/example/vibeverse/MoodEventAdapter.java:97-103 | After an update the count is the new list's length and a later search starts from that list. |
| MoodEventAdapter.Search | code/app/src/main/java/com/example/vibeverse/MoodEventAdapter.java:400-416 | The reason search leaves the original list as it was and shows it in full for a blank query; otherwise it shows, in order, exactly the events that have a reason whose lower-cased text contains the normalised query. |
| MoodEventAdapter.SearchShowsExactlyMatches | code/app/src/main/java/com/example/vibeverse/MoodEventAdapter.java:406-411 | For a non-blank query, an event is shown iff it has a reason whose lower-cased text contains the normalised query. |
| MoodEventAdapter.NoReasonNeverFound | code/app/src/main/java/com/example/vibeverse/MoodEventAdapter.java:407 | An event without a reason is never found by a non-blank query. |
| MoodEventAdapter.SearchThenClearRestores | code/app/src/main/java/com/example/vibeverse/MoodEventAdapter.java:400-416 | filter(q) followed by filter("") shows the full list again. |
| MoodEventAdapter.MoodColor | code/app/src/main/java/com/example/vibeverse/MoodEventAdapter.java:81-90 | The colour is gray exactly for a null or unknown title, and the palette colour of the named mood otherwise. |
| MoodEventAdapter.Bind | code/app/src/main/java/com/example/vibeverse/MoodEventAdapter.java:122-212 | The title row shows iff the reason is non-blank; the social line and the content block show iff the social situation is non-blank; the photo shows iff hasPhoto holds. |
| MoodEventAdapter.PlaceholderUriShowsNoPhoto | code/app/src/main/java/com/example/vibeverse/MoodEventAdapter.java:204-208 | A URI of "" or "N/A" without a bitmap shows no photo. |
| MoodEventAdapter.BlankSocialHidden | code/app/src/main/java/com/example/vibeverse/MoodEventAdapter.java:161-190 | A social situation of whitespace alone hides both the social line and the content block. |
| ProfilePage.Subtitle | code/app/src/main/java/com/example/vibeverse/ProfilePage.java:220-236 | The subtitle is empty iff neither trigger nor social situation is non-empty; it starts with "Trigger: t" and ends with "Social: s" when those are present, and with both its length is the two parts plus the three-character separator. |
| ProfilePage.SubtitleSeparator | code/app/src/main/java/com/example/vibeverse/ProfilePage.java:228-232 | With both parts present, " \| " sits exactly at the join. |
| ProfilePage.PostOf | code/app/src/main/java/com/example/vibeverse/ProfilePage.java:197-240 | A post takes the mood text as title and the emoji as mood, the parsed timestamp or the current time as date, only non-empty trigger and social situation, and the subtitle built from them; its photo URI is the loaded event's getPhotoUri as written. |
| ProfilePage.PostOfFixed | code/app/src/main/java/com/example/vibeverse/ProfilePage.java:237 | The corrected post is PostOf's in every field but the photo URI, which is "N/A" without a photograph and the photograph's URI with one. |
| ProfilePage.LoadPosts | code/app/src/main/java/com/example/vibeverse/ProfilePage.java:195-245 | At most one post per document; when every document decodes, exactly one post per document, the i-th carrying the i-th document's id. |
| ProfilePage.LoadSkipsOnlyFailures | code/app/src/main/java/com/example/vibeverse/ProfilePage.java:195-245 | Loading two runs of documents gives the posts of each run concatenated, so a failing document removes only its own post. |
| ProfilePage.LoadOne | code/app/src/main/java/com/example/vibeverse/ProfilePage.java:195-245 | A document gives a post iff it decodes, and then the post of the decoded event. |
| ProfilePage.LoadedPostLosesPhotoUri | code/app/src/main/java/com/example/vibeverse/ProfilePage.java:237 | As written, a loaded post whose event holds a photograph gets the photo URI "N/A". |
| ProfilePage.LoadedPostKeepsPhotoUri | code/app/src/main/java/com/example/vibeverse/ProfilePage.java:237 | With the corrected photo URI (PostOfFixed), a loaded post with a photograph carries the stored photo URI. |
| ProfilePage.ApplyFiltersAsWritten | code/app/src/main/java/com/example/vibeverse/ProfilePage.java:408-444 | The filter as written is an ordered subsequence keeping exactly the posts inside the time window whose emoji equals a checked upper-case name, or all when no box is checked. |
| ProfilePage.UnknownTimeFilterKeepsNothing | code/app/src/main/java/com/example/vibeverse/ProfilePage.java:414-432 | A time filter outside the four windows and "all_time" keeps nothing. |
| ProfilePage.EmojiPostsNeverMatch | code/app/src/main/java/com/example/vibeverse/ProfilePage.java:435-439 | As written, once a box is checked no post whose mood is an emoji survives. |
| ProfilePage.HappyPostFilteredOut | code/app/src/main/java/com/example/vibeverse/ProfilePage.java:210-215 | As written, a Happy post is removed by the Happy box. |
| ProfilePage.CheckedMoods | code/app/src/main/java/com/example/vibeverse/ProfilePage.java:408 | The checked boxes as a set of moods: empty iff no box is checked; Happy is in it iff its box is checked, and likewise Confused. |
| ProfilePage.ApplyFilters | code/app/src/main/java/com/example/vibeverse/ProfilePage.java:408-444 | Corrected filter: an ordered subsequence keeping exactly the posts inside the window whose mood text names a checked mood (all when none is checked). |
| ProfilePage.CheckedMoodKept | code/app/src/main/java/com/example/vibeverse/ProfilePage.java:435-439 | With the corrected check, a post whose title names a checked mood passes; with no box checked every post passes both checks. |
| ProfilePage.HappyPostKept | code/app/src/main/java/com/example/vibeverse/ProfilePage.java:435-439 | With the corrected check, the Happy post is kept by the Happy box. |
| ProfilePage.Search | code/app/src/main/java/com/example/vibeverse/ProfilePage.java:554-572 | PostAdapter.filter never changes the original list. |
| ProfilePage.SearchShowsExactlyMatches | code/app/src/main/java/com/example/vibeverse/ProfilePage.java:558-566 | For a non-blank query, a post is shown iff its lower-cased title or subtitle contains the normalised query. |
| ProfilePage.ReadReply | code/app/src/main/java/com/example/vibeverse/ProfilePage.java:285-293 | The edit reply never carries a trigger (the editor sends none); position and photo URI are read as sent. |
| ProfilePage.UpdateDocAsWritten | code/app/src/main/java/com/example/vibeverse/ProfilePage.java:316-334 | The update as written always holds hasPhoto (true iff the URI is present and not "N/A"), photoUri only then, emotionalState as emoji + " " + mood, and the trigger field, null when absent. |
| ProfilePage.Merge | code/app/src/main/java/com/example/vibeverse/ProfilePage.java:336-341 | A document update replaces the written fields and keeps every other stored field. |
| ProfilePage.EditErasesTrigger | code/app/src/main/java/com/example/vibeverse/ProfilePage.java:288-301 | As written, every edit stores a null trigger. |
| ProfilePage.UpdateDoc | code/app/src/main/java/com/example/vibeverse/ProfilePage.java:316-334 | Corrected update: the trigger is written iff the reply carries one; the photo flag and the emotional state are as written. |
| ProfilePage.EditKeepsTrigger | code/app/src/main/java/com/example/vibeverse/ProfilePage.java:316-334 | With the corrected update an edit keeps the stored trigger. |
| ProfilePage.UpdatedStateSplits | code/app/src/main/java/com/example/vibeverse/ProfilePage.java:323 | The stored emotional state splits back into the same emoji and mood when the emoji has no space. |
| ProfilePage.OnEditResult | code/app/src/main/java/com/example/vibeverse/ProfilePage.java:295-302 | As written: an edit is applied iff 0 <= moodPosition < \|allPosts\|, and then to the document of allPosts at that position, although the position is a row of the displayed list; the update sent is the as-written map, whose trigger is the reply's (null when none is sent). |
| ProfilePage.UnpositionedEditIgnored | code/app/src/main/java/com/example/vibeverse/ProfilePage.java:292-295 | A reply without a position (-1) changes nothing. |
| ProfilePage.DeletePost | code/app/src/main/java/com/example/vibeverse/ProfilePage.java:374-377 | As written: deleting at a valid position removes exactly the post of allPosts at that position and keeps the others in order; an invalid position is refused. The position is a row of the displayed list. |
| ProfilePage.DeleteRemovesOne | code/app/src/main/java/com/example/vibeverse/ProfilePage.java:376 | The remaining posts plus the deleted one are the old list, as multisets. |
| ProfilePage.DeleteRefreshesAdapter | code/app/src/main/java/com/example/vibeverse/ProfilePage.java:376-377 | After a delete the adapter count drops by one. |
| ProfilePage.FilteredRowHitsOtherPost | code/app/src/main/java/com/example/vibeverse/ProfilePage.java:295-298 | With two posts and a filter that shows only the second, editing row 0 sends the update to the first post's document, and deleting row 0 removes the first post. |
| ProfilePage.OnEditResultById | code/app/src/main/java/com/example/vibeverse/ProfilePage.java:295-302 | Corrected handler: an update is sent iff a loaded post has the tapped post's document id, and then for exactly that document. |
| ProfilePage.EditReachesTappedPost | code/app/src/main/java/com/example/vibeverse/ProfilePage.java:529-536 | With the correction, editing any row of a list drawn from the loaded posts updates the document of the tapped row. |
| ProfilePage.DeletePostById | code/app/src/main/java/com/example/vibeverse/ProfilePage.java:374-377 | Corrected delete: keeps, in order, exactly the posts of other documents. |
| ProfilePage.DeleteRemovesTappedPost | code/app/src/main/java/com/example/vibeverse/ProfilePage.java:538-541 | With the correction, every post of the tapped row's document loses all its copies and every other post keeps all of its copies. |
| Moods.EnumIsComplete | code/app/src/main/java/com/example/vibeverse/Mood.java:16-51 | There are exactly eight moods, each listed once, and both the names and the emojis tell them apart. |
| Moods.Position | code/app/src/main/java/com/example/vibeverse/Mood.java:16-51 | The ordinal of a mood indexes that mood in declaration order. |
| Moods.FromName | code/app/src/main/java/com/example/vibeverse/Mood.java:16-51 | Looking up a name finds the mood with exactly that name, or reports that no mood has it. |
| Moods.FromNameInverts | code/app/src/main/java/com/example/vibeverse/Mood.java:67-90 | Looking up a mood's own name gives the mood back. |
| Moods.ColorOfName | code/app/src/main/java/com/example/vibeverse/MoodEventAdapter.java:81-90 | The colour of a mood name is that mood's palette colour; any other string gets gray. |
| Moods.GrayIffUnknown | code/app/src/main/java/com/example/vibeverse/MoodEventAdapter.java:341-343 | Gray comes back exactly for strings that name no mood, and no two moods share a colour. |
| Moods.TablesMatchEnum | code/app/src/main/java/com/example/vibeverse/SelectMoodActivity.java:990-1008 | The emoji table and the colour table of the mood picker have exactly the eight enum names as keys, and each name maps to the enum's emoji. |
| MoodEvents.WrapInt32 | code/app/src/main/java/com/example/vibeverse/MoodEvent.java:106 | Long.intValue keeps values in the 32-bit range and otherwise agrees with the input modulo 2^32. |
| MoodEvents.Create | code/app/src/main/java/com/example/vibeverse/MoodEvent.java:29-44 | The three-argument constructor keeps its arguments, stamps the current time, has intensity 5 and no photograph. |
| MoodEvents.Emoji | code/app/src/main/java/com/example/vibeverse/MoodEvent.java:271-276 | getEmoji never contains a space, and is "" for a null state. |
| MoodEvents.MoodText | code/app/src/main/java/com/example/vibeverse/MoodEvent.java:284-289 | getMood is null exactly when the state is null. |
| MoodEvents.SplitJoin | code/app/src/main/java/com/example/vibeverse/MoodEvent.java:271-289 | For a state with a space, emoji + " " + mood is the state and the emoji is shorter; without a space the emoji is "" and the mood is the state. |
| MoodEvents.PhotoUri | code/app/src/main/java/com/example/vibeverse/MoodEvent.java:296-301 | getPhotoUri is "N/A" without a photograph or without a Uri object, and otherwise the Uri's text. |
| MoodEvents.ToMapWith | code/app/src/main/java/com/example/vibeverse/MoodEvent.java:62-88 | toMap always writes hasPhoto, true iff a photograph is attached; photoUri is written iff a photograph is attached, and photoDateTaken iff that photograph has a date. |
| MoodEvents.StrAt | code/app/src/main/java/com/example/vibeverse/MoodEvent.java:93-95 | A string read of a missing key gives null, and of a stored string gives that string. |
| MoodEvents.RoundTripFields | code/app/src/main/java/com/example/vibeverse/MoodEvent.java:62-107 | fromMap(toMap(e)) decodes and keeps the emotional state, trigger, social situation, timestamp and intensity. |
| MoodEvents.ToMapHasPhoto | code/app/src/main/java/com/example/vibeverse/MoodEvent.java:75-88 | hasPhoto is stored true exactly when a photograph is attached. |
| MoodEvents.FromMapPhotoRule | code/app/src/main/java/com/example/vibeverse/MoodEvent.java:110-147 | A decoded event has a photograph exactly when hasPhoto is true and a photoUri other than "N/A" is stored. |
| MoodEvents.LoadedPhotoUriLost | code/app/src/main/java/com/example/vibeverse/MoodEvent.java:145-146 | As written, every event fromMap builds reports "N/A" from getPhotoUri, whatever URI was stored. |
| MoodEvents.PhotoUriLostExample | code/app/src/main/java/com/example/vibeverse/MoodEvent.java:145-146 | As written, a photo stored as "content://p" reloads, reports "N/A", and is dropped by the next save and load. (Also line 77.) |
| MoodEvents.PhotoUriFixed | code/app/src/main/java/com/example/vibeverse/MoodEvent.java:296-301 | Corrected getPhotoUri: "N/A" without a photograph, the Uri's text when there is one, else the stored string form. |
| MoodEvents.LoadedPhotoUriKept | code/app/src/main/java/com/example/vibeverse/MoodEvent.java:110-147 | With the corrected reading, a loaded photograph reports the URI that was stored. |
| MoodEvents.LoadedEventRoundTrips | code/app/src/main/java/com/example/vibeverse/MoodEvent.java:62-150 | With the corrected reading, an event loaded from the store survives another save and load unchanged, photograph included. |
| MoodEvents.LoadedPhotoReloads | code/app/src/main/java/com/example/vibeverse/MoodEvent.java:110-147 | With the corrected reading, the photograph of a loaded event is rebuilt identically by the next load. |
| Photographs.ConstructorsStoreUriDifferently | code/app/src/main/java/com/example/vibeverse/Photograph.java:37-61 | The five-argument constructor keeps the Uri object and no string; the four-argument one keeps only the string form and no bitmap. |
| Photographs.SizeLabelOf | code/app/src/main/java/com/example/vibeverse/Photograph.java:184-189 | Sizes below 1024 KB get a label ending in " KB"; from 1024 on the megabyte branch is used with the same size. |
| Photographs.KilobyteLabelExact | code/app/src/main/java/com/example/vibeverse/Photograph.java:188 | The kilobyte label is the decimal size followed by " KB", and its digits read back as the size. |
| Photographs.SizeLabelExamples | code/app/src/main/java/com/example/vibeverse/Photograph.java:184-189 | 500 KB is labelled "500 KB" and 1500 KB takes the megabyte branch. |
| Photographs.DateLabel | code/app/src/main/java/com/example/vibeverse/Photograph.java:179 | A missing date is labelled "Date unknown". |
| Photographs.LocationLabel | code/app/src/main/java/com/example/vibeverse/Photograph.java:180 | A missing location is labelled "Location unknown", and a present one is shown as is. |
| AddMood.SpinnerEntriesSplit | code/app/src/main/java/com/example/vibeverse/AddMoodActivity.java:34 | Each of the eight spinner entries is an emoji, a space and a mood word, and an event built from it splits back into exactly that emoji and word. |
| AddMood.SaveMoodEvent | code/app/src/main/java/com/example/vibeverse/AddMoodActivity.java:47-58 | Saving is refused with "Please select a mood!" iff no mood is selected; otherwise exactly one event is appended, with the selected state and the trimmed trigger and social situation, and the earlier events are kept. |
| AddMood.SavedFieldsTrimmed | code/app/src/main/java/com/example/vibeverse/AddMoodActivity.java:48-49 | The stored trigger and social situation are already trimmed. |
| SelectMood.SelectMood | code/app/src/main/java/com/example/vibeverse/SelectMoodActivity.java:1016-1019 | Selecting a mood shows a choice iff the name is a key of the colour table (otherwise unboxing the colour throws); the choice records the name, the emoji table's entry and the palette colour. (Also line 102.) |
| SelectMood.SelectingMoodUsesEnum | code/app/src/main/java/com/example/vibeverse/SelectMoodActivity.java:1016-1019 | Selecting a mood's name never throws and gives the enum's emoji and palette colour; selecting "Happy" gives the initial choice. (Also lines 100-102.) |
| SelectMood.Cards | code/app/src/main/java/com/example/vibeverse/SelectMoodActivity.java:931-974 | One card per key, in iteration order, each showing the emoji and colour the selection would pick. |
| SelectMood.EightKeys | code/app/src/main/java/com/example/vibeverse/SelectMoodActivity.java:990-1008 | The emoji table has exactly eight keys. |
| SelectMood.NameListIsKeys | code/app/src/main/java/com/example/vibeverse/SelectMoodActivity.java:991-998 | The listed names are exactly the colour table's keys. |
| SelectMood.NameListDistinct | code/app/src/main/java/com/example/vibeverse/SelectMoodActivity.java:991-998 | The listed names are pairwise distinct. |
| SelectMood.EightCards | code/app/src/main/java/com/example/vibeverse/SelectMoodActivity.java:931-974 | Whatever order the map iterates in, there are eight cards and every mood has one. |
| SelectMood.SaveDocument | code/app/src/main/java/com/example/vibeverse/SelectMoodActivity.java:529-556 | The stored document has the location fields iff both name and coordinates are set, hasPhoto iff a URI and a bitmap are both present (and then the photo fields), the reason, intensity and visibility from the form, and the trimmed social situation. (Also lines 243-266.) |
| SelectMood.Save | code/app/src/main/java/com/example/vibeverse/SelectMoodActivity.java:221-237 | Saving is refused iff the reason is rejected, with that message; a written document carries the trimmed reason, of length 1 to 200. |
| SelectMood.UriWithoutBitmapNotSaved | code/app/src/main/java/com/example/vibeverse/SelectMoodActivity.java:244 | A picked URI without a loaded bitmap stores no photograph. |
| MoodForms.ValidateReason | code/app/src/main/java/com/example/vibeverse/SelectMoodActivity.java:222-237 | A reason is accepted iff its trimmed form is non-empty and at most 200 characters, and then the trimmed form is kept; a blank input is rejected as required, anything else rejected as too long. |
| MoodForms.AcceptedReasonIsStable | code/app/src/main/java/com/example/vibeverse/SelectMoodActivity.java:222 | Validating an accepted reason again accepts the same reason. |
| MoodForms.WhitespaceReasonIsMissing | code/app/src/main/java/com/example/vibeverse/SelectMoodActivity.java:222-230 | A reason made only of spaces and control characters is rejected as required. |
| MoodForms.IntensityBar | code/app/src/main/java/com/example/vibeverse/SelectMoodActivity.java:779-791 | The bar has 11 symbols, and position i is filled iff i <= progress; every symbol is filled or empty. |
| MoodForms.FilledCount | code/app/src/main/java/com/example/vibeverse/SelectMoodActivity.java:781-787 | At most 11 symbols are filled. |
| MoodForms.BarShape | code/app/src/main/java/com/example/vibeverse/SelectMoodActivity.java:781-787 | The bar is a run of filled symbols followed by empty ones, with as many filled as FilledCount says. |
| MoodForms.DefaultBar | code/app/src/main/java/com/example/vibeverse/SelectMoodActivity.java:779-791 | The default progress 5 draws "●●●●●●○○○○○". |
| MoodForms.BarMonotone | code/app/src/main/java/com/example/vibeverse/SelectMoodActivity.java:781-787 | A higher progress never fills fewer symbols. |
| MoodForms.DegreeOf | code/app/src/main/java/com/example/vibeverse/SelectMoodActivity.java:750-756 | "Slightly" iff progress <= 3, "Very" iff progress > 7. |
| MoodForms.DegreeMonotone | code/app/src/main/java/com/example/vibeverse/SelectMoodActivity.java:750-756 | The degree never drops as the slider moves up. |
| MoodForms.MoodLabel | code/app/src/main/java/com/example/vibeverse/SelectMoodActivity.java:750-756 | The label ends with the mood name, and is exactly the name iff progress is 4 to 7. |
| MoodForms.ColorAdjustmentFor | code/app/src/main/java/com/example/vibeverse/SelectMoodActivity.java:800-815 | The base colour is kept iff intensity is 5; it is blended toward gray iff intensity is below 5. |
| MoodForms.DefaultIntensityIsNeutral | code/app/src/main/java/com/example/vibeverse/SelectMoodActivity.java:800-815 | At the default intensity the label is the bare mood and the colour is the base colour. (Also lines 671-672.) |
| EditMood.ColorFor | code/app/src/main/java/com/example/vibeverse/EditMoodActivity.java:335 | The colour first read on opening is gray iff the mood is missing or names no mood; for a key, line 1320 later stores the same colour again. |
| EditMood.Open | code/app/src/main/java/com/example/vibeverse/EditMoodActivity.java:330-399 | Opening throws iff the mood is not null and not a key of the tables (the colour is unboxed at line 1320), or the mood is null and setting the intensity at line 371 moves the slider (its listener reads the null mood at line 1012); otherwise a key mood takes the table's emoji and colour, a null mood keeps the incoming emoji and is gray, and the rest is read from the extras. (Also lines 1316-1320.) |
| EditMood.Read | code/app/src/main/java/com/example/vibeverse/EditMoodActivity.java:332-399 | The extras read on opening: position (default -1), visibility (default false), intensity (default 5) and photo URI; coordinates are kept iff a location arrives with latitude or longitude non-zero; no removal is pending, the bar shows the intensity and the label is the bare mood. |
| EditMood.OpenDefaults | code/app/src/main/java/com/example/vibeverse/EditMoodActivity.java:335-371 | Without extras the editor opens iff the slider already stands at 5, and is then gray, unpositioned, private, at intensity 5, with no location and no photo. |
| EditMood.OpenLabelIgnoresIntensity | code/app/src/main/java/com/example/vibeverse/EditMoodActivity.java:387-399 | For a key mood at intensity 9 the editor opens and its label is the bare mood, although the intensity rule would say "Very". |
| EditMood.AddMoodTitleCrashesEditor | code/app/src/main/java/com/example/vibeverse/EditMoodActivity.java:1316-1320 | As written, opening a mood titled with one of AddMood's spinner words ("Happiness" and the others) throws. |
| EditMood.OpenFixed | code/app/src/main/java/com/example/vibeverse/EditMoodActivity.java:1316-1320 | Corrected opening: it throws only where the slider listener reads a null mood; whenever the as-written opening succeeds it gives the same editor, and a mood that is not a key keeps its incoming emoji and is gray. |
| EditMood.AddMoodTitleOpensFixed | code/app/src/main/java/com/example/vibeverse/EditMoodActivity.java:1316-1320 | With the correction, a mood titled with an AddMood spinner word opens gray with the emoji it arrived with. |
| EditMood.SlideTo | code/app/src/main/java/com/example/vibeverse/EditMoodActivity.java:1002-1042 | Moving the slider throws iff the mood is null (line 1012 reads it through line 1309); otherwise it sets the intensity, redraws the bar, and sets the label to "Slightly", bare or "Very" by the intensity rule; the mood, colour, location and photo are untouched. |
| EditMood.LocationMenuFor | code/app/src/main/java/com/example/vibeverse/EditMoodActivity.java:441-507 | Keep/search/remove is offered iff a location is set; autocomplete opens directly iff neither a location nor a current address is known. |
| EditMood.RemoveLocation | code/app/src/main/java/com/example/vibeverse/EditMoodActivity.java:465-469 | Removing clears name and coordinates and records the removal. |
| EditMood.UseCurrentLocation | code/app/src/main/java/com/example/vibeverse/EditMoodActivity.java:486-490 | Using the current address sets the name, takes the coordinates when known, and leaves the removal flag as it was. |
| EditMood.PlacePicked | code/app/src/main/java/com/example/vibeverse/EditMoodActivity.java:1185-1186 | A picked place sets name ", " address and its coordinates, and leaves the removal flag as it was. |
| EditMood.RemovePhoto | code/app/src/main/java/com/example/vibeverse/EditMoodActivity.java:1214 | Removing the photo sets the current URI to "N/A". |
| EditMood.PhotoPicked | code/app/src/main/java/com/example/vibeverse/EditMoodActivity.java:1151-1169 | A taken or picked photo becomes the current URI, with a bitmap. |
| EditMood.LocationOf | code/app/src/main/java/com/example/vibeverse/EditMoodActivity.java:574-582 | The result reports a removal iff the user removed the location, and a new location iff not removed and both name and coordinates are set. |
| EditMood.Update | code/app/src/main/java/com/example/vibeverse/EditMoodActivity.java:511-582 | The update is refused iff the reason is rejected, with that message; otherwise it returns the trimmed reason, the photo URI or "N/A", the location result, the position, the slider value and the visibility switch. |
| EditMood.RemovedPhotoReportsNA | code/app/src/main/java/com/example/vibeverse/EditMoodActivity.java:567 | After removing the photo, or with none, the result's photo URI is "N/A". (Also line 1214.) |
| EditMood.RemovalOutlivesNewPlace | code/app/src/main/java/com/example/vibeverse/EditMoodActivity.java:1185-1186 | As written, removing the location and then picking a place still reports the location as removed. (Also lines 465-469 and 574-582.) |
| EditMood.PlacePickedFixed | code/app/src/main/java/com/example/vibeverse/EditMoodActivity.java:1185-1186 | Corrected place pick: same name and coordinates, and the removal flag is cleared. |
| EditMood.UseCurrentLocationFixed | code/app/src/main/java/com/example/vibeverse/EditMoodActivity.java:486-490 | Corrected "use current location": same name, and the removal flag is cleared. |
| EditMood.LatestLocationChoiceWins | code/app/src/main/java/com/example/vibeverse/EditMoodActivity.java:574-582 | With the corrected choices a place picked after a removal is reported as the new location, while a removal alone is still reported as removed. |
| HomePage.StartFeed | code/app/src/main/java/com/example/vibeverse/HomePage.java:190-201 | The empty state is shown iff the following list is missing or empty; otherwise one fetch per followed id, in order. |
| HomePage.SocialSubtitle | code/app/src/main/java/com/example/vibeverse/HomePage.java:271-276 | The subtitle is "" iff the social situation is missing or empty, and otherwise "Social: " followed by it. |
| HomePage.Entry | code/app/src/main/java/com/example/vibeverse/HomePage.java:248-282 | Reading a document throws iff fromMap fails a cast or isPublic is stored but not a Boolean; otherwise the mood enters the feed iff isPublic is true and its timestamp is absent or parses. The entry keeps the document id and the owner, is public, and is dated by its parsed timestamp. |
| HomePage.TakeFrom | code/app/src/main/java/com/example/vibeverse/HomePage.java:245-289 | The loop takes no more moods than the cap of 3 still allows, and completes whenever no document's reading throws. |
| HomePage.UserEntries | code/app/src/main/java/com/example/vibeverse/HomePage.java:245-289 | A completed callback contributes at most 3 moods per followed user. |
| HomePage.TakeIsFirstEligible | code/app/src/main/java/com/example/vibeverse/HomePage.java:245-282 | A completed loop yields exactly the first moods, in query order, that pass the checks, up to the remaining cap: skipped moods do not count toward it. |
| HomePage.ReachedThrowEndsLoop | code/app/src/main/java/com/example/vibeverse/HomePage.java:248-283 | A document whose reading throws, reached while the cap is not yet met, ends the callback without a result. |
| HomePage.TakeThrowsIff | code/app/src/main/java/com/example/vibeverse/HomePage.java:245-289 | The callback throws iff it reaches, before the cap is met, a document whose reading throws. |
| HomePage.UserEntriesAreFirstEligible | code/app/src/main/java/com/example/vibeverse/HomePage.java:245-282 | A completed callback contributes the first three eligible moods of the query. |
| HomePage.TakenAreEntries | code/app/src/main/java/com/example/vibeverse/HomePage.java:245-282 | Every mood a completed loop yields is the entry of one of the documents. |
| HomePage.EntriesArePublic | code/app/src/main/java/com/example/vibeverse/HomePage.java:253-256 | Every entry of a completed callback is public and belongs to the user it was fetched for. |
| HomePage.Arrive | code/app/src/main/java/com/example/vibeverse/HomePage.java:229-303 | A failure listener adds nothing and always completes; a posts callback adds its user's entries, or throws. |
| HomePage.Pending | code/app/src/main/java/com/example/vibeverse/HomePage.java:201-303 | After the k-th completed callback the counter is the start minus k; every callback up to the first that throws reaches its decrement, and no later one runs. |
| HomePage.FinalisedOnceAtEnd | code/app/src/main/java/com/example/vibeverse/HomePage.java:201-303 | With one callback per followed user and none throwing, the counter reaches 0 at the last callback and at no earlier one, so the feed is finalised exactly once. |
| HomePage.ThrowNeverFinalises | code/app/src/main/java/com/example/vibeverse/HomePage.java:201-303 | If some callback throws, the counter never reaches 0, so the feed is never finalised. |
| HomePage.Combined | code/app/src/main/java/com/example/vibeverse/HomePage.java:245-289 | The combined list exists iff no callback throws, and then holds at most three entries per followed user. |
| HomePage.CombinedAppends | code/app/src/main/java/com/example/vibeverse/HomePage.java:278-280 | Each completing callback appends its entries at the end of the combined list, so the list is the users' entries in arrival order. |
| HomePage.CombinedHoldsEach | code/app/src/main/java/com/example/vibeverse/HomePage.java:278-280 | Every entry of every completed callback is in the combined list. |
| HomePage.Insert | code/app/src/main/java/com/example/vibeverse/HomePage.java:319 | Inserting into a newest-first list of events keeps it newest first and brings in no event but the inserted one. |
| HomePage.InsertAddsOne | code/app/src/main/java/com/example/vibeverse/HomePage.java:319 | Inserting adds exactly the inserted event: the result holds the old events and it, each as often as before. |
| HomePage.SortNewestFirst | code/app/src/main/java/com/example/vibeverse/HomePage.java:319 | The events are sorted by date, newest first, and are a permutation of the input. |
| HomePage.SortKeepsSorted | code/app/src/main/java/com/example/vibeverse/HomePage.java:319 | Sorting events already newest first leaves them unchanged. |
| HomePage.Finalise | code/app/src/main/java/com/example/vibeverse/HomePage.java:313-336 | The empty state is shown iff nothing was combined; the sort throws iff two or more entries were combined and one has no date; otherwise the adapter's list is the combined events sorted newest first (the same multiset), shown in full for a blank search text and otherwise exactly the events whose reason matches it, in order. |
| HomePage.EntryReachesFeed | code/app/src/main/java/com/example/vibeverse/HomePage.java:278-330 | When every callback completes and the sort succeeds, every entry a followed user contributed is in the feed. |
| HomePage.StreakReset | code/app/src/main/java/com/example/vibeverse/HomePage.java:428-436 | The streak is reset, to 0, iff the user document exists and holds a last mood date other than today's. |
| HomePage.PostedTodayKeepsStreak | code/app/src/main/java/com/example/vibeverse/HomePage.java:428-436 | A last mood date of today, or none, keeps the streak. |
| Notifications.InitialStatus | code/app/src/main/java/com/example/vibeverse/Notification.java:49-54 | A new notification's request status is "pending" iff it is a follow request, and null otherwise. |
| Notifications.Create | code/app/src/main/java/com/example/vibeverse/Notification.java:41-54 | The six-argument constructor is unread, keeps its arguments, has status "pending" iff it is a follow request, and carries no mood event or owner. |
| Notifications.CreateAbout | code/app/src/main/java/com/example/vibeverse/Notification.java:58-74 | The eight-argument constructor is unread, has the same status rule, and stores the mood event id and owner. |
| Notifications.ConstructorsAgree | code/app/src/main/java/com/example/vibeverse/Notification.java:41-74 | The two constructors agree on every field except the mood event id and owner. |
| Notifications.SetRead | code/app/src/main/java/com/example/vibeverse/Notification.java:115-117 | setRead sets the read flag and leaves every other field, including the status, as it was. |
| Notifications.SetRequestStatus | code/app/src/main/java/com/example/vibeverse/Notification.java:89-91 | setRequestStatus sets the status and leaves every other field, including the read flag, as it was. |
| Notifications.SettersCommute | code/app/src/main/java/com/example/vibeverse/Notification.java:89-117 | The two setters commute, and writing back the old value of either restores the notification. |
| Social.ArrayUnion | code/app/src/main/java/com/example/vibeverse/UsersProfile.java:197 | Firestore arrayUnion: the result holds exactly the old elements plus x; it is unchanged when x was present and one longer otherwise. |
| Social.ArrayRemove | code/app/src/main/java/com/example/vibeverse/UsersProfile.java:237 | Firestore arrayRemove: the result holds exactly the old elements other than x, and is unchanged when x was absent. |
| Social.RemoveUndoesUnion | code/app/src/main/java/com/example/vibeverse/UsersProfile.java:197-237 | Removing an element that a union just added restores the array. |
| UsersProfile.FollowStateOf | code/app/src/main/java/com/example/vibeverse/UsersProfile.java:616-657 | Following iff the active user is a follower; Requested iff not a follower but among the requests; Follow otherwise. |
| UsersProfile.ButtonsFor | code/app/src/main/java/com/example/vibeverse/UsersProfile.java:664-686 | Exactly one of the three buttons is visible, the one of the current state. |
| UsersProfile.ButtonsDetermineState | code/app/src/main/java/com/example/vibeverse/UsersProfile.java:664-686 | The visible buttons determine the state. |
| UsersProfile.PublicPosts | code/app/src/main/java/com/example/vibeverse/UsersProfile.java:518-545 | The callback throws iff some document's reading throws; otherwise it lists at most one post per document, each public and owned by the page's user. |
| UsersProfile.KeptArePublic | code/app/src/main/java/com/example/vibeverse/UsersProfile.java:523-527 | Every post kept from the documents is public and owned by the page's user. |
| UsersProfile.LoadPosts | code/app/src/main/java/com/example/vibeverse/UsersProfile.java:485-556 | The follow-to-view state is shown iff the active user is not a known follower; a failed fetch gives an empty area without a count; the callback throws, after setting the count, iff some document's reading throws; otherwise the list counts every fetched document and lists exactly its first public entries. |
| UsersProfile.PostCountCoversList | code/app/src/main/java/com/example/vibeverse/UsersProfile.java:511-527 | When some fetched post is not public and no reading throws, the list is strictly shorter than the post count. |
| UsersProfile.SendRequest | code/app/src/main/java/com/example/vibeverse/UsersProfile.java:150-206 | Without a username nothing is sent; a sent request adds the active user to the requests (union), raises the unread count by one, appends one notification and ends Requested. |
| UsersProfile.SentRequestIsSeen | code/app/src/main/java/com/example/vibeverse/UsersProfile.java:187-206 | After a request from a non-follower the page reads as Requested. (Also lines 616-657.) |
| UsersProfile.FirstRequestFrom | code/app/src/main/java/com/example/vibeverse/UsersProfile.java:240-249 | Finds the first follow request from the sender in the inbox, or reports that there is none. |
| UsersProfile.CancelRequest | code/app/src/main/java/com/example/vibeverse/UsersProfile.java:233-258 | Cancelling removes the active user from the requests; when a request notification exists it is deleted and the unread count drops by one, otherwise both are unchanged; the followers are untouched. |
| UsersProfile.CancelUndoesRequest | code/app/src/main/java/com/example/vibeverse/UsersProfile.java:187-258 | Cancelling a request just sent restores the page user's account exactly. |
| UsersProfile.FirstRequestAppended | code/app/src/main/java/com/example/vibeverse/UsersProfile.java:240-249 | A request appended to an inbox without one from that sender is the one found. |
| UsersProfile.Unfollow | code/app/src/main/java/com/example/vibeverse/UsersProfile.java:293-304 | Unfollowing removes the active user from the followers and the page user from the following, lowers both counts by one, and leaves the requests alone. |
| UsersProfile.UnfollowShowsFollow | code/app/src/main/java/com/example/vibeverse/UsersProfile.java:293-304 | After unfollowing (with no pending request) the page reads as Follow. (Also lines 616-657.) |
| UsersProfile.OnFilteredResults | code/app/src/main/java/com/example/vibeverse/UsersProfile.java:720-728 | The filtered list replaces the adapter's; it is all displayed when the search text is empty and searched again otherwise. |
| NotificationsAdapter.LastDigit | code/app/src/main/java/com/example/vibeverse/NotificationsAdapter.java:301 | Java's day % 10: the last decimal digit for non-negative days, a non-positive remainder for negative ones, always congruent to the day modulo 10. |
| NotificationsAdapter.DayOfMonthSuffix | code/app/src/main/java/com/example/vibeverse/NotificationsAdapter.java:297-307 | 11, 12 and 13 take "th"; otherwise a last digit of 1, 2 or 3 takes "st", "nd" or "rd", and "th" comes back exactly in the remaining cases. |
| NotificationsAdapter.SuffixesOfTheMonth | code/app/src/main/java/com/example/vibeverse/NotificationsAdapter.java:297-307 | Over a month: 1st, 2nd, 3rd, 4th to 20th, 21st, 22nd, 23rd, 24th to 30th, 31st. |
| NotificationsAdapter.ActionsFor | code/app/src/main/java/com/example/vibeverse/NotificationsAdapter.java:96-119 | A pending follow request shows accept and reject; a follow request with any other non-null status shows that status's icon; other types show no buttons. |
| NotificationsAdapter.FreshRequestOffersChoice | code/app/src/main/java/com/example/vibeverse/NotificationsAdapter.java:96-119 | A newly created follow request offers accept and reject, and any other new notification no buttons. |
| NotificationsAdapter.UnreadBackground | code/app/src/main/java/com/example/vibeverse/NotificationsAdapter.java:88-93 | The unread background is used iff the entry is unread. |
| NotificationsAdapter.RouteFor | code/app/src/main/java/com/example/vibeverse/NotificationsAdapter.java:146-169 | A follow request opens the sender's profile; a comment or reply notification opens the comment section of its mood and owner; other types go nowhere. |
| NotificationsAdapter.FirstWithId | code/app/src/main/java/com/example/vibeverse/NotificationsAdapter.java:213-221 | Finds the first entry with the id, if any; no entry before it has the id, and none is found only when no entry has it. (Also lines 248-255.) |
| NotificationsAdapter.MarkStatus | code/app/src/main/java/com/example/vibeverse/NotificationsAdapter.java:213-225 | Writing a status changes only the status of the first entry with that id: it then carries the status, and every other entry is as it was. (Also lines 248-259.) |
| NotificationsAdapter.Accept | code/app/src/main/java/com/example/vibeverse/NotificationsAdapter.java:183-225 | Accepting applies arrayRemove(sender) to the requests, arrayUnion(sender) to the followers and arrayUnion(current user) to the sender's following, raises both counts by one, and marks the first inbox entry with the notification's id "accepted"; the unread count and the sender's inbox and requests are unchanged. |
| NotificationsAdapter.Reject | code/app/src/main/java/com/example/vibeverse/NotificationsAdapter.java:241-259 | Rejecting applies arrayRemove(sender) to the requests and marks the first inbox entry with the notification's id "rejected"; followers, following, both counts and the unread count are unchanged. |
| NotificationsAdapter.AcceptAndRejectClearAlike | code/app/src/main/java/com/example/vibeverse/NotificationsAdapter.java:187-245 | Accept and reject leave the same request list. |
| NotificationsAdapter.DecisionIsSeen | code/app/src/main/java/com/example/vibeverse/NotificationsAdapter.java:183-259 | After accepting, the sender sees Following on the current user's page; after rejecting a non-follower, Follow. |
| NotificationsAdapter.UnfollowUndoesAccept | code/app/src/main/java/com/example/vibeverse/NotificationsAdapter.java:183-211 | Accepting a new follower who then unfollows restores both follower and following lists and counts. |
| AchievementChecker.Bump | code/app/src/main/java/com/example/vibeverse/AchievementChecker.java:48-65 | Only an existing, incomplete document changes: progress (missing as 0) goes up by one, and the status becomes unclaimed iff the new progress reaches the count and stays incomplete otherwise. |
| AchievementChecker.BumpCounts | code/app/src/main/java/com/example/vibeverse/AchievementChecker.java:48-65 | From an incomplete document below the count, n qualifying events give progress min(p + n, count) and make it unclaimed iff p + n reaches the count. |
| AchievementChecker.StaysOnceSettled | code/app/src/main/java/com/example/vibeverse/AchievementChecker.java:52-53 | An unclaimed or complete document never changes again, however many events follow. |
| AchievementChecker.BumpIn | code/app/src/main/java/com/example/vibeverse/AchievementChecker.java:48-65 | Updating one achievement leaves every other document of the store alone. |
| AchievementChecker.BumpAll | code/app/src/main/java/com/example/vibeverse/AchievementChecker.java:79-84 | Updating a list of achievements leaves every achievement outside the list alone. |
| AchievementChecker.BumpAllBumpsEach | code/app/src/main/java/com/example/vibeverse/AchievementChecker.java:79-84 | Updating a list of distinct achievements updates each of them exactly once, with its own required count. |
| AchievementChecker.OnMoodPosted | code/app/src/main/java/com/example/vibeverse/AchievementChecker.java:79-84 | A posted mood touches only ach1 to ach4. |
| AchievementChecker.RunChecker | code/app/src/main/java/com/example/vibeverse/AchievementChecker.java:205-296 | Each single-achievement checker touches only its own document, raising progress by one and unlocking it at its count (1, 5, 20 or 30). (Also lines 331-340.) |
| AchievementChecker.FollowerAndCommentMilestones | code/app/src/main/java/com/example/vibeverse/AchievementChecker.java:233-253 | From a fresh document the fifth follower unlocks ach18 and the fourth does not; the first comment unlocks ach14. (Also lines 285-287.) |
| AchievementChecker.FirstMoodUnlocksFirstAchievement | code/app/src/main/java/com/example/vibeverse/AchievementChecker.java:79-84 | From fresh documents the first mood makes ach1 unclaimed at progress 1 and leaves ach4 incomplete at progress 1. |
| AchievementChecker.Triggered | code/app/src/main/java/com/example/vibeverse/AchievementChecker.java:91-135 | ach5 iff the hour is before 6, ach6 iff it is 0, exactly one of ach7 (public) and ach8 (private), ach24 iff December 24, ach25 iff January 1 (months from 0), ach22 iff the mood has a photo, and no other achievement. (Also lines 379-405.) |
| AchievementChecker.DatePredicatesRelate | code/app/src/main/java/com/example/vibeverse/AchievementChecker.java:91-115 | A midnight post is also an early post, and no two of the holiday checks fire on the same day. (Also lines 303-342 and 379-405.) |
| AchievementChecker.MarkSpooky | code/app/src/main/java/com/example/vibeverse/AchievementChecker.java:303-325 | On October 31 an existing incomplete ach20 jumps to progress 1, unclaimed; otherwise nothing changes. |
| AchievementChecker.AddEntity | code/app/src/main/java/com/example/vibeverse/AchievementChecker.java:150-160 | The explorer list gains the title exactly when it is new, and stays free of duplicates. |
| AchievementChecker.ExploreAsWritten | code/app/src/main/java/com/example/vibeverse/AchievementChecker.java:144-197 | As written: the list gains the title, progress is its size, and reaching the goal writes unclaimed whatever the current status. |
| AchievementChecker.ExplorerReopensClaimed | code/app/src/main/java/com/example/vibeverse/AchievementChecker.java:144-172 | As written, a claimed ach9 becomes unclaimed again with the next mood. |
| AchievementChecker.Explore | code/app/src/main/java/com/example/vibeverse/AchievementChecker.java:144-197 | Corrected: same list and progress, but only an incomplete document changes status, becoming unclaimed iff the goal is reached. |
| AchievementChecker.ExplorerKeepsClaimed | code/app/src/main/java/com/example/vibeverse/AchievementChecker.java:144-197 | With the guard a claimed explorer stays complete, and an incomplete one is updated exactly as written. |
| AchievementChecker.StreakAsWritten | code/app/src/main/java/com/example/vibeverse/AchievementChecker.java:360-372 | As written: progress becomes the streak, unclaimed iff it is at least 7 and incomplete otherwise. |
| AchievementChecker.StreakRevokesClaimed | code/app/src/main/java/com/example/vibeverse/AchievementChecker.java:360-372 | As written, a claimed ach23 is reset to incomplete by a streak of 0 and made claimable again by a streak of 7. (Also HomePage.java line 441.) |
| AchievementChecker.Streak | code/app/src/main/java/com/example/vibeverse/AchievementChecker.java:360-372 | Corrected: progress becomes the streak, a complete document stays complete, and otherwise it is unclaimed iff the streak is at least 7. |
| AchievementChecker.StreakKeepsClaimed | code/app/src/main/java/com/example/vibeverse/AchievementChecker.java:360-372 | With the correction, no run of streak updates takes a claimed ach23 away. |
| AchievementAdapter.TierColorOf | code/app/src/main/java/com/example/vibeverse/AchievementAdapter.java:87-101 | Tier 1 is bronze, 2 silver, 3 gold, and exactly the other values get the darker gray. |
| AchievementAdapter.StoredProgress | code/app/src/main/java/com/example/vibeverse/AchievementAdapter.java:118-121 | A missing document or progress field reads as 0; otherwise the stored progress. |
| AchievementAdapter.RowFor | code/app/src/main/java/com/example/vibeverse/AchievementAdapter.java:118-140 | A failed read shows "0 / total"; progress below the total shows "p / total"; at or above it the claim button shows iff the status is unclaimed, and Completed shows otherwise. (Also lines 211-227.) |
| AchievementAdapter.Claim | code/app/src/main/java/com/example/vibeverse/AchievementAdapter.java:145-185 | Claiming marks the document complete, keeps its progress, adds the completion XP, and moves the unlocked theme from locked to unlocked only when it is set and not "N/A", leaving every other theme where it was. |
| AchievementAdapter.ClaimedRowIsCompleted | code/app/src/main/java/com/example/vibeverse/AchievementAdapter.java:134-156 | A claimable row shows Completed once claimed. (Also lines 211-217.) |
| AchievementAdapter.ExplorerXpTwice | code/app/src/main/java/com/example/vibeverse/AchievementAdapter.java:145-156 | As written, a claimed explorer achievement becomes claimable with the next mood and a second claim pays its XP again. (Also AchievementChecker.java lines 144-172.) |
| Levels.FirstRow | code/app/src/main/java/com/example/vibeverse/AchievementActivity.java:227-234 | Finds the first row of the table with the given level, or reports that no row has it. |
| Levels.XpForLevelIsFirstRow | code/app/src/main/java/com/example/vibeverse/AchievementActivity.java:227-234 | getXPForLevel returns the xpRequired of the first row with that level, and 0 when there is none. |
| Levels.BarFor | code/app/src/main/java/com/example/vibeverse/AchievementActivity.java:195-218 | Below the top level the bar's range is the next threshold minus the current one and the XP left is the next threshold minus the XP; at the top level the range is 0 and the XP left is minus the XP into the level; XP into the level is measured from its threshold, and into plus left equals the range. |
| Levels.Clamp | code/app/src/main/java/com/example/vibeverse/AchievementActivity.java:213-214 | The progress bar holds a value between 0 and its maximum, and keeps any value already in range. |
| Levels.GainAsWritten | code/app/src/main/java/com/example/vibeverse/AchievementActivity.java:305-333 | As written: a level-up happens iff progress plus the gain reaches the maximum, and then the level goes up by one with the non-negative overflow carried over. |
| Levels.AfterLevelUp | code/app/src/main/java/com/example/vibeverse/AchievementActivity.java:387-396 | After a level-up the bar range is the new level's, and the XP left shown is never negative. |
| Levels.TopLevelStillLevelsUp | code/app/src/main/java/com/example/vibeverse/AchievementActivity.java:305-333 | As written, at the top level of the table the bar range is 0, so any gain levels up to a level the table does not have. (Also lines 197-203.) |
| Levels.GainCapped | code/app/src/main/java/com/example/vibeverse/AchievementActivity.java:305-333 | Corrected: a level-up happens iff the next level exists and the gain reaches the maximum, and then it lands on a level the table has. |
| Levels.LevelStaysInTable | code/app/src/main/java/com/example/vibeverse/AchievementActivity.java:305-333 | With the correction no sequence of gains takes the level outside the table. |
| Levels.UnlockedThemeStream | code/app/src/main/java/com/example/vibeverse/AchievementActivity.java:455 | The stream lookup gives the first matching row's unlocks value, and "N/A" when no row matches. |
| Levels.LookupsAgree | code/app/src/main/java/com/example/vibeverse/AchievementActivity.java:605-612 | The loop lookup and the stream lookup agree on whether a theme unlocks, and on which. (Also line 455.) |
| Levels.UnlockForLevel | code/app/src/main/java/com/example/vibeverse/AchievementActivity.java:455-482 | Nothing changes when the lookup gives "N/A"; otherwise that theme leaves the locked list and joins the unlocked one, and every other theme stays where it was. |
| Levels.FindThemeData | code/app/src/main/java/com/example/vibeverse/AchievementActivity.java:513-522 | The theme found has the requested id and comes from the list; none is found exactly when the list is missing or no theme has that id. |
| Themes.CardFor | code/app/src/main/java/com/example/vibeverse/ThemeAdapter.java:109-132 | A locked theme shows the overlay, no button and no outline; an unlocked theme shows a disabled "Selected" iff it is the selected one and an enabled "Select" otherwise; only the selected card is outlined. |
| Themes.SelectionIsUnique | code/app/src/main/java/com/example/vibeverse/ThemeAdapter.java:69-72 | After updateSelectedTheme(x), a card shows Selected iff it is x and x is unlocked, so no two different themes show Selected. (Also line 119.) |
| Themes.PopupFor | code/app/src/main/java/com/example/vibeverse/ThemeAdapter.java:220-224 | The popup of a locked theme says "Unlocked by " and who, and has no button; an unlocked theme's popup has the card's button. |
| Themes.EmojiResourceName | code/app/src/main/java/com/example/vibeverse/ThemeAdapter.java:269-272 | The resource name is "emoji_", the lower-cased mood, "_" and the lower-cased theme. |
| Themes.EmojiNameIgnoresCase | code/app/src/main/java/com/example/vibeverse/ThemeAdapter.java:269-272 | Upper-casing the mood or the theme names the same resource. |
| Themes.LowerOfUpper | code/app/src/main/java/com/example/vibeverse/ThemeAdapter.java:270-271 | Lower-casing an upper-cased string gives the lower-cased original. |
| Themes.Flatten | code/app/src/main/java/com/example/vibeverse/VibeStoreActivity.java:77-96 | A theme is listed iff it is in one of the non-null arrays; null or empty arrays add nothing. |
| Themes.LoadThemes | code/app/src/main/java/com/example/vibeverse/VibeStoreActivity.java:77-96 | The theme list is all unlocked names followed by all locked names in document order, and the locked set holds exactly the locked names. |
| Themes.StoreCardsFollowLists | code/app/src/main/java/com/example/vibeverse/VibeStoreActivity.java:77-96 | Every locked name gets the locked card, and every name only in the unlocked arrays gets a button. (Also ThemeAdapter.java lines 109-132.) |
| Themes.SelectedThemeOf | code/app/src/main/java/com/example/vibeverse/VibeStoreActivity.java:53-58 | The selected theme is the stored field, or "" when the document or the field is missing. |
| Comments.Preview | code/app/src/main/java/com/example/vibeverse/CommentSectionActivity.java:297-299 | A text of at most 50 characters is kept; a longer one becomes its first 50 characters followed by "...", so a preview never exceeds 53 characters. (Also lines 425-427.) |
| Comments.CloseBanner | code/app/src/main/java/com/example/vibeverse/CommentSectionActivity.java:138-141 | Closing the banner ends reply mode. |
| Comments.UserIdOf | code/app/src/main/java/com/example/vibeverse/CommentSectionActivity.java:223 | The author is the signed-in user, or "anonymous". |
| Comments.OwnerName | code/app/src/main/java/com/example/vibeverse/CommentSectionActivity.java:288-294 | The post owner's name is never empty: the stored name, or "someone". |
| Comments.NoticeFor | code/app/src/main/java/com/example/vibeverse/CommentSectionActivity.java:265-330 | No notice for a reply to one's own comment, a comment on one's own post, or a sender without a username; otherwise exactly one unread notice from the author, about the mood and its owner: COMMENT_REPLIED_TO to the parent's author for a reply, POST_COMMENTED_ON to the mood owner for a comment. (Also lines 405-449.) |
| Comments.Deliver | code/app/src/main/java/com/example/vibeverse/CommentSectionActivity.java:350-358 | A notice joins the end of the recipient's inbox and raises their newNotificationCount by one; no notice changes nothing; follow lists, requests and counts are untouched. |
| Comments.CommentRaisesRecipientCount | code/app/src/main/java/com/example/vibeverse/CommentSectionActivity.java:470-483 | A named user's comment on another user's mood, or reply to another user's comment, raises the recipient's unread count by exactly one and lands in their inbox. |
| Comments.PostComment | code/app/src/main/java/com/example/vibeverse/CommentSectionActivity.java:216-267 | A blank comment is refused with "Please enter a comment"; otherwise the trimmed text is written by the author, a reply under comments/parent/replies/id with the parent's id, a top-level comment under comments/id with "N/A", and reply mode ends. (Also lines 386-392.) |
| Comments.RowActionFor | code/app/src/main/java/com/example/vibeverse/CommentAdapter.java:165-177 | The delete icon shows iff the current user wrote the comment; anyone else's tap opens the author's profile. (Also ReplyAdapter.java lines 128-139.) |
| Comments.DeleteCommentPath | code/app/src/main/java/com/example/vibeverse/CommentAdapter.java:181-196 | CommentAdapter deletes iff the comment is top-level (repliesTo null or "N/A"), and then comments/id. |
| Comments.DeleteReplyPath | code/app/src/main/java/com/example/vibeverse/ReplyAdapter.java:143-154 | ReplyAdapter deletes iff the comment is a reply, and then comments/parent/replies/id. |
| Comments.DeletesAreComplementary | code/app/src/main/java/com/example/vibeverse/CommentAdapter.java:181-196 | Exactly one of the two deletes applies to any comment. (Also ReplyAdapter.java lines 143-154.) |
| Comments.DeleteFindsPosted | code/app/src/main/java/com/example/vibeverse/CommentSectionActivity.java:232-255 | A posted comment is deleted from where it was written: a top-level comment by the comment delete, a reply by the reply delete. (Also CommentAdapter.java lines 181-196; ReplyAdapter.java lines 143-154.) |
| Comments.RepliesVisible | code/app/src/main/java/com/example/vibeverse/CommentAdapter.java:230 | The replies list is shown iff there are replies. |
| Comments.ReplyUsername | code/app/src/main/java/com/example/vibeverse/ReplyAdapter.java:109-122 | The reply's username is the stored one, or "Unknown" when the user document or the field is missing. |
| Maps.RadiusFor | code/app/src/main/java/com/example/vibeverse/MapsActivity.java:192-201 | For slider positions 0 to 95 the radius is 5 plus the position in whole kilometres, so it stays within 5 to 100. |
| Maps.RadiusStrictlyIncreasing | code/app/src/main/java/com/example/vibeverse/MapsActivity.java:197-200 | A higher slider position gives a strictly larger radius. |
| Maps.Toggle | code/app/src/main/java/com/example/vibeverse/MapsActivity.java:165-178 | Turning followers mode on shows the radius panel and resets the radius to 5 km and the slider to 0; turning it off hides the panel and keeps the radius. |
| Maps.Slide | code/app/src/main/java/com/example/vibeverse/MapsActivity.java:197-200 | Moving the slider sets the radius from the position and changes nothing else. |
| Maps.ReenteringResetsRadius | code/app/src/main/java/com/example/vibeverse/MapsActivity.java:165-178 | Leaving followers mode and entering it again forgets the chosen radius. |
| Maps.ColorFor | code/app/src/main/java/com/example/vibeverse/MapsActivity.java:880-895 | An unknown or missing mood title starts from gray; intensity 5 keeps the base colour; without an intensity no adjustment is made. (Also lines 480-486.) |
| Maps.OwnMarker | code/app/src/main/java/com/example/vibeverse/MapsActivity.java:465-490 | An own mood gets a marker iff it has both coordinates, whatever its visibility. |
| Maps.OwnMarkers | code/app/src/main/java/com/example/vibeverse/MapsActivity.java:465-490 | At most one marker per own mood. |
| Maps.IsWithinRange | code/app/src/main/java/com/example/vibeverse/MapsActivity.java:600-611 | Without a user location nothing is in range; otherwise a mood is in range iff its distance is at most the radius. |
| Maps.FollowedMarker | code/app/src/main/java/com/example/vibeverse/MapsActivity.java:545-560 | A followed user's mood gets a marker iff it is public, has both coordinates and is within range; the marker is not own and names its owner. |
| Maps.FollowedMarkers | code/app/src/main/java/com/example/vibeverse/MapsActivity.java:545-560 | At most one marker per followed mood. |
| Maps.NoLocationNoFollowedMarkers | code/app/src/main/java/com/example/vibeverse/MapsActivity.java:600-602 | Without a known user location the followers map stays empty. |
| Maps.OwnMapIgnoresVisibility | code/app/src/main/java/com/example/vibeverse/MapsActivity.java:465-470 | Every located own mood, private or public, is drawn. |
| Maps.MarkerHeight | code/app/src/main/java/com/example/vibeverse/MapsActivity.java:670 | The marker bitmap is 310 high with a username and 280 without. |
| Navigation.CurrentTab | code/app/src/main/java/com/example/vibeverse/NavigationHelper.java:69-84 | Home, Profile, Add, Search and Map select their own tab, and any other screen selects Home. |
| Navigation.OnTabSelected | code/app/src/main/java/com/example/vibeverse/NavigationHelper.java:40-59 | A tab navigates iff it is known and its screen is not the current one, and then to that screen. |
| Navigation.InitialTabStaysPut | code/app/src/main/java/com/example/vibeverse/NavigationHelper.java:33-51 | Re-selecting the tab a known screen starts with never navigates; on any other screen the initial Home tab leads Home. |
| Navigation.NavigationHighlightsTab | code/app/src/main/java/com/example/vibeverse/NavigationHelper.java:33-59 | After navigating, the new screen's initial tab is the tab that was tapped. |
| Insights.ActivityDays | code/app/src/main/java/com/example/vibeverse/MoodInsightsActivity.java:73-81 | The activity looks back 6, 13 or 29 days, so with today its window covers 7, 14 or 30 days for the three ranges. |
| Insights.FragmentDays | code/app/src/main/java/com/example/vibeverse/MoodInsights.java:104-111 | The fragment looks back exactly 7, 14 or 30 days for the three ranges. |
| Insights.WindowsAgree | code/app/src/main/java/com/example/vibeverse/MoodInsights.java:104-111 | For every range the activity's window is one day shorter than the fragment's. (Also MoodInsightsActivity.java lines 73-81.) |
| Insights.FragmentInitialDays | code/app/src/main/java/com/example/vibeverse/MoodInsights.java:174-187 | With no moods the fragment shows the empty state; otherwise it starts on the past week. |
| Insights.LoadOne | code/app/src/main/java/com/example/vibeverse/MoodInsights.java:140-163 | A document throws out of the listener iff fromMap fails a cast; otherwise it is skipped iff its timestamp is present and the reader rejects it, and a read timestamp becomes the mood's date. |
| Insights.LoadMoods | code/app/src/main/java/com/example/vibeverse/MoodInsights.java:136-163 | The load throws iff some document's cast fails; otherwise it keeps at most one mood per document. |
| Insights.AppStamp | code/app/src/main/java/com/example/vibeverse/MoodEvent.java:158-160 | A timestamp as the app writes it opens with a month abbreviation, never with a digit. |
| Insights.FragmentDropsAppStamps | code/app/src/main/java/com/example/vibeverse/MoodInsights.java:62 | As written, the fragment's year-first reader rejects every timestamp the app writes, so a load of such moods completes with none of them. |
| Insights.FragmentShowsEmptyState | code/app/src/main/java/com/example/vibeverse/MoodInsights.java:174-187 | So a user with a saved mood sees the fragment's empty state. |
| Insights.FragmentKeepsReadableStamps | code/app/src/main/java/com/example/vibeverse/MoodInsightsActivity.java:57 | With the activity's reader, which accepts the stored timestamps, the load completes iff no cast fails, and then keeps every mood, in order, dated by its timestamp. |
| Insights.FilterMoods | code/app/src/main/java/com/example/vibeverse/MoodInsights.java:200-211 | Exactly the dated moods no older than the window are kept, in their order; undated moods are dropped. (Also MoodInsightsActivity.java lines 138-149.) |
| Insights.NarrowerWindowWithinWider | code/app/src/main/java/com/example/vibeverse/MoodInsights.java:200-211 | Filtering a wider window and then a narrower one equals filtering the narrower one directly. |
| Insights.Titles | code/app/src/main/java/com/example/vibeverse/MoodInsights.java:224-228 | One title per mood, in the moods' order. |
| Insights.Tally | code/app/src/main/java/com/example/vibeverse/MoodInsights.java:224-228 | The count map has exactly the titles that occur, each with its number of occurrences, all positive. (Also MoodInsightsActivity.java lines 158-163.) |
| Insights.CountOfDistinct | code/app/src/main/java/com/example/vibeverse/MoodInsights.java:224-228 | A key listed once in a duplicate-free order occurs once. |
| Insights.CountsSumToTotal | code/app/src/main/java/com/example/vibeverse/MoodInsights.java:224-228 | Over a duplicate-free list of all titles, the occurrence counts add up to the number of moods. |
| Insights.SumOverTally | code/app/src/main/java/com/example/vibeverse/MoodInsights.java:224-228 | Summing the count map over some keys equals summing their occurrence counts. |
| Insights.TallySumsToTotal | code/app/src/main/java/com/example/vibeverse/MoodInsights.java:224-228 | The counts of the map, each key visited once, add up to the number of moods: the pie chart's slices cover every mood. |
| Insights.TopMood | code/app/src/main/java/com/example/vibeverse/MoodInsights.java:308-315 | The scan returns a title that occurs, whose count no other title exceeds, and which is the first of the highest in visiting order. (Also MoodInsightsActivity.java lines 227-234.) |
| Insights.SummaryEmojiAsWritten | code/app/src/main/java/com/example/vibeverse/MoodInsights.java:318-328 | The fallback emoji is shown iff the top title is not one of the eight noun keys. |
| Insights.PickerTitlesGetFallback | code/app/src/main/java/com/example/vibeverse/MoodInsights.java:318-328 | Every title the mood picker stores gets the fallback emoji from the noun table. |
| Insights.SummaryEmoji | code/app/src/main/java/com/example/vibeverse/MoodInsights.java:318-328 | A mood name gets that mood's picker emoji; anything else gets the fallback. |
| Insights.PickerTitlesGetOwnEmoji | code/app/src/main/java/com/example/vibeverse/MoodInsights.java:318-328 | Every stored mood name gets its own emoji, never the fallback. |
| Insights.Summarise | code/app/src/main/java/com/example/vibeverse/MoodInsights.java:296-329 | As written: "No mood data" iff there are no moods; otherwise the shown title occurs and is among the most frequent, and its emoji is the noun table's, with the fallback for any other title. (Also MoodInsightsActivity.java lines 216-247.) |
| Insights.SummaryShowsFallback | code/app/src/main/java/com/example/vibeverse/MoodInsights.java:318-328 | As written, a summary of moods saved through the picker shows the fallback emoji whatever the top mood. |
| Insights.SummariseFixed | code/app/src/main/java/com/example/vibeverse/MoodInsights.java:296-329 | Corrected summary: the same title choice, with the top mood's own picker emoji, never the fallback for a mood name. |
| Insights.DailyCards | code/app/src/main/java/com/example/vibeverse/MoodInsightsActivity.java:181-210 | One card per day from today back to the start day, newest first, each holding only moods dated on its day. |
| Insights.CardsPartitionDays | code/app/src/main/java/com/example/vibeverse/MoodInsightsActivity.java:202-207 | The cards together hold every mood dated in the covered days exactly once. |
| Insights.WindowFitsCards | code/app/src/main/java/com/example/vibeverse/MoodInsightsActivity.java:181-210 | With a monotone day function and no future moods, the cards show every mood of the window exactly once. (Also lines 138-149.) |
| Insights.Chips | code/app/src/main/java/com/example/vibeverse/MoodInsightsActivity.java:202-207 | A card with no moods shows the single "No moods" chip; otherwise one chip per mood. |
| UserDetails.Errors | code/app/src/main/java/com/example/vibeverse/UserDetails.java:148-172 | Each text field is flagged iff it is blank after trimming, and the gender iff the placeholder is selected; every failing field is flagged. |
| UserDetails.OnContinue | code/app/src/main/java/com/example/vibeverse/UserDetails.java:148-199 | The profile is written iff no field is flagged, with trimmed non-empty texts, the chosen gender and the account email; otherwise the flags and the fill-in toast. |
| UserDetails.ResubmitWritesSame | code/app/src/main/java/com/example/vibeverse/UserDetails.java:174-182 | Submitting the stored profile again writes the same document. |
| UserDetails.SlashAfterDigits | code/app/src/main/java/com/example/vibeverse/UserDetails.java:217 | In digits + "/" + rest the first slash follows the digits. |
| UserDetails.SplitAtSlash | code/app/src/main/java/com/example/vibeverse/UserDetails.java:217 | Two digit strings followed by a slash split a text the same way. |
| UserDetails.DateTextDetermines | code/app/src/main/java/com/example/vibeverse/UserDetails.java:217 | The picked date's text determines the day, month and year: different dates never show the same text. |
| UserDetails.SaveLegacy | code/app/src/main/java/com/example/vibeverse/UserDetailsActivity.java:87-99 | The older form saves iff name, username, age and date are non-empty, and then stores exactly the six keys with the untrimmed texts and the chosen gender. |
| UserDetails.ValidationsDiffer | code/app/src/main/java/com/example/vibeverse/UserDetailsActivity.java:87-90 | A blank-but-not-empty name passes the older form's check yet is flagged by the newer one. (Also UserDetails.java lines 148-172.) |
| Login.LoginStartRoute | code/app/src/main/java/com/example/vibeverse/Login.java:65-72 | A signed-in user with a profile goes home, one without goes to the profile form; no answer stays. |
| Login.RegisterStartRoute | code/app/src/main/java/com/example/vibeverse/Register.java:84-92 | On the sign-up screen a profile leads to the main screen and no profile to the profile form; no answer stays. |
| Login.GoogleRoute | code/app/src/main/java/com/example/vibeverse/Register.java:256-263 | After Google sign-in a profile leads to the profile page and no profile to the profile form; no answer stays. |
| Login.MissingProfileAsksForDetails | code/app/src/main/java/com/example/vibeverse/Login.java:65-72 | On every entry route the profile form is shown iff the account has no profile document. (Also Register.java lines 84-92 and 256-263.) |
| Login.LoginSubmit | code/app/src/main/java/com/example/vibeverse/Login.java:120-129 | Sign-in is attempted iff email and password are non-empty, with exactly those; a missing email is reported first. |
| Login.RegisterSubmit | code/app/src/main/java/com/example/vibeverse/Register.java:138-147 | Sign-up is attempted iff email and password are non-empty, with exactly those; a missing email is reported first. |
| Login.SubmitsAgreeButForProgress | code/app/src/main/java/com/example/vibeverse/Login.java:120-129 | Both screens accept and refuse the same inputs with the same toast; they differ only in the progress bar after a missing email. (Also Register.java lines 138-147.) |
| Login.LoginResult | code/app/src/main/java/com/example/vibeverse/Login.java:131-143 | A successful sign-in goes home and a failure stays. |
| Login.RegisterResult | code/app/src/main/java/com/example/vibeverse/Register.java:149-157 | A successful sign-up goes to the profile form and a failure stays. |
| Login.AcceptCredential | code/app/src/main/java/com/example/vibeverse/Register.java:221-236 | A token is used iff the credential is a custom credential of the Google ID token type, and it is that credential's token. |
| UserSearch.ServerQuery | code/app/src/main/java/com/example/vibeverse/SearchUserPage.java:110-116 | Each result is a user document whose lower-cased username starts with the query, and there are exactly as many as the smaller of twenty and the number of matches. |
| UserSearch.ServerQueryComplete | code/app/src/main/java/com/example/vibeverse/SearchUserPage.java:110-116 | A matching document with fewer than twenty matches before it is returned, at the position of its rank among the matches: the results are the first twenty matches in order. |
| UserSearch.FewMatchesAllReturned | code/app/src/main/java/com/example/vibeverse/SearchUserPage.java:110-116 | With at most twenty matches, every match is returned. |
| UserSearch.ListHits | code/app/src/main/java/com/example/vibeverse/SearchUserPage.java:118-128 | No more users than documents returned. |
| UserSearch.ListedIffOther | code/app/src/main/java/com/example/vibeverse/SearchUserPage.java:123-127 | A user is listed iff a returned document has its id and username and it is not the signed-in user. |
| UserSearch.OnTextChanged | code/app/src/main/java/com/example/vibeverse/SearchUserPage.java:84-90 | The list is cleared iff the trimmed text is empty; otherwise at most twenty users are shown. |
| UserSearch.SearchFindsOthers | code/app/src/main/java/com/example/vibeverse/SearchUserPage.java:84-127 | For a non-blank text a user is shown iff it is not the signed-in user and a returned match has its id and name; every shown user's document matches the trimmed, lower-cased text. |

## Left out

- EditMood.Open: the slider's progress before line 371 comes from the layout, which is not part of this model, so it is the `sliderStart` parameter. The drawable lookups at lines 1012 and 1326 are not modelled: a theme or mood with no drawable resource is left out, and `selectedTheme` is taken to be non-null once initializeUI runs.
- EditMood.SlideTo: the bar and the emoji scale set before the throw at line 1012 are not kept: the throw ends the activity, so the model returns no editor.
- Firebase, Firestore and Storage I/O, Android views, toasts, intents and threads: each callback becomes a function of the data it receives. A failed fetch becomes the branch the code takes (usually "nothing changes").
- Float and colour arithmetic: colour intensity scaling, marker bitmaps and chart values. Only the branch decisions are modelled, such as "intensity 5 keeps the base colour" and "a missing mood starts from gray".
- Date and time formatting: the local-calendar day of an instant and date formatting are parameters (`dayOf`, `format`). The clock is a `now` parameter.
- The daily cards' day labels show no year. Only the day numbers are modelled.
- Great-circle distance: `Maps` takes the distance function as a parameter.
- The MoodInsights line charts: they plot floating-point daily averages.
- UserSearch.ServerQuery: the query's range from `q` to `q + "\uf8ff"` is read as "the lower-cased username starts with `q`". The store's string order is not modelled: a username whose next character after the prefix sorts above U+F8FF is such a prefix match yet falls outside the range.
- Java `char` is UTF-16. Dafny's `char` is a Unicode scalar value, and case mapping is ASCII only.
- Java `long` and `int` overflow: counters, XP and timestamps are unbounded integers. No value in the app comes near the limits.
- HashMap iteration order: the order in which the top-mood scan visits keys is a parameter.
- HomePage.Pending: the asynchronous callbacks run one at a time on the main thread; the model takes them as a sequence in arrival order. An exception a callback does not catch stops the app, so the sequence ends there.
- HomePage.FinalisedOnceAtEnd: assumes exactly one outcome per followed user and does not model lost callbacks.
- HomePage.FeedDoc: whether `fromMap` fails a cast is a flag of the document, not derived from the stored field types.
- Insights.LoadOne: likewise, a cast failure in `fromMap` is the `castFails` flag of the stored mood.
- Maps.FollowedMarker: `isPublic` is read as an optional Boolean. A stored value of another type, which makes the `(Boolean)` cast of `MapsActivity.java` line 545 throw out of that user's listener, is not modelled.
- MoodEvents.RoundTripFields: stored numbers are plain integers. The difference between an `Integer` and a `Long` field (the `(Long)` cast of `MoodEvent.java` line 106 against `put("intensity", ...)` at line 68), the `Long`/`Integer`/`Double` branches for the photo size (lines 135-141) and the `Long`/`Timestamp` branches for the photo date (lines 120-123) are collapsed into one case each.
- MoodEvents.Value: likewise one integer case for every stored number type.
- Comments.Deliver: the notification is written with `set` under a fresh id; the model appends it to the inbox.
- Insights.AppStamp: month abbreviations as in an English locale. The readers are `parse` parameters; the fragment's ISO reader is characterised only by rejecting strings that open with an ASCII letter (`Insights.RejectsLetterFirst`), which SimpleDateFormat does because the pattern opens with the numeric year.
- Spinner positions: a form's gender or mood position is required to lie within its option list, as the Android spinner guarantees.
- Levels.AfterLevelUp: its contract partly restates the level table lookup. The independent statement is `Levels.LevelStaysInTable`.
- Photograph setters: each replaces one field and nothing else, which is Dafny's datatype update. They have no separate members.
- The callers that hand ach11, ach13 and ach15 to ach19 their events are not part of this model. `AchievementChecker.CheckerGoals` records the count each checker passes.
- The six- and seven-argument `MoodEvent` constructors used by `SelectMood` are not part of this model. The add flow is modelled through `Records`.
- Helpers without their own contract (`Levels.XpForLevel`, `AchievementAdapter.ProgressText`, `AchievementChecker.BumpTimes`, the date predicates) are covered by the lemmas that use them.

## Findings

| source | as written | input that shows it | evidently intended | confidence | as-written member | corrected member |
|---|---|---|---|---|---|---|
| code/app/src/main/java/com/example/vibeverse/MoodEvent.java:145-146 | `fromMap` rebuilds the photo with the four-argument Photograph constructor, which sets no URI, so `getPhotoUri` is "N/A" | an event saved with a photo: once loaded its photo URI reads "N/A", and after a second save and load the photo is gone | the loaded photo keeps the URI it was saved with | not executed | MoodEvents.LoadedPhotoUriLost, MoodEvents.PhotoUriLostExample, ProfilePage.LoadedPostLosesPhotoUri | MoodEvents.PhotoUriFixed, MoodEvents.LoadedPhotoUriKept, MoodEvents.LoadedEventRoundTrips, ProfilePage.PostOfFixed, ProfilePage.LoadedPostKeepsPhotoUri |
| code/app/src/main/java/com/example/vibeverse/AchievementChecker.java:144-197 | the explorer (ach9, ach10) and streak (ach23, lines 360-372) checks set the status from the progress alone, even for a claimed ("complete") achievement | a claimed ach9 whose list of distinct mood titles has reached its goal is checked again: its status becomes "unclaimed", so its XP can be claimed twice; a claimed ach23 checked at a streak of 0 becomes "incomplete" | a claimed achievement stays claimed | not executed | AchievementChecker.ExploreAsWritten, AchievementChecker.ExplorerReopensClaimed, AchievementChecker.StreakAsWritten, AchievementChecker.StreakRevokesClaimed, AchievementAdapter.ExplorerXpTwice | AchievementChecker.Explore, AchievementChecker.ExplorerKeepsClaimed, AchievementChecker.Streak, AchievementChecker.StreakKeepsClaimed |
| code/app/src/main/java/com/example/vibeverse/ProfilePage.java:435-439 | the mood filter compares the post's stored emoji (read at lines 210-215) with the checked mood names | a Happy post, all-time window, only the Happy box checked: the post is filtered out | a post is kept when its mood is checked | not executed | ProfilePage.EmojiPostsNeverMatch, ProfilePage.HappyPostFilteredOut | ProfilePage.ApplyFilters, ProfilePage.CheckedMoodKept, ProfilePage.HappyPostKept |
| code/app/src/main/java/com/example/vibeverse/EditMoodActivity.java:1185-1186 | the "location removed" flag is set by the remove button (lines 465-469), read at save (lines 574-582) and never cleared when a place is picked | remove the location, then pick a new place: saving removes the location | the latest location choice wins | not executed | EditMood.RemovalOutlivesNewPlace | EditMood.PlacePickedFixed, EditMood.UseCurrentLocationFixed, EditMood.LatestLocationChoiceWins |
| code/app/src/main/java/com/example/vibeverse/EditMoodActivity.java:1316-1320 | on opening, `updateSelectedMoodEmoji` unboxes `moodColors.get(selectedMood)` into the `int` field `selectedColor` (line 106) for any non-null mood, although line 335 read it with a gray default | a mood saved through AddMood, titled "Happiness", opened for editing from the profile page (ProfilePage.java line 528): the editor throws while opening | a mood that is not a key opens gray with the emoji it arrived with | not executed | EditMood.Open, EditMood.AddMoodTitleCrashesEditor | EditMood.OpenFixed, EditMood.AddMoodTitleOpensFixed |
| code/app/src/main/java/com/example/vibeverse/ProfilePage.java:288 | the profile reads an "updatedTrigger" result extra that the edit screen never sends | any edit: the stored trigger is overwritten with null | an edit keeps the trigger | not executed | ProfilePage.EditErasesTrigger, ProfilePage.OnEditResult | ProfilePage.UpdateDoc, ProfilePage.EditKeepsTrigger |
| code/app/src/main/java/com/example/vibeverse/AchievementActivity.java:305-333 | XP gained at the top level still increments the level past the table | a user at the last level of a two-level table gains any XP: the level becomes 3, which the table does not have | the level stays at the top of the table | not executed | Levels.GainAsWritten, Levels.TopLevelStillLevelsUp | Levels.GainCapped, Levels.LevelStaysInTable |
| code/app/src/main/java/com/example/vibeverse/MoodInsights.java:318-328 | the summary's emoji table is keyed by nouns ("Happiness", "Anger"), but stored titles are the picker's adjectives | a week of "Happy" moods shows the fallback emoji | the top mood shows its own emoji | not executed | Insights.SummaryEmojiAsWritten, Insights.PickerTitlesGetFallback, Insights.Summarise, Insights.SummaryShowsFallback | Insights.SummaryEmoji, Insights.PickerTitlesGetOwnEmoji, Insights.SummariseFixed |
| code/app/src/main/java/com/example/vibeverse/ProfilePage.java:297 | the edit result and the delete use the tapped row's position (lines 535, 540) as an index into `allPosts`, but the row is a position in the displayed list, which a filter (lines 444, 569-570) or a search can change | posts A and B, a filter that shows only B: editing B writes the update to A's document, and deleting B removes A from the local list while the store deletes B | the edit and the delete reach the tapped post | not executed | ProfilePage.OnEditResult, ProfilePage.DeletePost, ProfilePage.FilteredRowHitsOtherPost | ProfilePage.OnEditResultById, ProfilePage.EditReachesTappedPost, ProfilePage.DeletePostById, ProfilePage.DeleteRemovesTappedPost |
| code/app/src/main/java/com/example/vibeverse/MoodInsights.java:62 | the fragment reads timestamps with "yyyy-MM-dd'T'HH:mm:ss'Z'", but the app writes them as "MMM dd, yyyy - hh:mm a" (MoodEvent.java line 159), so every mood throws at line 143 and is skipped at line 161 | a single mood stamped "Oct 10, 2026 - 09:15 AM": the fragment shows its empty state | the fragment reads the timestamps the app writes, as the activity does | not executed | Insights.FragmentDropsAppStamps, Insights.FragmentShowsEmptyState | Insights.LoadOne, Insights.FragmentKeepsReadableStamps |

=== FILE: achievement_adapter.dfy ===
/** AchievementAdapter: how each achievement row is drawn from the stored
    progress, and what claiming a finished achievement does. */
module AchievementAdapter {
  import opened Wrappers
  import Text
  import opened Social
  import opened AchievementChecker

  /** An achievement as the asset file describes it. */
  datatype Achievement = Achievement(id: string, total: int, tier: int, completionXp: int, unlocks: Option<string>)

  datatype TierColor = Bronze | Silver | Gold | DarkerGray

  function TierColorOf(tier: int): (c: TierColor)
    ensures c == Bronze <==> tier == 1
    ensures c == Silver <==> tier == 2
    ensures c == Gold <==> tier == 3
    ensures c == DarkerGray <==> tier !in {1, 2, 3}
  {
    if tier == 1 then Bronze else if tier == 2 then Silver else if tier == 3 then Gold else DarkerGray
  }

  /** What a row shows. */
  datatype Row = InProgress(progress: int, text: string) | Claimable | Completed

  /** "p / total". */
  function ProgressText(progress: int, total: int): string {
    Text.IntToDecimal(progress) + " / " + Text.IntToDecimal(total)
  }

  /** The stored progress; a missing document or field reads as 0. */
  function StoredProgress(doc: Option<AchDoc>): (p: int)
    ensures doc.None? || doc.value.progress.None? ==> p == 0
    ensures doc.Some? && doc.value.progress.Some? ==> p == doc.value.progress.value
  {
    if doc.Some? && doc.value.progress.Some? then doc.value.progress.value else 0
  }

  /** The row for a read document (`None` for a failed read). */
  function RowFor(a: Achievement, read: Option<Option<AchDoc>>): (r: Row)
    ensures read.None? ==> r == InProgress(0, ProgressText(0, a.total))
    ensures read.Some? && StoredProgress(read.value) < a.total ==>
      r == InProgress(StoredProgress(read.value), ProgressText(StoredProgress(read.value), a.total))
    ensures r == Claimable <==> read.Some? && StoredProgress(read.value) >= a.total
                                && read.value.Some? && read.value.value.status == Some(Unclaimed)
    ensures r == Completed <==> read.Some? && StoredProgress(read.value) >= a.total
                                && !(read.value.Some? && read.value.value.status == Some(Unclaimed))
  {
    match read
    case None => InProgress(0, ProgressText(0, a.total))
    case Some(doc) =>
      var p := StoredProgress(doc);
      if p < a.total then InProgress(p, ProgressText(p, a.total))
      else if doc.Some? && doc.value.status == Some(Unclaimed) then Claimable
      else Completed
  }

  /** The user's XP and theme lists that claiming touches. */
  datatype Wallet = Wallet(totalXp: int, lockedThemes: seq<string>, unlockedThemes: seq<string>)

  /** Whether the achievement carries a theme. */
  predicate UnlocksTheme(a: Achievement) {
    a.unlocks.Some? && a.unlocks.value != "N/A"
  }

  /** Claiming: the document becomes complete, the XP is added, and the
      theme the achievement carries, if any, moves from locked to
      unlocked. */
  function Claim(a: Achievement, doc: AchDoc, w: Wallet): (r: (AchDoc, Wallet))
    ensures r.0.status == Some(Complete) && r.0.progress == doc.progress
    ensures r.1.totalXp == w.totalXp + a.completionXp
    ensures !UnlocksTheme(a) ==> r.1.lockedThemes == w.lockedThemes && r.1.unlockedThemes == w.unlockedThemes
    ensures UnlocksTheme(a) ==> a.unlocks.value !in r.1.lockedThemes && a.unlocks.value in r.1.unlockedThemes
    ensures UnlocksTheme(a) ==> forall t :: t != a.unlocks.value ==>
      (t in r.1.lockedThemes <==> t in w.lockedThemes) && (t in r.1.unlockedThemes <==> t in w.unlockedThemes)
  {
    var themes := if UnlocksTheme(a)
      then (ArrayRemove(w.lockedThemes, a.unlocks.value), ArrayUnion(w.unlockedThemes, a.unlocks.value))
      else (w.lockedThemes, w.unlockedThemes);
    (doc.(status := Some(Complete)), Wallet(w.totalXp + a.completionXp, themes.0, themes.1))
  }

  /** After a claim the row shows Completed. */
  lemma ClaimedRowIsCompleted(a: Achievement, doc: AchDoc, w: Wallet)
    requires RowFor(a, Some(Some(doc))) == Claimable
    ensures RowFor(a, Some(Some(Claim(a, doc, w).0))) == Completed
  {
  }

  /** As written, a claimed explorer achievement becomes claimable again
      with the next mood, so its XP can be collected twice; the guarded
      update keeps the row Completed. */
  lemma ExplorerXpTwice(a: Achievement, seen: seq<string>, title: Option<string>, w: Wallet)
    requires a.total == ExplorerIGoal && |seen| >= ExplorerIGoal
    requires a.completionXp > 0
    ensures var d := AchDoc(Some(|seen|), Some(Unclaimed), Some(seen));
      var (d1, w1) := Claim(a, d, w);
      var again := ExploreAsWritten(Some(d1), title, ExplorerIGoal);
      RowFor(a, Some(again)) == Claimable
      && Claim(a, again.value, w1).1.totalXp == w.totalXp + 2 * a.completionXp
    ensures var d := AchDoc(Some(|seen|), Some(Unclaimed), Some(seen));
      var (d1, w1) := Claim(a, d, w);
      RowFor(a, Some(Explore(Some(d1), title, ExplorerIGoal))) == Completed
  {
    var d := AchDoc(Some(|seen|), Some(Unclaimed), Some(seen));
    var (d1, w1) := Claim(a, d, w);
    var again := ExploreAsWritten(Some(d1), title, ExplorerIGoal);
    assert StoredProgress(again) >= |seen|;
    var fixed := Explore(Some(d1), title, ExplorerIGoal);
    assert StoredProgress(fixed) >= |seen|;
  }
}

=== FILE: achievement_checker.dfy ===
/** AchievementChecker: each achievement document moves from "incomplete"
    to "unclaimed" as its progress reaches the required count; the claim
    (AchievementAdapter) then makes it "complete". */
module AchievementChecker {
  import opened Wrappers
  import Seqs

  const Incomplete := "incomplete"
  const Unclaimed := "unclaimed"
  const Complete := "complete"

  /** A user's achievement document: progress, completion_status and, for
      the explorer achievements, the titles seen so far. */
  datatype AchDoc = AchDoc(progress: Option<int>, status: Option<string>, uniqueEntities: Option<seq<string>>)

  /** updateAchievement: only an existing, incomplete document moves; its
      progress goes up by one (a missing progress counts as 0) and it
      becomes unclaimed once the count is reached. */
  function Bump(doc: Option<AchDoc>, required: int): (r: Option<AchDoc>)
    ensures doc.None? ==> r.None?
    ensures doc.Some? && doc.value.status != Some(Incomplete) ==> r == doc
    ensures doc.Some? && doc.value.status == Some(Incomplete) ==>
      r.Some? && r.value.progress == Some(doc.value.progress.GetOr(0) + 1)
      && (r.value.status == Some(Unclaimed) <==> doc.value.progress.GetOr(0) + 1 >= required)
      && (r.value.status == Some(Incomplete) <==> doc.value.progress.GetOr(0) + 1 < required)
      && r.value.uniqueEntities == doc.value.uniqueEntities
  {
    match doc
    case None => None
    case Some(d) =>
      if d.status != Some(Incomplete) then doc
      else
        var p := d.progress.GetOr(0) + 1;
        Some(d.(progress := Some(p), status := if p >= required then Some(Unclaimed) else d.status))
  }

  /** Bumping `n` times in a row. */
  function BumpTimes(doc: Option<AchDoc>, required: int, n: nat): Option<AchDoc>
    decreases n
  {
    if n == 0 then doc else BumpTimes(Bump(doc, required), required, n - 1)
  }

  /** From a fresh document, `n` qualifying events give progress
      min(n, required) and unclaimed exactly when `n` reaches the count:
      the count is reached once and progress stops there. */
  lemma {:induction false} BumpCounts(doc: AchDoc, required: int, n: nat)
    requires required >= 1
    requires doc.status == Some(Incomplete) && doc.progress.GetOr(0) < required
    ensures var p := doc.progress.GetOr(0);
      var r := BumpTimes(Some(doc), required, n);
      r.Some?
      && r.value.progress == (if n == 0 then doc.progress else Some(if p + n < required then p + n else required))
      && (r.value.status == Some(Unclaimed) <==> p + n >= required)
    decreases n
  {
    if n > 0 {
      var p := doc.progress.GetOr(0);
      var next := Bump(Some(doc), required).value;
      if p + 1 < required {
        BumpCounts(next, required, n - 1);
      } else {
        StaysOnceSettled(next, required, n - 1);
      }
    }
  }

  /** Once unclaimed or complete, a document is left alone. */
  lemma {:induction false} StaysOnceSettled(doc: AchDoc, required: int, n: nat)
    requires doc.status != Some(Incomplete)
    ensures BumpTimes(Some(doc), required, n) == Some(doc)
    decreases n
  {
    if n > 0 {
      StaysOnceSettled(doc, required, n - 1);
    }
  }

  /** The required counts of the counting achievements. */
  const MoodCountGoals: seq<(string, int)> := [("ach1", 1), ("ach2", 3), ("ach3", 10), ("ach4", 50)]
  /** The checkers that hand one achievement and its count to
      updateAchievement: a profile edit (ach11), an unfollow (ach12), an
      attached location (ach13), a comment (ach14, which writes the same
      update out by hand), follows (ach15 to ach17), followers (ach18, ach19)
      and Valentine's Day posts (ach21). */
  const CheckerGoals: map<string, int> := map[
    "ach11" := 1, "ach12" := 1, "ach13" := 1, "ach14" := 1, "ach15" := 1,
    "ach16" := 5, "ach17" := 20, "ach18" := 5, "ach19" := 20, "ach21" := 30]
  const ExplorerIGoal: int := 4
  const ExplorerIIGoal: int := 8
  const StreakGoal: int := 7

  /** Every achievement document, by id. */
  type Store = map<string, AchDoc>

  /** Bumps the achievement `id` of the store. */
  function BumpIn(s: Store, id: string, required: int): (r: Store)
    ensures r.Keys == s.Keys
    ensures forall k :: k in s && k != id ==> r[k] == s[k]
    ensures id in s ==> Some(r[id]) == Bump(Some(s[id]), required)
  {
    if id in s then s[id := Bump(Some(s[id]), required).value] else s
  }

  /** Bumps a list of achievements, each with its own count. */
  function BumpAll(s: Store, goals: seq<(string, int)>): (r: Store)
    ensures r.Keys == s.Keys
    ensures forall k :: k in s && (forall i :: 0 <= i < |goals| ==> goals[i].0 != k) ==> r[k] == s[k]
  {
    if goals == [] then s else BumpAll(BumpIn(s, goals[0].0, goals[0].1), goals[1..])
  }

  /** checkMoodEventAchievements: one posted mood bumps ach1 to ach4. */
  function OnMoodPosted(s: Store): (r: Store)
    ensures r.Keys == s.Keys
    ensures forall k :: k in s && k !in {"ach1", "ach2", "ach3", "ach4"} ==> r[k] == s[k]
  {
    BumpAll(s, MoodCountGoals)
  }

  /** One run of a single-achievement checker. */
  function RunChecker(s: Store, id: string): (r: Store)
    requires id in CheckerGoals
    ensures r.Keys == s.Keys
    ensures forall k :: k in s && k != id ==> r[k] == s[k]
    ensures id in s && s[id].status == Some(Incomplete) ==>
      r[id].progress == Some(s[id].progress.GetOr(0) + 1)
      && (r[id].status == Some(Unclaimed) <==> s[id].progress.GetOr(0) + 1 >= CheckerGoals[id])
  {
    BumpIn(s, id, CheckerGoals[id])
  }

  /** From a fresh document, the fifth follower (and not the fourth)
      unlocks ach18, and the first comment unlocks ach14. */
  lemma FollowerAndCommentMilestones(d: AchDoc)
    requires d.status == Some(Incomplete) && d.progress.GetOr(0) == 0
    ensures BumpTimes(Some(d), CheckerGoals["ach18"], 4).value.status != Some(Unclaimed)
    ensures BumpTimes(Some(d), CheckerGoals["ach18"], 5).value.status == Some(Unclaimed)
    ensures BumpTimes(Some(d), CheckerGoals["ach14"], 1).value.status == Some(Unclaimed)
  {
    BumpCounts(d, 5, 4);
    BumpCounts(d, 5, 5);
    BumpCounts(d, 1, 1);
  }

  /** Bumping a list of distinct achievements bumps each of them exactly
      once, with its own count. */
  lemma {:induction false} BumpAllBumpsEach(s: Store, goals: seq<(string, int)>, i: nat)
    requires forall a, b :: 0 <= a < b < |goals| ==> goals[a].0 != goals[b].0
    requires i < |goals| && goals[i].0 in s
    ensures Some(BumpAll(s, goals)[goals[i].0]) == Bump(Some(s[goals[i].0]), goals[i].1)
    decreases |goals|
  {
    var s1 := BumpIn(s, goals[0].0, goals[0].1);
    var rest := goals[1..];
    assert forall j :: 0 <= j < |rest| ==> rest[j] == goals[j + 1];
    if i > 0 {
      BumpAllBumpsEach(s1, rest, i - 1);
    }
  }

  /** The first mood posted makes "First Mood" claimable and starts the
      three larger counts. */
  lemma FirstMoodUnlocksFirstAchievement(s: Store)
    requires forall k :: k in {"ach1", "ach2", "ach3", "ach4"} ==> k in s && s[k] == AchDoc(None, Some(Incomplete), None)
    ensures OnMoodPosted(s)["ach1"] == AchDoc(Some(1), Some(Unclaimed), None)
    ensures OnMoodPosted(s)["ach4"] == AchDoc(Some(1), Some(Incomplete), None)
  {
    assert "ach1" in s && "ach4" in s;
    BumpAllBumpsEach(s, MoodCountGoals, 0);
    BumpAllBumpsEach(s, MoodCountGoals, 3);
  }

  /** What the checkers need to know about a posted mood; the calendar
      fields come from the platform calendar, months counted from 0. */
  datatype Posted = Posted(hour: int, month: int, day: int, isPublic: bool, hasPhoto: bool, moodTitle: Option<string>)

  /** The date and visibility checkers, as predicates on the posted mood. */
  predicate EarlyBird(p: Posted) { p.hour < 6 }                     // ach5
  predicate NightOwl(p: Posted) { p.hour == 0 }                     // ach6
  predicate SocialButterfly(p: Posted) { p.isPublic }               // ach7
  predicate SecretJournal(p: Posted) { !p.isPublic }                // ach8
  predicate Spooky(p: Posted) { p.month == 9 && p.day == 31 }       // ach20
  predicate Valentine(p: Posted) { p.month == 1 && p.day == 14 }    // ach21
  predicate PhotoMood(p: Posted) { p.hasPhoto }                     // ach22
  predicate ChristmasEve(p: Posted) { p.month == 11 && p.day == 24 } // ach24
  predicate NewYear(p: Posted) { p.month == 0 && p.day == 1 }       // ach25

  /** The single-step achievements a posted mood triggers. */
  function Triggered(p: Posted): (ids: set<string>)
    ensures "ach5" in ids <==> p.hour < 6
    ensures "ach6" in ids <==> p.hour == 0
    ensures ("ach7" in ids) != ("ach8" in ids)
    ensures "ach7" in ids <==> p.isPublic
    ensures "ach24" in ids <==> p.month == 11 && p.day == 24
    ensures "ach25" in ids <==> p.month == 0 && p.day == 1
    ensures "ach22" in ids <==> p.hasPhoto
    ensures ids <= {"ach5", "ach6", "ach7", "ach8", "ach22", "ach24", "ach25"}
  {
    (if EarlyBird(p) then {"ach5"} else {})
    + (if NightOwl(p) then {"ach6"} else {})
    + (if SocialButterfly(p) then {"ach7"} else {"ach8"})
    + (if PhotoMood(p) then {"ach22"} else {})
    + (if ChristmasEve(p) then {"ach24"} else {})
    + (if NewYear(p) then {"ach25"} else {})
  }

  /** A night-owl post is always an early-bird post too, and the holiday
      checks never fire together. */
  lemma DatePredicatesRelate(p: Posted)
    ensures NightOwl(p) ==> EarlyBird(p)
    ensures !(Spooky(p) && Valentine(p)) && !(ChristmasEve(p) && NewYear(p)) && !(Spooky(p) && NewYear(p))
  {
  }

  /** checkAch20: on October 31 an incomplete document jumps straight to
      progress 1, unclaimed. */
  function MarkSpooky(doc: Option<AchDoc>, p: Posted): (r: Option<AchDoc>)
    ensures !Spooky(p) || doc.None? || doc.value.status != Some(Incomplete) ==> r == doc
    ensures Spooky(p) && doc.Some? && doc.value.status == Some(Incomplete) ==>
      r == Some(doc.value.(progress := Some(1), status := Some(Unclaimed)))
  {
    if Spooky(p) && doc.Some? && doc.value.status == Some(Incomplete) then
      Some(doc.value.(progress := Some(1), status := Some(Unclaimed)))
    else doc
  }

  /** The explorer list after a mood: the title is added when it is new. */
  function AddEntity(seen: seq<string>, title: Option<string>): (r: seq<string>)
    ensures Seqs.Distinct(seen) ==> Seqs.Distinct(r)
    ensures forall x :: x in r <==> x in seen || title == Some(x)
    ensures |r| == |seen| + (if title.Some? && title.value !in seen then 1 else 0)
  {
    if title.Some? && title.value !in seen then seen + [title.value] else seen
  }

  /** checkAch9/checkAch10 as written: the progress is the number of distinct
      titles, and reaching the goal writes "unclaimed" whatever the current
      status is. */
  function ExploreAsWritten(doc: Option<AchDoc>, title: Option<string>, goal: int): (r: Option<AchDoc>)
    ensures doc.None? <==> r.None?
    ensures r.Some? ==> r.value.uniqueEntities == Some(AddEntity(doc.value.uniqueEntities.GetOr([]), title))
    ensures r.Some? ==> r.value.progress == Some(|r.value.uniqueEntities.value|)
    ensures r.Some? && |r.value.uniqueEntities.value| >= goal ==> r.value.status == Some(Unclaimed)
    ensures r.Some? && |r.value.uniqueEntities.value| < goal ==> r.value.status == doc.value.status
  {
    match doc
    case None => None
    case Some(d) =>
      var seen := AddEntity(d.uniqueEntities.GetOr([]), title);
      Some(d.(uniqueEntities := Some(seen), progress := Some(|seen|),
              status := if |seen| >= goal then Some(Unclaimed) else d.status))
  }

  /** A claimed explorer achievement is offered for claiming again by the
      next mood posted, whatever its title. */
  lemma ExplorerReopensClaimed(seen: seq<string>, title: Option<string>)
    requires |seen| >= ExplorerIGoal
    ensures var r := ExploreAsWritten(Some(AchDoc(Some(|seen|), Some(Complete), Some(seen))), title, ExplorerIGoal);
      r.Some? && r.value.status == Some(Unclaimed)
  {
  }

  /** The explorer update with the status guard every other checker uses:
      only an incomplete document is promoted. */
  function Explore(doc: Option<AchDoc>, title: Option<string>, goal: int): (r: Option<AchDoc>)
    ensures doc.None? <==> r.None?
    ensures r.Some? ==> r.value.uniqueEntities == Some(AddEntity(doc.value.uniqueEntities.GetOr([]), title))
    ensures r.Some? ==> r.value.progress == Some(|r.value.uniqueEntities.value|)
    ensures r.Some? && doc.value.status != Some(Incomplete) ==> r.value.status == doc.value.status
    ensures r.Some? && doc.value.status == Some(Incomplete) ==>
      (r.value.status == Some(Unclaimed) <==> |r.value.uniqueEntities.value| >= goal)
  {
    match doc
    case None => None
    case Some(d) =>
      var seen := AddEntity(d.uniqueEntities.GetOr([]), title);
      Some(d.(uniqueEntities := Some(seen), progress := Some(|seen|),
              status := if d.status == Some(Incomplete) && |seen| >= goal then Some(Unclaimed) else d.status))
  }

  /** With the guard, a claimed explorer achievement stays complete; on an
      incomplete one the guarded and the written update agree. */
  lemma ExplorerKeepsClaimed(doc: AchDoc, title: Option<string>, goal: int)
    ensures doc.status == Some(Complete) ==> Explore(Some(doc), title, goal).value.status == Some(Complete)
    ensures doc.status == Some(Incomplete) ==> Explore(Some(doc), title, goal) == ExploreAsWritten(Some(doc), title, goal)
  {
  }

  /** checkAch23 as written: progress becomes the streak and the status is
      "unclaimed" at seven days or more, "incomplete" below, whatever it
      was. A missing document is not updated. */
  function StreakAsWritten(doc: Option<AchDoc>, streak: int): (r: Option<AchDoc>)
    ensures doc.None? <==> r.None?
    ensures r.Some? ==> r.value.progress == Some(streak)
    ensures r.Some? ==> (r.value.status == Some(Unclaimed) <==> streak >= StreakGoal)
    ensures r.Some? ==> (r.value.status == Some(Incomplete) <==> streak < StreakGoal)
  {
    match doc
    case None => None
    case Some(d) =>
      Some(d.(progress := Some(streak), status := if streak >= StreakGoal then Some(Unclaimed) else Some(Incomplete)))
  }

  /** A claimed marathon is taken back when the streak breaks (HomePage
      resets it to 0), and offered again at the next seven days. */
  lemma StreakRevokesClaimed(d: AchDoc)
    requires d.status == Some(Complete)
    ensures StreakAsWritten(Some(d), 0).value.status == Some(Incomplete)
    ensures StreakAsWritten(Some(d), 7).value.status == Some(Unclaimed)
  {
  }

  /** The marathon update that leaves a claimed achievement alone. */
  function Streak(doc: Option<AchDoc>, streak: int): (r: Option<AchDoc>)
    ensures doc.None? <==> r.None?
    ensures r.Some? ==> r.value.progress == Some(streak)
    ensures r.Some? && doc.value.status == Some(Complete) ==> r.value.status == Some(Complete)
    ensures r.Some? && doc.value.status != Some(Complete) ==>
      (r.value.status == Some(Unclaimed) <==> streak >= StreakGoal)
  {
    match doc
    case None => None
    case Some(d) =>
      if d.status == Some(Complete) then Some(d.(progress := Some(streak)))
      else StreakAsWritten(doc, streak)
  }

  /** A claimed marathon stays claimed through any sequence of streak
      values. */
  lemma {:induction false} StreakKeepsClaimed(d: AchDoc, streaks: seq<int>)
    requires d.status == Some(Complete)
    ensures StreaksApplied(Some(d), streaks).Some?
    ensures StreaksApplied(Some(d), streaks).value.status == Some(Complete)
    decreases |streaks|
  {
    if streaks != [] {
      StreakKeepsClaimed(Streak(Some(d), streaks[0]).value, streaks[1..]);
    }
  }

  function StreaksApplied(doc: Option<AchDoc>, streaks: seq<int>): Option<AchDoc>
    decreases |streaks|
  {
    if streaks == [] then doc else StreaksApplied(Streak(doc, streaks[0]), streaks[1..])
  }
}

=== FILE: add_mood.dfy ===
/** AddMoodActivity: the emotion spinner and saving a new event into the
    in-memory list. */
module AddMood {
  import opened Wrappers
  import Text
  import opened MoodEvents

  /** The spinner entries, each "<emoji> <name>". */
  const SpinnerEntries: seq<string> :=
    ["😡 Anger", "🤔 Confusion", "🤢 Disgust", "😨 Fear", "😃 Happiness", "😢 Sadness", "😳 Shame", "😲 Surprise"]

  /** The emoji and name of each entry, in spinner order. */
  const SpinnerParts: seq<(string, string)> :=
    [("😡", "Anger"), ("🤔", "Confusion"), ("🤢", "Disgust"), ("😨", "Fear"),
     ("😃", "Happiness"), ("😢", "Sadness"), ("😳", "Shame"), ("😲", "Surprise")]

  /** Every entry is an emoji, a space and a name, so getEmoji() and
      getMood() of an event created from it give the two parts back. */
  lemma SpinnerEntriesSplit(clock: string)
    ensures |SpinnerEntries| == |SpinnerParts| == 8
    ensures forall i :: 0 <= i < |SpinnerEntries| ==>
      SpinnerEntries[i] == SpinnerParts[i].0 + " " + SpinnerParts[i].1
    ensures forall i :: 0 <= i < |SpinnerEntries| ==>
      var e := Create(Some(SpinnerEntries[i]), None, None, clock);
      Emoji(e) == SpinnerParts[i].0 && MoodText(e) == Some(SpinnerParts[i].1)
  {
    forall i | 0 <= i < |SpinnerEntries|
      ensures var e := Create(Some(SpinnerEntries[i]), None, None, clock);
        Emoji(e) == SpinnerParts[i].0 && MoodText(e) == Some(SpinnerParts[i].1)
    {
      var e := Create(Some(SpinnerEntries[i]), None, None, clock);
      assert SpinnerEntries[i][1] == ' ' && SpinnerEntries[i][0] != ' ';
      assert Text.IndexOf(SpinnerEntries[i], ' ') == Some(1);
    }
  }

  datatype SaveOutcome = Saved(events: seq<MoodEvent>) | Rejected(message: string)

  /** saveMoodEvent(): an empty selection is refused with a toast; otherwise
      one event with trimmed trigger and social situation is appended. */
  function SaveMoodEvent(events: seq<MoodEvent>, selected: string, trigger: string, social: string, clock: string): (r: SaveOutcome)
    ensures selected == "" <==> r.Rejected?
    ensures r.Rejected? ==> r.message == "Please select a mood!"
    ensures r.Saved? ==> |r.events| == |events| + 1 && r.events[..|events|] == events
    ensures r.Saved? ==> var added := r.events[|events|];
      && added.emotionalState == Some(selected)
      && added.trigger == Some(Text.Trim(trigger))
      && added.socialSituation == Some(Text.Trim(social))
      && added.intensity == 5 && added.photograph.None?
  {
    if selected == "" then Rejected("Please select a mood!")
    else Saved(events + [Create(Some(selected), Some(Text.Trim(trigger)), Some(Text.Trim(social)), clock)])
  }

  /** The stored trigger and social situation carry no surrounding blanks. */
  lemma SavedFieldsTrimmed(events: seq<MoodEvent>, selected: string, trigger: string, social: string, clock: string)
    requires selected != ""
    ensures var added := SaveMoodEvent(events, selected, trigger, social, clock).events[|events|];
      && Text.Trim(added.trigger.value) == added.trigger.value
      && Text.Trim(added.socialSituation.value) == added.socialSituation.value
  {
    Text.TrimIdempotent(trigger);
    Text.TrimIdempotent(social);
  }
}

=== FILE: comments.dfy ===
/** CommentSectionActivity, CommentAdapter and ReplyAdapter: posting a
    comment or a reply under a mood event, notifying the owner, and the
    author-only delete. */
module Comments {
  import opened Wrappers
  import Text
  import opened Notifications
  import Social

  /** A comment or a reply; `repliesTo` is the parent comment's id, "N/A"
      for a top-level comment. */
  datatype Comment = Comment(commentId: string, content: string, authorUserId: string, timestamp: int,
                             postId: string, repliesTo: Option<string>)

  /** A Firestore document path, segment by segment. */
  type Path = seq<string>

  function CommentPath(owner: string, moodDoc: string, id: string): Path {
    ["Usermoods", owner, "moods", moodDoc, "comments", id]
  }

  function ReplyPath(owner: string, moodDoc: string, parent: string, id: string): Path {
    CommentPath(owner, moodDoc, parent) + ["replies", id]
  }

  /** The notification preview: the first 50 characters and "..." for a
      longer text, the text itself otherwise. */
  const PreviewLength := 50

  function Preview(text: string): (r: string)
    ensures |text| <= PreviewLength ==> r == text
    ensures |text| > PreviewLength ==> |r| == PreviewLength + 3 && r[..PreviewLength] == text[..PreviewLength] && r[PreviewLength..] == "..."
    ensures |r| <= PreviewLength + 3
  {
    if |text| > PreviewLength then text[..PreviewLength] + "..." else text
  }

  /** The comment screen's reply mode: the comment being answered, if any. */
  datatype Screen = Screen(replyingTo: Option<Comment>)

  /** Closing the reply banner leaves reply mode. */
  function CloseBanner(s: Screen): (r: Screen)
    ensures r.replyingTo.None?
  {
    Screen(None)
  }

  /** What sending does. */
  datatype PostOutcome =
    | Rejected(message: string)
    | Posted(path: Path, comment: Comment, screen: Screen, notify: Option<Notification>)

  /** Who signed in; "anonymous" when no one. */
  function UserIdOf(signedIn: Option<string>): (r: string)
    ensures signedIn.Some? ==> r == signedIn.value
    ensures signedIn.None? ==> r == "anonymous"
  {
    signedIn.GetOr("anonymous")
  }

  /** The post owner's name in a reply notice; "someone" when missing. */
  function OwnerName(name: Option<string>): (r: string)
    ensures r != ""
    ensures name.Some? && name.value != "" ==> r == name.value
  {
    if name.Some? && name.value != "" then name.value else "someone"
  }

  /** The notification a successful post leads to: none on one's own post
      or comment, and none when the sender has no username. */
  function NoticeFor(text: string, me: string, myName: Option<string>, replyingTo: Option<Comment>,
                     moodOwner: string, moodDoc: string, ownerName: Option<string>, notifId: string, now: string): (r: Option<Notification>)
    ensures replyingTo.Some? && replyingTo.value.authorUserId == me ==> r.None?
    ensures replyingTo.None? && moodOwner == me ==> r.None?
    ensures myName.None? || myName.value == "" ==> r.None?
    ensures r.Some? ==> !r.value.isRead && r.value.senderUserId == me
    ensures r.Some? ==> r.value.moodEventId == Some(moodDoc) && r.value.moodOwnerId == Some(moodOwner)
    ensures r.Some? && replyingTo.Some? ==>
      r.value.notifType == CommentRepliedTo && r.value.receiverUserId == replyingTo.value.authorUserId
    ensures r.Some? && replyingTo.None? ==>
      r.value.notifType == PostCommentedOn && r.value.receiverUserId == moodOwner
    ensures replyingTo.Some? && replyingTo.value.authorUserId != me && myName.Some? && myName.value != "" ==> r.Some?
    ensures replyingTo.None? && moodOwner != me && myName.Some? && myName.value != "" ==> r.Some?
  {
    if myName.None? || myName.value == "" then None
    else match replyingTo
      case Some(parent) =>
        if parent.authorUserId == me then None
        else
          var content := myName.value + " replied to your comment on " + OwnerName(ownerName)
                         + "'s post: \"" + Preview(text) + "\"";
          Some(CreateAbout(notifId, content, now, CommentRepliedTo, me, parent.authorUserId, moodDoc, moodOwner))
      case None =>
        if moodOwner == me then None
        else
          var content := myName.value + " commented on your post: \"" + Preview(text) + "\"";
          Some(CreateAbout(notifId, content, now, PostCommentedOn, me, moodOwner, moodDoc, moodOwner))
  }

  /** postComment: a blank text is refused; otherwise the comment is written
      under the mood event (a reply under its parent), reply mode ends and
      the owner is told. */
  function PostComment(input: string, s: Screen, signedIn: Option<string>, myName: Option<string>,
                       moodOwner: string, moodDoc: string, ownerName: Option<string>,
                       commentId: string, notifId: string, now: int, nowText: string): (r: PostOutcome)
    ensures r.Rejected? <==> Text.Trim(input) == ""
    ensures r.Rejected? ==> r.message == "Please enter a comment"
    ensures r.Posted? ==> r.comment.content == Text.Trim(input) && r.comment.authorUserId == UserIdOf(signedIn)
    ensures r.Posted? ==> r.screen.replyingTo.None?
    ensures r.Posted? && s.replyingTo.None? ==>
      r.comment.repliesTo == Some("N/A") && r.path == CommentPath(moodOwner, moodDoc, commentId)
    ensures r.Posted? && s.replyingTo.Some? ==>
      r.comment.repliesTo == Some(s.replyingTo.value.commentId)
      && r.path == ReplyPath(moodOwner, moodDoc, s.replyingTo.value.commentId, commentId)
  {
    var text := Text.Trim(input);
    if text == "" then Rejected("Please enter a comment")
    else
      var me := UserIdOf(signedIn);
      var parent := if s.replyingTo.Some? then s.replyingTo.value.commentId else "N/A";
      var c := Comment(commentId, text, me, now, moodDoc, Some(parent));
      var path := if s.replyingTo.Some? then ReplyPath(moodOwner, moodDoc, parent, commentId)
                  else CommentPath(moodOwner, moodDoc, commentId);
      Posted(path, c, Screen(None), NoticeFor(text, me, myName, s.replyingTo, moodOwner, moodDoc, ownerName, notifId, nowText))
  }

  /** The recipient's account once a notice is stored: the notification
      joins their inbox and, when that write succeeds, their
      newNotificationCount goes up by one. No notice changes nothing. */
  function Deliver(recipient: Social.Account, notice: Option<Notification>): (r: Social.Account)
    ensures notice.None? ==> r == recipient
    ensures notice.Some? ==> r.newNotificationCount == recipient.newNotificationCount + 1
    ensures notice.Some? ==>
      |r.notifications| == |recipient.notifications| + 1
      && r.notifications[..|recipient.notifications|] == recipient.notifications
      && r.notifications[|recipient.notifications|] == notice.value
    ensures r.followerIds == recipient.followerIds && r.followingIds == recipient.followingIds
    ensures r.followReqs == recipient.followReqs
    ensures r.followerCount == recipient.followerCount && r.followingCount == recipient.followingCount
  {
    match notice
    case None => recipient
    case Some(n) =>
      recipient.(notifications := recipient.notifications + [n],
                 newNotificationCount := recipient.newNotificationCount + 1)
  }

  /** A comment on someone else's mood, or a reply to someone else's
      comment, by a user with a name, raises the recipient's unread count
      by exactly one and lands in their inbox. */
  lemma CommentRaisesRecipientCount(input: string, s: Screen, signedIn: Option<string>, myName: Option<string>,
                                    moodOwner: string, moodDoc: string, ownerName: Option<string>,
                                    commentId: string, notifId: string, now: int, nowText: string,
                                    recipient: Social.Account)
    requires Text.Trim(input) != "" && myName.Some? && myName.value != ""
    requires s.replyingTo.None? ==> moodOwner != UserIdOf(signedIn)
    requires s.replyingTo.Some? ==> s.replyingTo.value.authorUserId != UserIdOf(signedIn)
    ensures var r := PostComment(input, s, signedIn, myName, moodOwner, moodDoc, ownerName, commentId, notifId, now, nowText);
      r.Posted? && r.notify.Some?
      && Deliver(recipient, r.notify).newNotificationCount == recipient.newNotificationCount + 1
      && r.notify.value in Deliver(recipient, r.notify).notifications
  {
    var r := PostComment(input, s, signedIn, myName, moodOwner, moodDoc, ownerName, commentId, notifId, now, nowText);
    var d := Deliver(recipient, r.notify);
    assert d.notifications[|recipient.notifications|] == r.notify.value;
  }

  /** CommentAdapter: the delete applies to top-level comments only. */
  predicate IsTopLevel(c: Comment) {
    c.repliesTo.None? || c.repliesTo.value == "N/A"
  }

  /** The delete icon is the author's alone; anyone else's tap opens the
      author's profile. */
  datatype RowAction = DeleteIcon | OpenProfile(userId: string)

  function RowActionFor(c: Comment, me: string): (a: RowAction)
    ensures a == DeleteIcon <==> me == c.authorUserId
    ensures a.OpenProfile? ==> a.userId == c.authorUserId
  {
    if me == c.authorUserId then DeleteIcon else OpenProfile(c.authorUserId)
  }

  /** CommentAdapter's delete: the comment's own document, for a top-level
      comment; nothing otherwise. */
  function DeleteCommentPath(c: Comment, moodOwner: string, moodDoc: string): (r: Option<Path>)
    ensures r.Some? <==> IsTopLevel(c)
    ensures r.Some? ==> r.value == CommentPath(moodOwner, moodDoc, c.commentId)
  {
    if IsTopLevel(c) then Some(CommentPath(moodOwner, moodDoc, c.commentId)) else None
  }

  /** ReplyAdapter's delete: the reply under its parent, for a reply;
      nothing otherwise. */
  function DeleteReplyPath(c: Comment, moodOwner: string, moodDoc: string): (r: Option<Path>)
    ensures r.Some? <==> !IsTopLevel(c)
    ensures r.Some? ==> r.value == ReplyPath(moodOwner, moodDoc, c.repliesTo.value, c.commentId)
  {
    if !IsTopLevel(c) then Some(ReplyPath(moodOwner, moodDoc, c.repliesTo.value, c.commentId)) else None
  }

  /** Exactly one of the two deletes applies to any comment. */
  lemma DeletesAreComplementary(c: Comment, moodOwner: string, moodDoc: string)
    ensures DeleteCommentPath(c, moodOwner, moodDoc).Some? != DeleteReplyPath(c, moodOwner, moodDoc).Some?
  {
  }

  /** A posted comment is deleted from where it was written: the
      top-level delete for a comment, the reply delete for a reply to a
      comment whose id is not "N/A". */
  lemma DeleteFindsPosted(input: string, s: Screen, signedIn: Option<string>, myName: Option<string>,
                          moodOwner: string, moodDoc: string, ownerName: Option<string>,
                          commentId: string, notifId: string, now: int, nowText: string)
    requires Text.Trim(input) != ""
    requires s.replyingTo.Some? ==> s.replyingTo.value.commentId != "N/A"
    ensures var r := PostComment(input, s, signedIn, myName, moodOwner, moodDoc, ownerName, commentId, notifId, now, nowText);
      r.Posted?
      && (s.replyingTo.None? ==> DeleteCommentPath(r.comment, moodOwner, moodDoc) == Some(r.path))
      && (s.replyingTo.Some? ==> DeleteReplyPath(r.comment, moodOwner, moodDoc) == Some(r.path))
  {
  }

  /** The replies list is shown exactly when there are replies. */
  function RepliesVisible(replies: seq<Comment>): (r: bool)
    ensures r <==> |replies| > 0
  {
    replies != []
  }

  /** ReplyAdapter: the username falls back to "Unknown". */
  function ReplyUsername(docExists: bool, username: Option<string>): (r: string)
    ensures docExists && username.Some? ==> r == username.value
    ensures !docExists || username.None? ==> r == "Unknown"
  {
    if docExists && username.Some? then username.value else "Unknown"
  }
}

=== FILE: edit_mood.dfy ===
/** EditMoodActivity: opening the editor from the incoming extras, the
    location and photo choices, and the result handed back on update. */
module EditMood {
  import opened Wrappers
  import Text
  import opened Moods
  import opened MoodForms

  /** The extras the editor reads. `moodLocation` is `None` when the extra is
      absent and `Some(v)` (with a possibly null `v`) when it is present. */
  datatype Extras = Extras(
    selectedMood: Option<string>,
    selectedEmoji: Option<string>,
    moodPosition: Option<int>,
    isPublic: Option<bool>,
    moodLocation: Option<Option<string>>,
    moodLatitude: Option<real>,
    moodLongitude: Option<real>,
    photoUri: Option<string>,
    intensity: Option<int>)

  /** The editor's state. `moodText` is the text under the emoji and `bar` the
      intensity symbols, whose view setupMoodIntensitySlider always creates. */
  datatype Editor = Editor(
    selectedMood: Option<string>,
    selectedEmoji: Option<string>,
    selectedColor: nat,
    moodPosition: int,
    isPublic: bool,
    locationName: Option<string>,
    locationCoords: Option<LatLng>,
    userRemovedLocation: bool,
    currentImageUri: Option<string>,
    hasBitmap: bool,
    intensity: int,
    moodText: Option<string>,
    bar: string)

  /** `moodColors.getOrDefault(selectedMood, Color.GRAY)`; a null mood is not
      a key either. */
  function ColorFor(mood: Option<string>): (c: nat)
    ensures c == Gray <==> mood.None? || FromName(mood.value).None?
  {
    GrayIffUnknown(mood.GetOr(""));
    match mood
    case Some(m) => ColorOfName(m)
    case None => Gray
  }

  /** SeekBar.setProgress keeps the value within the slider's range 0..10. */
  function SliderValue(progress: int): (v: int)
    ensures 0 <= v <= 10
    ensures 0 <= progress <= 10 ==> v == progress
  {
    if progress < 0 then 0 else if progress > 10 then 10 else progress
  }

  /** Opening either shows the editor or throws out of initializeUI. */
  datatype OpenOutcome = OpenThrew | Opened(editor: Editor)

  /** The editor after reading the extras, with the emoji and colour given:
      the part of onCreate both versions of opening share. */
  function Read(x: Extras, emoji: Option<string>, color: nat): (e: Editor)
    ensures e.selectedMood == x.selectedMood && e.selectedEmoji == emoji && e.selectedColor == color
    ensures e.moodPosition == x.moodPosition.GetOr(-1) && e.isPublic == x.isPublic.GetOr(false)
    ensures e.intensity == x.intensity.GetOr(SliderDefault)
    ensures e.locationName.Some? ==> x.moodLocation == Some(e.locationName)
    ensures e.locationCoords.Some? <==> x.moodLocation.Some? && (x.moodLatitude.GetOr(0.0) != 0.0 || x.moodLongitude.GetOr(0.0) != 0.0)
    ensures !e.userRemovedLocation && e.currentImageUri == x.photoUri
    ensures e.moodText == x.selectedMood
    ensures e.bar == IntensityBar(e.intensity)
  {
    var lat := x.moodLatitude.GetOr(0.0);
    var lng := x.moodLongitude.GetOr(0.0);
    var name := match x.moodLocation case Some(v) => v case None => None;
    var coords := if x.moodLocation.Some? && (lat != 0.0 || lng != 0.0) then Some(LatLng(lat, lng)) else None;
    var intensity := x.intensity.GetOr(SliderDefault);
    // the intensity label is set first and then replaced by the bare mood
    Editor(x.selectedMood, emoji, color, x.moodPosition.GetOr(-1), x.isPublic.GetOr(false),
           name, coords, false, x.photoUri, false, intensity, x.selectedMood, IntensityBar(intensity))
  }

  /** Moving the slider to `intensity` from `sliderStart` (the progress the
      layout gives the slider) calls the change listener, which reads the
      mood's drawable name and so throws on a null mood. */
  predicate ListenerThrowsOnOpen(x: Extras, sliderStart: int)
  {
    x.selectedMood.None? && SliderValue(x.intensity.GetOr(SliderDefault)) != sliderStart
  }

  /** onCreate's initializeUI, as written. The colour is first read with a
      gray default, then updateSelectedMoodEmoji replaces the emoji and the
      colour by the tables' entries for a non-null mood, unboxing the colour
      without a default: a mood that is not a key throws. */
  function Open(x: Extras, sliderStart: int): (o: OpenOutcome)
    ensures o.OpenThrew? <==>
      ListenerThrowsOnOpen(x, sliderStart) || (x.selectedMood.Some? && FromName(x.selectedMood.value).None?)
    ensures o.Opened? ==> o.editor.selectedColor == ColorFor(x.selectedMood)
    ensures o.Opened? && x.selectedMood.Some? ==>
      var m := FromName(x.selectedMood.value).value;
      o.editor.selectedEmoji == Some(Emoji(m)) && o.editor.selectedColor == Color(m)
    ensures o.Opened? && x.selectedMood.None? ==> o.editor.selectedEmoji == x.selectedEmoji && o.editor.selectedColor == Gray
    ensures o.Opened? ==> o.editor == Read(x, o.editor.selectedEmoji, o.editor.selectedColor)
  {
    if ListenerThrowsOnOpen(x, sliderStart) then OpenThrew
    else match x.selectedMood
      case None => Opened(Read(x, x.selectedEmoji, ColorFor(None)))
      case Some(name) =>
        match FromName(name)
        case None => OpenThrew
        case Some(m) => Opened(Read(x, Some(Emoji(m)), ColorFor(x.selectedMood)))
  }

  /** Opening without extras: the editor opens iff the slider already
      stands at 5, and then it is gray, unpositioned, private, at intensity
      5, with no location and no photo. */
  lemma OpenDefaults(sliderStart: int)
    ensures var o := Open(Extras(None, None, None, None, None, None, None, None, None), sliderStart);
      && (o.Opened? <==> sliderStart == 5)
      && (o.Opened? ==>
            var e := o.editor;
            && e.selectedColor == Gray && e.moodPosition == -1 && !e.isPublic && e.intensity == 5
            && e.locationName.None? && e.locationCoords.None? && e.currentImageUri.None?)
  {
  }

  /** The label after opening is the bare mood even where the intensity
      label would add a degree. */
  lemma OpenLabelIgnoresIntensity(x: Extras, sliderStart: int)
    requires x.selectedMood.Some? && FromName(x.selectedMood.value).Some? && x.intensity == Some(9)
    ensures Open(x, sliderStart).Opened? && Open(x, sliderStart).editor.moodText == x.selectedMood
    ensures MoodLabel(9, x.selectedMood) != x.selectedMood.value
  {
  }

  /** A mood named by AddMood's spinner (for instance "Happiness") is not a
      key of the editor's tables, so opening it for editing throws. */
  lemma AddMoodTitleCrashesEditor(x: Extras, sliderStart: int)
    requires x.selectedMood.Some? && x.selectedMood.value in AddMoodNames
    ensures Open(x, sliderStart).OpenThrew?
  {
  }

  /** The mood words of AddMood's spinner entries. */
  const AddMoodNames: set<string> := {"Anger", "Confusion", "Disgust", "Fear", "Happiness", "Sadness", "Shame", "Surprise"}

  /** Opening as evidently intended: updateSelectedMoodEmoji keeps the
      incoming emoji and the gray default for a mood that is not a key. */
  function OpenFixed(x: Extras, sliderStart: int): (o: OpenOutcome)
    ensures o.OpenThrew? <==> ListenerThrowsOnOpen(x, sliderStart)
    ensures Open(x, sliderStart).Opened? ==> o == Open(x, sliderStart)
    ensures o.Opened? && x.selectedMood.Some? && FromName(x.selectedMood.value).None? ==>
      o.editor.selectedEmoji == x.selectedEmoji && o.editor.selectedColor == Gray
    ensures o.Opened? ==> o.editor.selectedColor == ColorFor(x.selectedMood)
  {
    if ListenerThrowsOnOpen(x, sliderStart) then OpenThrew
    else match x.selectedMood
      case None => Opened(Read(x, x.selectedEmoji, ColorFor(None)))
      case Some(name) =>
        match FromName(name)
        case None => Opened(Read(x, x.selectedEmoji, ColorFor(x.selectedMood)))
        case Some(m) => Opened(Read(x, Some(Emoji(m)), ColorFor(x.selectedMood)))
  }

  /** With the correction, a mood named by AddMood's spinner opens gray,
      showing the emoji it arrived with. */
  lemma AddMoodTitleOpensFixed(x: Extras, sliderStart: int)
    requires x.selectedMood.Some? && x.selectedMood.value in AddMoodNames
    ensures OpenFixed(x, sliderStart).Opened?
    ensures OpenFixed(x, sliderStart).editor.selectedColor == Gray
    ensures OpenFixed(x, sliderStart).editor.selectedEmoji == x.selectedEmoji
  {
  }

  /** Moving the slider redraws the bar and sets the label by the intensity
      rule. The listener first reads the mood's drawable name, which throws
      on a null mood before the label is written. */
  function SlideTo(e: Editor, progress: int): (r: Option<Editor>)
    ensures r.None? <==> e.selectedMood.None?
    ensures r.Some? ==> r.value.intensity == progress && r.value.bar == IntensityBar(progress)
    ensures r.Some? ==> r.value.moodText == Some(MoodLabel(progress, e.selectedMood))
    ensures r.Some? ==> r.value.moodText.value == "Slightly " + e.selectedMood.value
                         || r.value.moodText.value == e.selectedMood.value
                         || r.value.moodText.value == "Very " + e.selectedMood.value
    ensures r.Some? ==> r.value.locationName == e.locationName && r.value.currentImageUri == e.currentImageUri
    ensures r.Some? ==> r.value.selectedMood == e.selectedMood && r.value.selectedColor == e.selectedColor
  {
    if e.selectedMood.None? then None
    else Some(e.(intensity := progress, bar := IntensityBar(progress), moodText := Some(MoodLabel(progress, e.selectedMood))))
  }

  /** The choices offered by the location button. */
  datatype LocationMenu = KeepSearchOrRemove | UseCurrentOrSearch | SearchDirectly

  function LocationMenuFor(e: Editor, currentAddress: Option<string>): (m: LocationMenu)
    ensures m == KeepSearchOrRemove <==> e.locationName.Some? && e.locationName.value != ""
    ensures m == SearchDirectly <==>
      (e.locationName.None? || e.locationName.value == "") && (currentAddress.None? || currentAddress.value == "")
  {
    if e.locationName.Some? && e.locationName.value != "" then KeepSearchOrRemove
    else if currentAddress.Some? && currentAddress.value != "" then UseCurrentOrSearch
    else SearchDirectly
  }

  /** "Remove location". */
  function RemoveLocation(e: Editor): (r: Editor)
    ensures r.locationName.None? && r.locationCoords.None? && r.userRemovedLocation
  {
    e.(locationName := None, locationCoords := None, userRemovedLocation := true)
  }

  /** "Use current location", as written: the removal flag is left alone. */
  function UseCurrentLocation(e: Editor, address: string, current: Option<LatLng>): (r: Editor)
    ensures r.locationName == Some(address)
    ensures r.locationCoords == if current.Some? then current else e.locationCoords
    ensures r.userRemovedLocation == e.userRemovedLocation
  {
    e.(locationName := Some(address), locationCoords := if current.Some? then current else e.locationCoords)
  }

  /** A place picked in the autocomplete screen, as written: the name is
      "name, address" and the removal flag is left alone. */
  function PlacePicked(e: Editor, name: Option<string>, address: Option<string>, coords: Option<LatLng>): (r: Editor)
    ensures r.locationName == Some(Text.StringOf(name) + ", " + Text.StringOf(address))
    ensures r.locationCoords == coords
    ensures r.userRemovedLocation == e.userRemovedLocation
  {
    e.(locationName := Some(Text.StringOf(name) + ", " + Text.StringOf(address)), locationCoords := coords)
  }

  /** "Remove Photo". */
  function RemovePhoto(e: Editor): (r: Editor)
    ensures r.currentImageUri == Some("N/A")
  {
    e.(currentImageUri := Some("N/A"))
  }

  /** A photo taken or picked. */
  function PhotoPicked(e: Editor, uri: string): (r: Editor)
    ensures r.currentImageUri == Some(uri) && r.hasBitmap
  {
    e.(currentImageUri := Some(uri), hasBitmap := true)
  }

  /** The location part of the result. */
  datatype LocationResult = LocationRemoved | LocationUpdated(name: string, coords: LatLng) | NoLocation

  /** The extras returned to the caller. */
  datatype Result = Result(
    updatedMood: Option<string>,
    updatedEmoji: Option<string>,
    updatedReasonWhy: string,
    updatedSocialSituation: string,
    timestamp: string,
    moodPosition: int,
    updatedPhotoUri: string,
    updatedIntensity: int,
    isPublic: bool,
    location: LocationResult)

  function LocationOf(e: Editor): (l: LocationResult)
    ensures l == LocationRemoved <==> e.userRemovedLocation
    ensures l.LocationUpdated? <==> !e.userRemovedLocation && e.locationName.Some? && e.locationCoords.Some?
  {
    if e.userRemovedLocation then LocationRemoved
    else if e.locationName.Some? && e.locationCoords.Some? then LocationUpdated(e.locationName.value, e.locationCoords.value)
    else NoLocation
  }

  datatype UpdateOutcome = UpdateRejected(message: string) | Returned(result: Result)

  /** The update button. `clock` is the formatted current time. */
  function Update(e: Editor, reasonInput: string, socialItem: string, progress: int, publicSwitch: bool, clock: string): (r: UpdateOutcome)
    ensures r.UpdateRejected? <==> ValidateReason(reasonInput).ReasonRejected?
    ensures r.UpdateRejected? ==> r.message == ValidateReason(reasonInput).message
    ensures r.Returned? ==> r.result.updatedReasonWhy == Text.Trim(reasonInput)
    ensures r.Returned? ==> r.result.updatedPhotoUri == e.currentImageUri.GetOr("N/A")
    ensures r.Returned? ==> r.result.location == LocationOf(e)
    ensures r.Returned? ==> r.result.moodPosition == e.moodPosition
    ensures r.Returned? ==> r.result.updatedIntensity == progress && r.result.isPublic == publicSwitch
  {
    match ValidateReason(reasonInput)
    case ReasonRejected(msg) => UpdateRejected(msg)
    case ReasonOk(reason) =>
      Returned(Result(e.selectedMood, e.selectedEmoji, reason, Text.Trim(socialItem), clock, e.moodPosition,
                      e.currentImageUri.GetOr("N/A"), progress, publicSwitch, LocationOf(e)))
  }

  /** A removed photo is reported as "N/A", exactly like no photo at all. */
  lemma RemovedPhotoReportsNA(e: Editor, reasonInput: string, socialItem: string, progress: int, publicSwitch: bool, clock: string)
    requires ValidateReason(reasonInput).ReasonOk?
    ensures Update(RemovePhoto(e), reasonInput, socialItem, progress, publicSwitch, clock).result.updatedPhotoUri == "N/A"
    ensures Update(e.(currentImageUri := None), reasonInput, socialItem, progress, publicSwitch, clock).result.updatedPhotoUri == "N/A"
  {
  }

  /** As written, removing the location and then picking a new place still
      reports the location as removed: the new place is never returned. */
  lemma RemovalOutlivesNewPlace(e: Editor, name: string, address: string, coords: LatLng,
                                reasonInput: string, socialItem: string, progress: int, publicSwitch: bool, clock: string)
    requires ValidateReason(reasonInput).ReasonOk?
    ensures var after := PlacePicked(RemoveLocation(e), Some(name), Some(address), Some(coords));
      && after.locationName == Some(name + ", " + address)
      && Update(after, reasonInput, socialItem, progress, publicSwitch, clock).result.location == LocationRemoved
  {
  }

  /** A place picked, as evidently intended: the latest choice replaces an
      earlier removal. */
  function PlacePickedFixed(e: Editor, name: Option<string>, address: Option<string>, coords: Option<LatLng>): (r: Editor)
    ensures !r.userRemovedLocation
    ensures r.locationName == PlacePicked(e, name, address, coords).locationName
    ensures r.locationCoords == coords
  {
    PlacePicked(e, name, address, coords).(userRemovedLocation := false)
  }

  /** "Use current location", as evidently intended. */
  function UseCurrentLocationFixed(e: Editor, address: string, current: Option<LatLng>): (r: Editor)
    ensures !r.userRemovedLocation
    ensures r.locationName == Some(address)
  {
    UseCurrentLocation(e, address, current).(userRemovedLocation := false)
  }

  /** With the corrected choices, the result reports the latest location
      choice: a place picked after a removal is returned. */
  lemma LatestLocationChoiceWins(e: Editor, name: string, address: string, coords: LatLng,
                                 reasonInput: string, socialItem: string, progress: int, publicSwitch: bool, clock: string)
    requires ValidateReason(reasonInput).ReasonOk?
    ensures Update(PlacePickedFixed(RemoveLocation(e), Some(name), Some(address), Some(coords)),
                   reasonInput, socialItem, progress, publicSwitch, clock).result.location
         == LocationUpdated(name + ", " + address, coords)
    ensures Update(RemoveLocation(e), reasonInput, socialItem, progress, publicSwitch, clock).result.location == LocationRemoved
  {
  }
}

=== FILE: filter_dialog.dfy ===
/** FilterDialog: the time-window and mood filter over a list of mood
    events, and the selection the dialog remembers between openings. */
module FilterDialogs {
  import opened Wrappers
  import Seqs
  import Text
  import opened Moods
  import opened Records

  /** The window of a time-filter string in milliseconds; `None` for every
      string without a window (including "all_time"). */
  function WindowMs(timeFilter: string): (w: Option<int>)
    ensures w.Some? <==> timeFilter in {"last_24_hours", "3Days", "last_week", "last_month"}
    ensures w.Some? ==> w.value > 0 && w.value % DayMs == 0
  {
    if timeFilter == "last_24_hours" then Some(86_400_000)
    else if timeFilter == "3Days" then Some(259_200_000)
    else if timeFilter == "last_week" then Some(604_800_000)
    else if timeFilter == "last_month" then Some(2_592_000_000)
    else None
  }

  /** The windows are 1, 3, 7 and 30 days. */
  lemma WindowsInDays()
    ensures WindowMs("last_24_hours") == Some(1 * DayMs)
    ensures WindowMs("3Days") == Some(3 * DayMs)
    ensures WindowMs("last_week") == Some(7 * DayMs)
    ensures WindowMs("last_month") == Some(30 * DayMs)
    ensures WindowMs("all_time") == None
  {
  }

  /** The inclusive time check of the filter loop. */
  predicate InTime(timeFilter: string, now: int, time: int) {
    match WindowMs(timeFilter)
    case None => true
    case Some(w) => now - time <= w
  }

  /** The upper-case literal compared against for each mood. */
  function Literal(m: Mood): string {
    match m
    case Happy => "HAPPY"
    case Sad => "SAD"
    case Angry => "ANGRY"
    case Surprised => "SURPRISED"
    case Afraid => "AFRAID"
    case Disgusted => "DISGUSTED"
    case Confused => "CONFUSED"
    case Shameful => "SHAMEFUL"
  }

  /** Each literal is the upper-cased enum name, so the literals are
      pairwise distinct and none is empty. */
  lemma LiteralIsUpperName(m: Mood)
    ensures Literal(m) == Text.Upper(Name(m))
    ensures Literal(m) != ""
    ensures forall a: Mood, b: Mood :: Literal(a) == Literal(b) ==> a == b
  {
  }

  /** The title as compared: upper-cased, with a null title read as "". */
  function ComparedTitle(title: Option<string>): (t: string)
    ensures title.None? ==> t == ""
    ensures title.Some? ==> |t| == |title.value|
  {
    Text.Upper(title.GetOr(""))
  }

  /** The mood whose literal is `t`, if any. */
  function LiteralMood(t: string): (r: Option<Mood>)
    ensures r.Some? ==> Literal(r.value) == t
    ensures r.None? ==> forall m: Mood :: Literal(m) != t
  {
    if t == "HAPPY" then Some(Happy)
    else if t == "SAD" then Some(Sad)
    else if t == "ANGRY" then Some(Angry)
    else if t == "SURPRISED" then Some(Surprised)
    else if t == "AFRAID" then Some(Afraid)
    else if t == "DISGUSTED" then Some(Disgusted)
    else if t == "CONFUSED" then Some(Confused)
    else if t == "SHAMEFUL" then Some(Shameful)
    else None
  }

  /** The mood check: with no box checked every title passes; otherwise the
      compared title must be the literal of a checked mood. */
  predicate MoodMatches(checked: set<Mood>, title: Option<string>) {
    checked == {}
    || (LiteralMood(ComparedTitle(title)).Some? && LiteralMood(ComparedTitle(title)).value in checked)
  }

  /** The mood check against its reference reading, both directions: with a
      box checked, an event passes iff some checked mood's literal equals its
      compared title; a null title never passes. */
  lemma MoodMatchesIff(checked: set<Mood>, title: Option<string>)
    requires checked != {}
    ensures MoodMatches(checked, title) <==> exists m :: m in checked && Literal(m) == ComparedTitle(title)
    ensures title.None? ==> !MoodMatches(checked, title)
  {
    if title.None? {
      assert ComparedTitle(title) == "";
    }
  }

  /** A title matches a checked mood whatever its letter case (ASCII). */
  lemma AnyCaseMatches(checked: set<Mood>, m: Mood)
    requires m in checked
    ensures MoodMatches(checked, Some(Text.Lower(Name(m))))
    ensures MoodMatches(checked, Some(Name(m)))
  {
    LiteralIsUpperName(m);
    match m
    case Happy => assert Text.Upper(Text.Lower("Happy")) == "HAPPY";
    case Sad => assert Text.Upper(Text.Lower("Sad")) == "SAD";
    case Angry => assert Text.Upper(Text.Lower("Angry")) == "ANGRY";
    case Surprised => assert Text.Upper(Text.Lower("Surprised")) == "SURPRISED";
    case Afraid => assert Text.Upper(Text.Lower("Afraid")) == "AFRAID";
    case Disgusted => assert Text.Upper(Text.Lower("Disgusted")) == "DISGUSTED";
    case Confused => assert Text.Upper(Text.Lower("Confused")) == "CONFUSED";
    case Shameful => assert Text.Upper(Text.Lower("Shameful")) == "SHAMEFUL";
  }

  /** The selection passed to the filter: the time filter string and the set
      of checked mood boxes. */
  datatype Selection = Selection(timeFilter: string, checked: set<Mood>)

  /** Whether one event survives the filter. */
  predicate Keeps(sel: Selection, now: int, e: MoodRecord) {
    e.date.Some? && InTime(sel.timeFilter, now, e.date.value) && MoodMatches(sel.checked, e.moodTitle)
  }

  /** applyFilters: the events, in order, that have a date inside the window
      and match the mood boxes. */
  function ApplyFilters(events: seq<MoodRecord>, sel: Selection, now: int): (r: seq<MoodRecord>)
    ensures Seqs.IsSubseq(r, events)
    ensures forall i :: 0 <= i < |r| ==> r[i].date.Some?
    ensures forall i :: 0 <= i < |r| ==> Keeps(sel, now, r[i])
    ensures forall i :: 0 <= i < |events| && Keeps(sel, now, events[i]) ==> events[i] in r
  {
    Seqs.Filter(e => Keeps(sel, now, e), events)
  }

  /** A window's bound is inclusive: an event exactly `w` old is kept, one a
      millisecond older is not. */
  lemma WindowBoundInclusive(timeFilter: string, now: int, e: MoodRecord)
    requires WindowMs(timeFilter).Some? && e.date.Some?
    ensures e.date.value == now - WindowMs(timeFilter).value ==> Keeps(Selection(timeFilter, {}), now, e)
    ensures e.date.value == now - WindowMs(timeFilter).value - 1 ==> !Keeps(Selection(timeFilter, {}), now, e)
  {
  }

  /** Strings without a window impose no time limit: with no box checked,
      exactly the dated events remain, in order. */
  lemma NoLimitNoBoxKeepsDated(events: seq<MoodRecord>, timeFilter: string, now: int)
    requires WindowMs(timeFilter).None?
    ensures ApplyFilters(events, Selection(timeFilter, {}), now)
         == Seqs.Filter((e: MoodRecord) => e.date.Some?, events)
  {
    Seqs.FilterCongruent((e: MoodRecord) => Keeps(Selection(timeFilter, {}), now, e),
                         (e: MoodRecord) => e.date.Some?, events);
  }

  /** With every event dated inside the window and no box checked, nothing
      is removed. */
  lemma NoBoxKeepsWindow(events: seq<MoodRecord>, timeFilter: string, now: int)
    requires forall i :: 0 <= i < |events| ==> events[i].date.Some? && InTime(timeFilter, now, events[i].date.value)
    ensures ApplyFilters(events, Selection(timeFilter, {}), now) == events
  {
    Seqs.FilterKeepsAll((e: MoodRecord) => Keeps(Selection(timeFilter, {}), now, e), events);
  }

  /** The radio buttons of the dialog. */
  datatype Radio = Last24 | Last3Days | LastWeek | LastMonth | AllTime

  /** The time filter read from the radio group; no checked radio gives
      "all_time". */
  function RadioFilter(checkedRadio: Option<Radio>): (tf: string)
    ensures checkedRadio.None? || checkedRadio == Some(AllTime) <==> WindowMs(tf).None?
  {
    match checkedRadio
    case None => "all_time"
    case Some(Last24) => "last_24_hours"
    case Some(Last3Days) => "3Days"
    case Some(LastWeek) => "last_week"
    case Some(LastMonth) => "last_month"
    case Some(AllTime) => "all_time"
  }

  /** The radio pre-checked when the dialog opens; unknown strings check
      "all time". */
  function ShownRadio(lastTimeFilter: string): (r: Radio)
    ensures r == AllTime <==> WindowMs(lastTimeFilter).None?
  {
    if lastTimeFilter == "last_24_hours" then Last24
    else if lastTimeFilter == "3Days" then Last3Days
    else if lastTimeFilter == "last_week" then LastWeek
    else if lastTimeFilter == "last_month" then LastMonth
    else AllTime
  }

  /** The remembered selection (the static `last*` fields). */
  datatype Memory = Memory(lastTimeFilter: string, lastChecked: set<Mood>)

  const InitialMemory: Memory := Memory("all_time", {})

  /** The outcome of pressing "apply": the new memory and the selection
      passed both to the listener and to the filter. */
  datatype Applied = Applied(memory: Memory, selection: Selection)

  function Apply(checkedRadio: Option<Radio>, checked: set<Mood>): (a: Applied)
    ensures a.memory.lastTimeFilter == a.selection.timeFilter
    ensures a.memory.lastChecked == a.selection.checked == checked
  {
    var tf := RadioFilter(checkedRadio);
    Applied(Memory(tf, checked), Selection(tf, checked))
  }

  /** Reopening the dialog shows the selection just applied: the same
      boxes, and the same radio (all time when none was checked). */
  lemma ReopenShowsApplied(checkedRadio: Option<Radio>, checked: set<Mood>)
    ensures ShownRadio(Apply(checkedRadio, checked).memory.lastTimeFilter) == checkedRadio.GetOr(AllTime)
    ensures Apply(checkedRadio, checked).memory.lastChecked == checked
  {
  }

  /** The first opening shows "all time" and no checked box, which filters
      nothing but undated events. */
  lemma InitialShowsAllTime(events: seq<MoodRecord>, now: int)
    ensures ShownRadio(InitialMemory.lastTimeFilter) == AllTime
    ensures ApplyFilters(events, Selection(InitialMemory.lastTimeFilter, InitialMemory.lastChecked), now)
         == Seqs.Filter((e: MoodRecord) => e.date.Some?, events)
  {
    NoLimitNoBoxKeepsDated(events, "all_time", now);
  }
}

=== FILE: home.dfy ===
/** HomePage: the feed of the people the user follows (at most three
    public moods each, newest first), the pending counter that decides when
    the feed is complete, and the daily streak reset. */
module HomePage {
  import opened Wrappers
  import Seqs
  import Text
  import ListAdapters
  import MoodEventAdapter
  import opened Records

  /** How many moods each followed user contributes at most. */
  const PerUserCap: nat := 3

  /** What loading the following list leads to. */
  datatype FeedStart = ShowEmpty | FetchEach(ids: seq<string>)

  /** A missing or empty following list shows the empty state and fetches
      nothing; otherwise each followed user is fetched. */
  function StartFeed(followingIds: Option<seq<string>>): (r: FeedStart)
    ensures r == ShowEmpty <==> followingIds.None? || followingIds.value == []
    ensures r.FetchEach? ==> r.ids == followingIds.value
  {
    match followingIds
    case None => ShowEmpty
    case Some(ids) => if ids == [] then ShowEmpty else FetchEach(ids)
  }

  /** The stored isPublic field: absent, a Boolean, or a value of another
      type, which the `(Boolean)` cast rejects with a ClassCastException. */
  datatype StoredFlag = NoFlag | Flag(b: bool) | NotBoolean

  /** A stored mood of a followed user, as the feed reads it. `castFails`
      says whether MoodEvent.fromMap throws a ClassCastException on the
      document's data (the `CastFailure` outcome of MoodEvents.FromMap). */
  datatype FeedDoc = FeedDoc(id: string, castFails: bool, isPublic: StoredFlag, timestamp: Option<string>, event: MoodRecord)

  /** The subtitle: "Social: s" for a non-empty social situation. */
  function SocialSubtitle(social: Option<string>): (r: string)
    ensures r == "" <==> social.None? || social.value == ""
    ensures r != "" ==> r == "Social: " + social.value
  {
    if social.Some? && social.value != "" then "Social: " + social.value else ""
  }

  /** A feed entry. */
  datatype FeedItem = FeedItem(documentId: string, ownerUserId: string, username: Option<string>, subtitle: string, event: MoodRecord)

  /** How reading one document ends: skipped (private, or an unparsable
      timestamp, both of which the loop survives), taken, or thrown (a
      ClassCastException, which the loop's `catch (ParseException)` does
      not catch). */
  datatype EntryResult = Skipped | Taken(item: FeedItem) | Thrown {
    /** The entry, when the document gives one. */
    function Kept(): Option<FeedItem> {
      if Taken? then Some(item) else None
    }
  }

  /** The reading of one document (`parse` stands for the date parser; a
      parsed timestamp becomes the event's date). fromMap runs first, then
      the isPublic cast, then the visibility and timestamp tests. */
  function Entry(d: FeedDoc, owner: string, username: Option<string>, parse: string -> Option<int>): (r: EntryResult)
    ensures r.Thrown? <==> d.castFails || d.isPublic.NotBoolean?
    ensures r.Taken? <==> !d.castFails && d.isPublic == Flag(true) && (d.timestamp.None? || parse(d.timestamp.value).Some?)
    ensures r.Taken? ==> r.item.documentId == d.id && r.item.ownerUserId == owner && r.item.event.isPublic
    ensures r.Taken? && d.timestamp.Some? ==> r.item.event.date == parse(d.timestamp.value)
  {
    if d.castFails || d.isPublic.NotBoolean? then Thrown
    else if d.isPublic != Flag(true) then Skipped
    else if d.timestamp.Some? && parse(d.timestamp.value).None? then Skipped
    else
      var date := if d.timestamp.Some? then parse(d.timestamp.value) else d.event.date;
      Taken(FeedItem(d.id, owner, username, SocialSubtitle(d.event.socialSituation), d.event.(date := date, isPublic := true)))
  }

  /** The reading of a followed user's documents. */
  function EntryOf(owner: string, username: Option<string>, parse: string -> Option<int>): FeedDoc -> EntryResult {
    d => Entry(d, owner, username, parse)
  }

  /** The entries a reading keeps, as a partial map. */
  function Keeps(entry: FeedDoc -> EntryResult): FeedDoc -> Option<FeedItem> {
    d => entry(d).Kept()
  }

  /** The loop over one user's moods (newest first) with `entry` reading
      each document: stop once `taken` reaches the cap; a skipped document
      does not count; a document that throws ends the callback (`None`). */
  function TakeFrom(entry: FeedDoc -> EntryResult, docs: seq<FeedDoc>, taken: nat): (r: Option<seq<FeedItem>>)
    requires taken <= PerUserCap
    ensures r.Some? ==> |r.value| <= PerUserCap - taken
    ensures (forall i :: 0 <= i < |docs| ==> !entry(docs[i]).Thrown?) ==> r.Some?
    decreases |docs|
  {
    if docs == [] || taken >= PerUserCap then Some([])
    else match entry(docs[0])
      case Thrown => None
      case Skipped => TakeFrom(entry, docs[1..], taken)
      case Taken(item) =>
        match TakeFrom(entry, docs[1..], taken + 1)
        case None => None
        case Some(rest) => Some([item] + rest)
  }

  /** One followed user's contribution, or `None` when the callback throws. */
  function UserEntries(docs: seq<FeedDoc>, owner: string, username: Option<string>, parse: string -> Option<int>): (r: Option<seq<FeedItem>>)
    ensures r.Some? ==> |r.value| <= PerUserCap
  {
    TakeFrom(EntryOf(owner, username, parse), docs, 0)
  }

  /** Reference reading: when the loop completes it yields the first
      `cap - taken` kept moods in query order; skipped moods are not counted
      against the cap. */
  lemma {:induction false} TakeIsFirstEligible(entry: FeedDoc -> EntryResult, docs: seq<FeedDoc>, taken: nat)
    requires taken <= PerUserCap
    ensures TakeFrom(entry, docs, taken).Some? ==>
      TakeFrom(entry, docs, taken).value == Seqs.TakeAtMost(Seqs.FilterMap(Keeps(entry), docs), PerUserCap - taken)
    decreases |docs|
  {
    if docs != [] && taken < PerUserCap {
      var rest := Seqs.FilterMap(Keeps(entry), docs[1..]);
      match entry(docs[0])
      case Thrown =>
      case Skipped =>
        TakeIsFirstEligible(entry, docs[1..], taken);
      case Taken(item) =>
        TakeIsFirstEligible(entry, docs[1..], taken + 1);
        assert Seqs.FilterMap(Keeps(entry), docs) == [item] + rest;
        var n := PerUserCap - taken;
        if |[item] + rest| > n {
          assert ([item] + rest)[..n] == [item] + rest[..n - 1];
        }
    }
  }

  /** The kept moods of a non-empty prefix are those of its head followed
      by those of the rest. */
  lemma PrefixKeeps(entry: FeedDoc -> EntryResult, docs: seq<FeedDoc>, i: nat)
    requires 1 <= i <= |docs|
    ensures Seqs.FilterMap(Keeps(entry), docs[..i])
         == (match entry(docs[0]).Kept() case None => [] case Some(y) => [y])
            + Seqs.FilterMap(Keeps(entry), docs[1..][..i - 1])
  {
    assert docs[..i][0] == docs[0];
    assert docs[..i][1..] == docs[1..][..i - 1];
  }

  /** Document `i` throws and the loop, started with `taken` entries,
      reaches it: the kept moods before it leave the cap unmet. */
  ghost predicate ThrowsAt(entry: FeedDoc -> EntryResult, docs: seq<FeedDoc>, i: int, taken: int) {
    0 <= i < |docs| && entry(docs[i]).Thrown? && taken + |Seqs.FilterMap(Keeps(entry), docs[..i])| < PerUserCap
  }

  /** A reached document that throws ends the loop with `None`. */
  lemma {:induction false} ReachedThrowEndsLoop(entry: FeedDoc -> EntryResult, docs: seq<FeedDoc>, taken: nat, i: int)
    requires taken <= PerUserCap && ThrowsAt(entry, docs, i, taken)
    ensures TakeFrom(entry, docs, taken).None?
    decreases |docs|
  {
    if i > 0 && !entry(docs[0]).Thrown? {
      PrefixKeeps(entry, docs, i);
      assert docs[1..][i - 1] == docs[i];
      var next := if entry(docs[0]).Taken? then taken + 1 else taken;
      ReachedThrowEndsLoop(entry, docs[1..], next, i - 1);
    }
  }

  /** A loop that ends with `None` reached a document that throws. */
  lemma {:induction false} LoopEndsOnlyAtThrow(entry: FeedDoc -> EntryResult, docs: seq<FeedDoc>, taken: nat)
    returns (i: int)
    requires taken <= PerUserCap && TakeFrom(entry, docs, taken).None?
    ensures ThrowsAt(entry, docs, i, taken)
    decreases |docs|
  {
    assert docs != [] && taken < PerUserCap;
    if entry(docs[0]).Thrown? {
      assert docs[..0] == [];
      i := 0;
    } else {
      var next := if entry(docs[0]).Taken? then taken + 1 else taken;
      assert TakeFrom(entry, docs[1..], next).None?;
      var j := LoopEndsOnlyAtThrow(entry, docs[1..], next);
      PrefixKeeps(entry, docs, j + 1);
      assert docs[j + 1] == docs[1..][j];
      i := j + 1;
    }
  }

  /** The loop throws exactly when it reaches, before the cap is met, a
      document whose reading throws. */
  lemma TakeThrowsIff(entry: FeedDoc -> EntryResult, docs: seq<FeedDoc>, taken: nat)
    requires taken <= PerUserCap
    ensures TakeFrom(entry, docs, taken).None? <==> exists i :: ThrowsAt(entry, docs, i, taken)
  {
    if TakeFrom(entry, docs, taken).None? {
      var i := LoopEndsOnlyAtThrow(entry, docs, taken);
    }
    forall i | ThrowsAt(entry, docs, i, taken)
      ensures TakeFrom(entry, docs, taken).None?
    {
      ReachedThrowEndsLoop(entry, docs, taken, i);
    }
  }

  /** When a user's callback completes, their contribution is the first
      three of their kept moods. */
  lemma UserEntriesAreFirstEligible(docs: seq<FeedDoc>, owner: string, username: Option<string>, parse: string -> Option<int>)
    ensures UserEntries(docs, owner, username, parse).Some? ==>
      UserEntries(docs, owner, username, parse).value
        == Seqs.TakeAtMost(Seqs.FilterMap(Keeps(EntryOf(owner, username, parse)), docs), PerUserCap)
  {
    TakeIsFirstEligible(EntryOf(owner, username, parse), docs, 0);
  }

  /** Every entry the loop yields is one `entry` took. */
  lemma {:induction false} TakenAreEntries(entry: FeedDoc -> EntryResult, docs: seq<FeedDoc>, taken: nat)
    requires taken <= PerUserCap
    ensures TakeFrom(entry, docs, taken).Some? ==>
      forall x :: x in TakeFrom(entry, docs, taken).value ==> exists d :: d in docs && entry(d) == Taken(x)
    decreases |docs|
  {
    if docs != [] && taken < PerUserCap && TakeFrom(entry, docs, taken).Some? {
      TakenAreEntries(entry, docs[1..], taken);
      TakenAreEntries(entry, docs[1..], taken + 1);
      forall x | x in TakeFrom(entry, docs, taken).value
        ensures exists d :: d in docs && entry(d) == Taken(x)
      {
        if entry(docs[0]) != Taken(x) {
          var d :| d in docs[1..] && entry(d) == Taken(x);
          assert d in docs;
        }
      }
    }
  }

  /** Every feed entry of a user is a public mood of that user. */
  lemma EntriesArePublic(docs: seq<FeedDoc>, owner: string, username: Option<string>, parse: string -> Option<int>)
    ensures UserEntries(docs, owner, username, parse).Some? ==>
      forall x :: x in UserEntries(docs, owner, username, parse).value ==> x.event.isPublic && x.ownerUserId == owner
  {
    var entry := EntryOf(owner, username, parse);
    TakenAreEntries(entry, docs, 0);
    if UserEntries(docs, owner, username, parse).Some? {
      forall x | x in UserEntries(docs, owner, username, parse).value
        ensures x.event.isPublic && x.ownerUserId == owner
      {
        var d :| d in docs && entry(d) == Taken(x);
      }
    }
  }

  /** How a followed user's fetch ended. */
  datatype Outcome = Fetched(owner: string, username: Option<string>, docs: seq<FeedDoc>) | PostsFailed | ProfileFailed

  /** What one callback adds to the combined list, or `None` when it throws
      before reaching its decrement. The failure listeners add nothing. */
  function Arrive(o: Outcome, parse: string -> Option<int>): (r: Option<seq<FeedItem>>)
    ensures !o.Fetched? ==> r == Some([])
    ensures r.Some? ==> |r.value| <= PerUserCap
  {
    match o
    case Fetched(owner, username, docs) => UserEntries(docs, owner, username, parse)
    case _ => Some([])
  }

  /** The pending counter after each callback that reaches its
      `decrementAndGet`, starting from `pending`. A callback that throws
      ends the sequence: the uncaught exception stops the activity, so no
      later callback runs. */
  function Pending(pending: int, arrivals: seq<Outcome>, parse: string -> Option<int>): (r: seq<int>)
    ensures |r| <= |arrivals|
    ensures forall k :: 0 <= k < |r| ==> r[k] == pending - (k + 1)
    ensures |r| == |arrivals| <==> forall k :: 0 <= k < |arrivals| ==> Arrive(arrivals[k], parse).Some?
    ensures |r| < |arrivals| ==> Arrive(arrivals[|r|], parse).None?
    decreases |arrivals|
  {
    if arrivals == [] || Arrive(arrivals[0], parse).None? then []
    else
      var rest := Pending(pending - 1, arrivals[1..], parse);
      assert forall k :: 1 <= k < |arrivals| ==> arrivals[k] == arrivals[1..][k - 1];
      [pending - 1] + rest
  }

  /** With one callback per followed user and none throwing, the feed is
      finalised exactly once, on the last arrival, whatever the order and
      the fetch failures. */
  lemma FinalisedOnceAtEnd(ids: seq<string>, arrivals: seq<Outcome>, parse: string -> Option<int>)
    requires |arrivals| == |ids| > 0
    requires forall k :: 0 <= k < |arrivals| ==> Arrive(arrivals[k], parse).Some?
    ensures |Pending(|ids|, arrivals, parse)| == |arrivals|
    ensures Pending(|ids|, arrivals, parse)[|arrivals| - 1] == 0
    ensures forall k :: 0 <= k < |arrivals| - 1 ==> Pending(|ids|, arrivals, parse)[k] != 0
  {
  }

  /** A callback that throws leaves the counter above zero for good: the
      feed is never finalised. */
  lemma ThrowNeverFinalises(ids: seq<string>, arrivals: seq<Outcome>, parse: string -> Option<int>, k: nat)
    requires |arrivals| == |ids| && k < |arrivals| && Arrive(arrivals[k], parse).None?
    ensures forall j :: 0 <= j < |Pending(|ids|, arrivals, parse)| ==> Pending(|ids|, arrivals, parse)[j] > 0
  {
  }

  /** What each callback contributes, in arrival order. */
  function Contributions(arrivals: seq<Outcome>, parse: string -> Option<int>): (r: seq<Option<seq<FeedItem>>>)
    ensures |r| == |arrivals|
    ensures forall k :: 0 <= k < |arrivals| ==> r[k] == Arrive(arrivals[k], parse)
  {
    seq(|arrivals|, k requires 0 <= k < |arrivals| => Arrive(arrivals[k], parse))
  }

  /** The contributions joined in order, or `None` once one of them threw. */
  function Gather(parts: seq<Option<seq<FeedItem>>>): (r: Option<seq<FeedItem>>)
    ensures r.Some? <==> forall k :: 0 <= k < |parts| ==> parts[k].Some?
    ensures r.Some? && (forall k :: 0 <= k < |parts| ==> |parts[k].value| <= PerUserCap) ==>
      |r.value| <= PerUserCap * |parts|
    decreases |parts|
  {
    if parts == [] then Some([])
    else
      assert forall k :: 1 <= k < |parts| ==> parts[k] == parts[1..][k - 1];
      match parts[0]
      case None => None
      case Some(mine) =>
        match Gather(parts[1..])
        case None => None
        case Some(more) => Some(mine + more)
  }

  /** Joining one more contribution appends it at the end. */
  lemma {:induction false} GatherAppends(parts: seq<Option<seq<FeedItem>>>, p: Option<seq<FeedItem>>)
    ensures Gather(parts + [p])
         == if Gather(parts).Some? && p.Some? then Some(Gather(parts).value + p.value) else None
    decreases |parts|
  {
    var longer := parts + [p];
    if parts == [] {
      assert longer == [p];
      assert longer[1..] == [];
      if p.Some? {
        assert p.value + [] == p.value;
        assert [] + p.value == p.value;
      }
    } else {
      assert longer[0] == parts[0];
      assert longer[1..] == parts[1..] + [p];
      GatherAppends(parts[1..], p);
      match parts[0]
      case None =>
      case Some(mine) =>
        match Gather(parts[1..])
        case None =>
        case Some(more) =>
          match p
          case None =>
          case Some(last) =>
            assert mine + (more + last) == (mine + more) + last;
    }
  }

  /** Each contribution is part of the joined list. */
  lemma {:induction false} GatherHoldsEach(parts: seq<Option<seq<FeedItem>>>, k: nat)
    requires Gather(parts).Some? && k < |parts|
    ensures parts[k].Some?
    ensures forall x :: x in parts[k].value ==> x in Gather(parts).value
    decreases |parts|
  {
    if k > 0 {
      GatherHoldsEach(parts[1..], k - 1);
      assert parts[1..][k - 1] == parts[k];
    }
  }

  /** The combined list when every callback completes: each user's entries
      in arrival order; failures add nothing. `None` when a callback throws. */
  function Combined(arrivals: seq<Outcome>, parse: string -> Option<int>): (r: Option<seq<FeedItem>>)
    ensures r.Some? <==> forall k :: 0 <= k < |arrivals| ==> Arrive(arrivals[k], parse).Some?
    ensures r.Some? ==> |r.value| <= PerUserCap * |arrivals|
  {
    Gather(Contributions(arrivals, parse))
  }

  /** The callbacks' own view of the combined list: each arrival appends
      its entries at the end, as `combinedMoodEvents.add` does. */
  lemma CombinedAppends(arrivals: seq<Outcome>, o: Outcome, parse: string -> Option<int>)
    ensures Combined(arrivals + [o], parse)
         == if Combined(arrivals, parse).Some? && Arrive(o, parse).Some?
            then Some(Combined(arrivals, parse).value + Arrive(o, parse).value)
            else None
  {
    assert Contributions(arrivals + [o], parse) == Contributions(arrivals, parse) + [Arrive(o, parse)];
    GatherAppends(Contributions(arrivals, parse), Arrive(o, parse));
  }

  /** Each completed callback's entries are in the combined list. */
  lemma CombinedHoldsEach(arrivals: seq<Outcome>, parse: string -> Option<int>, k: nat)
    requires Combined(arrivals, parse).Some? && k < |arrivals|
    ensures Arrive(arrivals[k], parse).Some?
    ensures forall x :: x in Arrive(arrivals[k], parse).value ==> x in Combined(arrivals, parse).value
  {
    GatherHoldsEach(Contributions(arrivals, parse), k);
  }

  /** The date an event sorts by; one without a date sorts as 0 (only a
      single-item list, which the sort never compares, can hold one). */
  function SortDate(x: MoodRecord): int {
    x.date.GetOr(0)
  }

  ghost predicate NewestFirst(s: seq<MoodRecord>) {
    forall i, j :: 0 <= i < j < |s| ==> SortDate(s[i]) >= SortDate(s[j])
  }

  /** In a newest-first list no later item is newer than the first. */
  lemma HeadBoundsTail(s: seq<MoodRecord>)
    requires NewestFirst(s) && s != []
    ensures forall y :: y in s[1..] ==> SortDate(y) <= SortDate(s[0])
  {
    forall y | y in s[1..] ensures SortDate(y) <= SortDate(s[0]) {
      var j :| 0 <= j < |s[1..]| && s[1..][j] == y;
      assert y == s[j + 1];
    }
  }

  /** Inserts `x` before the first item that is not newer, so that equal
      dates keep their order. */
  function Insert(x: MoodRecord, s: seq<MoodRecord>): (r: seq<MoodRecord>)
    requires NewestFirst(s)
    ensures NewestFirst(r)
    ensures forall y :: y in r ==> y == x || y in s
  {
    if s == [] || SortDate(s[0]) <= SortDate(x) then [x] + s
    else
      var rest := Insert(x, s[1..]);
      HeadBoundsTail(s);
      [s[0]] + rest
  }

  /** Inserting adds exactly `x` to the items. */
  lemma {:induction false} InsertAddsOne(x: MoodRecord, s: seq<MoodRecord>)
    requires NewestFirst(s)
    ensures multiset(Insert(x, s)) == multiset(s) + multiset{x}
  {
    if s != [] && SortDate(s[0]) > SortDate(x) {
      InsertAddsOne(x, s[1..]);
      assert s == [s[0]] + s[1..];
    }
  }

  /** The sort of finalizeMoodEvents (a stable sort): newest first. */
  function SortNewestFirst(s: seq<MoodRecord>): (r: seq<MoodRecord>)
    ensures NewestFirst(r)
    ensures multiset(r) == multiset(s)
    ensures |r| == |s|
  {
    if s == [] then []
    else
      assert s == [s[0]] + s[1..];
      InsertAddsOne(s[0], SortNewestFirst(s[1..]));
      Insert(s[0], SortNewestFirst(s[1..]))
  }

  /** The sort keeps a list that is already newest first as it is. */
  lemma {:induction false} SortKeepsSorted(s: seq<MoodRecord>)
    requires NewestFirst(s)
    ensures SortNewestFirst(s) == s
    decreases |s|
  {
    if s != [] {
      SortKeepsSorted(s[1..]);
      assert s[1..] != [] ==> SortDate(s[1..][0]) <= SortDate(s[0]);
    }
  }

  /** The mood events of the feed entries. */
  function Events(s: seq<FeedItem>): (r: seq<MoodRecord>)
    ensures |r| == |s|
    ensures forall i :: 0 <= i < |s| ==> r[i] == s[i].event
  {
    seq(|s|, i requires 0 <= i < |s| => s[i].event)
  }

  /** What finalising shows: the empty state, the sorted feed (searched
      again when the search box holds text), or nothing at all when the
      comparator meets an event without a date: `getDate().compareTo`
      throws a NullPointerException, and a sort of two or more items
      compares every item. */
  datatype FeedView = EmptyFeed | Feed(list: ListAdapters.ListState<MoodRecord>) | SortThrew

  function Finalise(combined: seq<FeedItem>, searchText: string): (v: FeedView)
    ensures v == EmptyFeed <==> combined == []
    ensures v == SortThrew <==> |combined| >= 2 && exists i :: 0 <= i < |combined| && combined[i].event.date.None?
    ensures v.Feed? ==> NewestFirst(v.list.original) && multiset(v.list.original) == multiset(Events(combined))
    ensures v.Feed? ==> v.list.displayed == v.list.current && Seqs.IsSubseq(v.list.displayed, v.list.original)
    ensures v.Feed? && ListAdapters.Normalize(searchText) == [] ==> v.list.displayed == v.list.original
    ensures v.Feed? && ListAdapters.Normalize(searchText) != [] ==>
      (forall i :: 0 <= i < |v.list.displayed| ==> MoodEventAdapter.ReasonMatches(v.list.displayed[i], ListAdapters.Normalize(searchText)))
      && (forall i :: 0 <= i < |v.list.original| && MoodEventAdapter.ReasonMatches(v.list.original[i], ListAdapters.Normalize(searchText))
            ==> v.list.original[i] in v.list.displayed)
  {
    if combined == [] then EmptyFeed
    else if |combined| >= 2 && exists i :: 0 <= i < |combined| && combined[i].event.date.None? then SortThrew
    else
      var sorted := SortNewestFirst(Events(combined));
      var adapter := ListAdapters.Update(sorted);
      if searchText == "" then
        assert ListAdapters.Normalize("") == [];
        Seqs.SubseqRefl(sorted);
        Feed(adapter)
      else
        Feed(MoodEventAdapter.Search(adapter, searchText))
  }

  /** End to end: when every callback completes and the sort succeeds, each
      entry a followed user contributed is in the feed's list. */
  lemma EntryReachesFeed(arrivals: seq<Outcome>, parse: string -> Option<int>, searchText: string, k: nat, x: FeedItem)
    requires Combined(arrivals, parse).Some? && k < |arrivals|
    requires Finalise(Combined(arrivals, parse).value, searchText).Feed?
    requires Arrive(arrivals[k], parse).Some? && x in Arrive(arrivals[k], parse).value
    ensures x.event in Finalise(Combined(arrivals, parse).value, searchText).list.original
  {
    var c := Combined(arrivals, parse).value;
    CombinedHoldsEach(arrivals, parse, k);
    var i :| 0 <= i < |c| && c[i] == x;
    assert x.event in multiset(Events(c));
  }

  /** checkAndResetStreak: the streak is reset exactly when the user
      document exists, records a last mood date, and that date is not
      today's. `None` leaves the streak as it is. */
  function StreakReset(docExists: bool, lastMoodDate: Option<string>, today: string): (r: Option<int>)
    ensures r.Some? <==> docExists && lastMoodDate.Some? && lastMoodDate.value != today
    ensures r.Some? ==> r.value == 0
  {
    if docExists && lastMoodDate.Some? && lastMoodDate.value != today then Some(0) else None
  }

  /** Posting today (recording today's date) protects the streak. */
  lemma PostedTodayKeepsStreak(docExists: bool, today: string)
    ensures StreakReset(docExists, Some(today), today).None?
    ensures StreakReset(docExists, None, today).None?
  {
  }
}

=== FILE: insights.dfy ===
/** The mood insights screens (the MoodInsights fragment and the
    MoodInsightsActivity): a time window over the user's moods, the count
    per mood title, the most frequent title with its emoji, and, in the
    activity, one card per day of the window. */
module Insights {
  import opened Wrappers
  import Seqs
  import Text
  import Moods
  import Records

  /** A mood title as counted; null titles are counted under their own key. */
  type Title = Option<string>

  /** The three radio options. */
  datatype Range = PastWeek | LastTwoWeeks | ThisMonth

  /** Days looked back by the activity: the window covers today and the
      `d` days before it, so one week, two weeks or thirty days. */
  function ActivityDays(r: Range): (d: int)
    ensures 6 <= d <= 29
    ensures r == PastWeek ==> d + 1 == 7
    ensures r == LastTwoWeeks ==> d + 1 == 2 * 7
    ensures r == ThisMonth ==> d + 1 == 30
  {
    match r
    case PastWeek => 6
    case LastTwoWeeks => 13
    case ThisMonth => 29
  }

  /** Days looked back by the fragment: one week, two weeks or thirty
      days. */
  function FragmentDays(r: Range): (d: int)
    ensures 7 <= d <= 30
    ensures r == PastWeek ==> d == 7
    ensures r == LastTwoWeeks ==> d == 2 * 7
    ensures r == ThisMonth ==> d == 30
  {
    match r
    case PastWeek => 7
    case LastTwoWeeks => 14
    case ThisMonth => 30
  }

  /** The activity's window reaches one day less back than the fragment's,
      but its cards include the cutoff day, so both span the same number of
      calendar days. */
  lemma WindowsAgree(r: Range)
    ensures ActivityDays(r) + 1 == FragmentDays(r)
  {
  }

  /** After loading, the fragment shows the empty state when there are no
      moods, and otherwise the past week; the activity always selects the
      past week. */
  function FragmentInitialDays(events: seq<Records.MoodRecord>): (r: Option<int>)
    ensures r.None? <==> events == []
    ensures r.Some? ==> r.value == FragmentDays(PastWeek)
  {
    if events == [] then None else Some(FragmentDays(PastWeek))
  }

  // ------------------------------------------------------- loading moods

  /** A stored mood as the insights loaders read it: whether fromMap's casts
      fail on it (ClassCastException), its timestamp string, and the event
      fromMap builds. */
  datatype StoredMood = StoredMood(castFails: bool, timestamp: Option<string>, event: Records.MoodRecord)

  /** What loading one document does: skip it, keep its event, or throw
      out of the success listener. */
  datatype Loaded = Skipped | Kept(event: Records.MoodRecord) | Threw

  /** One document of loadMoodsFromFirestore (both screens): a cast
      failure is not caught by the ParseException handler and throws; a
      timestamp the reader rejects throws ParseException and the mood is
      skipped; a read timestamp becomes the date. */
  function LoadOne(d: StoredMood, parse: string -> Option<int>): (r: Loaded)
    ensures r.Threw? <==> d.castFails
    ensures r.Skipped? <==> !d.castFails && d.timestamp.Some? && parse(d.timestamp.value).None?
    ensures r.Kept? && d.timestamp.Some? ==> r.event.date == parse(d.timestamp.value)
  {
    if d.castFails then Threw
    else match d.timestamp
      case None => Kept(d.event)
      case Some(t) =>
        match parse(t)
        case None => Skipped
        case Some(ms) => Kept(d.event.(date := Some(ms)))
  }

  /** The event a document contributes when it neither throws nor is
      skipped. */
  function KeptEvent(parse: string -> Option<int>): StoredMood -> Option<Records.MoodRecord> {
    d => if LoadOne(d, parse).Kept? then Some(LoadOne(d, parse).event) else None
  }

  /** The moods a loader keeps, in query order, or `None` when a document
      throws (the listener visits every document, so any cast failure
      ends it). */
  function LoadMoods(docs: seq<StoredMood>, parse: string -> Option<int>): (r: Option<seq<Records.MoodRecord>>)
    ensures r.None? <==> exists i :: 0 <= i < |docs| && docs[i].castFails
    ensures r.Some? ==> |r.value| <= |docs|
  {
    if exists i :: 0 <= i < |docs| && docs[i].castFails then None
    else Some(Seqs.FilterMap(KeptEvent(parse), docs))
  }

  /** The month abbreviations that open a timestamp as the app writes it
      ("MMM dd, yyyy - hh:mm a" in MoodEvent, in an English locale). */
  const MonthAbbrevs: seq<string> :=
    ["Jan", "Feb", "Mar", "Apr", "May", "Jun", "Jul", "Aug", "Sep", "Oct", "Nov", "Dec"]

  /** A timestamp as the app writes it: the month's abbreviation, then the
      rest of the pattern. */
  function AppStamp(month: nat, rest: string): (s: string)
    requires month < 12
    ensures |s| > 0 && Text.IsAsciiLetter(s[0])
  {
    MonthAbbrevs[month] + rest
  }

  /** What the fragment's "yyyy-MM-dd'T'HH:mm:ss'Z'" reader demands at the
      least: the pattern opens with the numeric year, and SimpleDateFormat
      skips white space before a number but cannot read a letter as one, so
      a string that opens with a letter throws ParseException. */
  ghost predicate RejectsLetterFirst(parse: string -> Option<int>) {
    forall s :: |s| > 0 && Text.IsAsciiLetter(s[0]) ==> parse(s).None?
  }

  /** As written, the fragment's reader rejects every timestamp the app
      writes, so it loads none of those moods. */
  lemma {:induction false} FragmentDropsAppStamps(months: seq<nat>, rests: seq<string>, events: seq<Records.MoodRecord>,
                                                  parse: string -> Option<int>)
    requires RejectsLetterFirst(parse)
    requires |months| == |rests| == |events|
    requires forall i :: 0 <= i < |months| ==> months[i] < 12
    ensures Seqs.FilterMap(KeptEvent(parse),
              seq(|months|, i requires 0 <= i < |months| => StoredMood(false, Some(AppStamp(months[i], rests[i])), events[i]))) == []
    ensures LoadMoods(seq(|months|, i requires 0 <= i < |months| => StoredMood(false, Some(AppStamp(months[i], rests[i])), events[i])), parse)
         == Some([])
    decreases |months|
  {
    var docs := seq(|months|, i requires 0 <= i < |months| => StoredMood(false, Some(AppStamp(months[i], rests[i])), events[i]));
    if months != [] {
      var tail := seq(|months| - 1, i requires 0 <= i < |months| - 1 => StoredMood(false, Some(AppStamp(months[1..][i], rests[1..][i])), events[1..][i]));
      assert docs[1..] == tail;
      FragmentDropsAppStamps(months[1..], rests[1..], events[1..], parse);
      assert LoadOne(docs[0], parse).Skipped?;
    }
  }

  /** So the fragment shows its empty state even for a user with moods. */
  lemma FragmentShowsEmptyState(month: nat, rest: string, e: Records.MoodRecord, parse: string -> Option<int>)
    requires RejectsLetterFirst(parse) && month < 12
    ensures LoadMoods([StoredMood(false, Some(AppStamp(month, rest)), e)], parse) == Some([])
    ensures FragmentInitialDays(LoadMoods([StoredMood(false, Some(AppStamp(month, rest)), e)], parse).value).None?
  {
    var d := StoredMood(false, Some(AppStamp(month, rest)), e);
    assert LoadOne(d, parse).Skipped?;
    assert [d][1..] == [];
  }

  /** The correction: the fragment reads timestamps with the activity's
      "MMM dd, yyyy - hh:mm a" reader. With a reader that accepts every
      stored timestamp, a load without cast failures keeps every mood, in
      order, dated by its timestamp. */
  lemma {:induction false} FragmentKeepsReadableStamps(docs: seq<StoredMood>, parse: string -> Option<int>)
    requires forall i :: 0 <= i < |docs| && docs[i].timestamp.Some? ==> parse(docs[i].timestamp.value).Some?
    ensures LoadMoods(docs, parse).Some? <==> forall i :: 0 <= i < |docs| ==> !docs[i].castFails
    ensures LoadMoods(docs, parse).Some? ==> |LoadMoods(docs, parse).value| == |docs|
    ensures LoadMoods(docs, parse).Some? ==> forall i :: 0 <= i < |docs| && docs[i].timestamp.Some? ==>
      LoadMoods(docs, parse).value[i].date == parse(docs[i].timestamp.value)
  {
    if LoadMoods(docs, parse).Some? {
      assert forall i :: 0 <= i < |docs| ==> KeptEvent(parse)(docs[i]).Some?;
    }
  }

  /** A mood dated no earlier than `days` days before `now`. */
  predicate Recent(e: Records.MoodRecord, now: int, days: int) {
    e.date.Some? && e.date.value >= now - days * Records.DayMs
  }

  /** filterMoods: the dated moods inside the window, in their order. */
  function FilterMoods(events: seq<Records.MoodRecord>, now: int, days: int): (r: seq<Records.MoodRecord>)
    ensures forall i :: 0 <= i < |r| ==> r[i].date.Some? && r[i].date.value >= now - days * Records.DayMs
    ensures forall i :: 0 <= i < |events| && events[i].date.Some? && events[i].date.value >= now - days * Records.DayMs ==> events[i] in r
    ensures forall i :: 0 <= i < |events| && events[i].date.None? ==> events[i] !in r
    ensures Seqs.IsSubseq(r, events)
  {
    Seqs.Filter(e => Recent(e, now, days), events)
  }

  /** Narrowing the window of an already filtered list is filtering the
      original list with the narrower window. */
  lemma NarrowerWindowWithinWider(events: seq<Records.MoodRecord>, now: int, d1: int, d2: int)
    requires d1 <= d2
    ensures FilterMoods(FilterMoods(events, now, d2), now, d1) == FilterMoods(events, now, d1)
  {
    var p := e => Recent(e, now, d1);
    var q := e => Recent(e, now, d2);
    assert forall e :: p(e) == (q(e) && p(e)) by {
      forall e ensures p(e) == (q(e) && p(e)) {
        if p(e) {
          assert e.date.value >= now - d1 * Records.DayMs >= now - d2 * Records.DayMs;
        }
      }
    }
    Seqs.FilterFilter(p, q, p, events);
  }

  /** The titles of a list of moods. */
  function Titles(events: seq<Records.MoodRecord>): (r: seq<Title>)
    ensures |r| == |events|
    ensures forall i :: 0 <= i < |r| ==> r[i] == events[i].moodTitle
  {
    seq(|events|, i requires 0 <= i < |events| => events[i].moodTitle)
  }

  /** The moodCount map: each title seen, with how often it occurs. */
  function Tally<K(==)>(ts: seq<K>): (m: map<K, nat>)
    ensures m.Keys == set t | t in ts
    ensures forall k :: k in m ==> m[k] == Seqs.Count(ts, k) && m[k] > 0
  {
    if ts == [] then map[]
    else
      var m0 := Tally(ts[1..]);
      assert (set t | t in ts) == {ts[0]} + (set t | t in ts[1..]);
      m0[ts[0] := (if ts[0] in m0 then m0[ts[0]] else 0) + 1]
  }

  /** Sum of the counts of `keys`, a missing key counting 0. */
  function SumOver<K>(m: map<K, nat>, keys: seq<K>): nat {
    if keys == [] then 0
    else (if keys[0] in m then m[keys[0]] else 0) + SumOver(m, keys[1..])
  }

  /** Sum of the occurrence counts of `keys` in `ts`. */
  function SumCounts<K(==)>(keys: seq<K>, ts: seq<K>): nat {
    if keys == [] then 0 else Seqs.Count(ts, keys[0]) + SumCounts(keys[1..], ts)
  }

  lemma {:induction false} SumCountsCons<K>(keys: seq<K>, t: K, rest: seq<K>)
    ensures SumCounts(keys, [t] + rest) == Seqs.Count(keys, t) + SumCounts(keys, rest)
  {
    assert ([t] + rest)[1..] == rest;
    if keys != [] {
      SumCountsCons(keys[1..], t, rest);
    }
  }

  lemma {:induction false} SumCountsEmpty<K>(keys: seq<K>)
    ensures SumCounts(keys, []) == 0
  {
    if keys != [] {
      SumCountsEmpty(keys[1..]);
    }
  }

  /** A key listed once occurs once. */
  lemma {:induction false} CountOfDistinct<K>(keys: seq<K>, t: K)
    requires Seqs.Distinct(keys)
    requires t in keys
    ensures Seqs.Count(keys, t) == 1
  {
    if keys[0] == t {
      assert t !in keys[1..] by {
        forall j | 0 <= j < |keys[1..]| ensures keys[1..][j] != t {
          assert keys[1..][j] == keys[j + 1];
        }
      }
    } else {
      CountOfDistinct(keys[1..], t);
    }
  }

  /** Listing every title once, the counts add up to the number of moods. */
  lemma {:induction false} CountsSumToTotal<K>(keys: seq<K>, ts: seq<K>)
    requires Seqs.Distinct(keys)
    requires forall i :: 0 <= i < |ts| ==> ts[i] in keys
    ensures SumCounts(keys, ts) == |ts|
  {
    if ts == [] {
      SumCountsEmpty(keys);
    } else {
      assert ts == [ts[0]] + ts[1..];
      SumCountsCons(keys, ts[0], ts[1..]);
      CountOfDistinct(keys, ts[0]);
      CountsSumToTotal(keys, ts[1..]);
    }
  }

  lemma {:induction false} SumOverTally<K>(keys: seq<K>, ts: seq<K>)
    ensures SumOver(Tally(ts), keys) == SumCounts(keys, ts)
  {
    if keys != [] {
      SumOverTally(keys[1..], ts);
      if keys[0] !in Tally(ts) {
        assert keys[0] !in ts;
      }
    }
  }

  /** The pie chart's slices, in any enumeration order of the map, add up to
      the number of filtered moods. */
  lemma TallySumsToTotal<K>(order: seq<K>, ts: seq<K>)
    requires Seqs.Distinct(order)
    requires forall k :: k in order <==> k in Tally(ts)
    ensures SumOver(Tally(ts), order) == |ts|
  {
    SumOverTally(order, ts);
    CountsSumToTotal(order, ts);
  }

  /** The top-mood scan over the count map, visiting its keys in `order`
      (the hash map's iteration order): a key replaces the current best only
      when its count is strictly larger, so the first of equally frequent
      titles wins. Returns the top title and its position in `order`. */
  method TopMood<K(==)>(order: seq<K>, ts: seq<K>) returns (top: K, at: nat)
    requires |ts| > 0
    requires Seqs.Distinct(order)
    requires forall k :: k in order <==> k in ts
    ensures at < |order| && order[at] == top && top in ts
    ensures forall j :: 0 <= j < |order| ==> Seqs.Count(ts, order[j]) <= Seqs.Count(ts, top)
    ensures forall j :: 0 <= j < at ==> Seqs.Count(ts, order[j]) < Seqs.Count(ts, top)
  {
    var counts := Tally(ts);
    assert ts[0] in order;
    var best := 0;
    top, at := order[0], 0;
    var i := 0;
    while i < |order|
      invariant 0 <= i <= |order|
      invariant at < |order|
      invariant i == 0 ==> best == 0 && at == 0
      invariant i > 0 ==> at < i && top == order[at] && best == Seqs.Count(ts, top)
      invariant forall j :: 0 <= j < i ==> Seqs.Count(ts, order[j]) <= best
      invariant forall j :: 0 <= j < at ==> Seqs.Count(ts, order[j]) < best
    {
      assert order[i] in counts;
      var c := counts[order[i]];
      if c > best {
        best, top, at := c, order[i], i;
      }
      i := i + 1;
    }
  }

  /** The summary line. */
  datatype Summary = NoData | MostlyFelt(emoji: string, title: Title)

  const FallbackEmoji: string := "🙂"

  /** The emoji table of updateEmojiSummary, keyed by emotion nouns. */
  const SummaryEmojiTable: map<string, string> := map[
    "Anger" := "😠", "Sadness" := "😢", "Confusion" := "😕", "Fear" := "😨",
    "Disgust" := "🤢", "Shame" := "😳", "Surprise" := "😮", "Happiness" := "😄"]

  /** The emoji shown for the top title, as written: a lookup in the noun
      table with the fallback for anything else. */
  function SummaryEmojiAsWritten(t: Title): (e: string)
    ensures e == FallbackEmoji <==> t.None? || t.value !in SummaryEmojiTable
  {
    if t.Some? && t.value in SummaryEmojiTable then SummaryEmojiTable[t.value] else FallbackEmoji
  }

  /** The mood picker stores adjective titles ("Happy", "Sad", ...), none of
      which is a key of the noun table: every stored mood gets the fallback. */
  lemma PickerTitlesGetFallback(m: Moods.Mood)
    ensures SummaryEmojiAsWritten(Some(Moods.Name(m))) == FallbackEmoji
  {
  }

  /** The emoji shown for the top title, corrected: the picker's own emoji for
      a mood name, the fallback for anything else. */
  function SummaryEmoji(t: Title): (e: string)
    ensures t.Some? && Moods.FromName(t.value).Some? ==> e == Moods.Emoji(Moods.FromName(t.value).value)
    ensures t.None? || Moods.FromName(t.value).None? ==> e == FallbackEmoji
  {
    if t.Some? then
      match Moods.FromName(t.value)
      case Some(m) => Moods.Emoji(m)
      case None => FallbackEmoji
    else FallbackEmoji
  }

  /** With the correction every stored mood is summarised by its own emoji,
      which is never the fallback. */
  lemma PickerTitlesGetOwnEmoji(m: Moods.Mood)
    ensures SummaryEmoji(Some(Moods.Name(m))) == Moods.Emoji(m)
    ensures SummaryEmoji(Some(Moods.Name(m))) != FallbackEmoji
  {
    Moods.FromNameInverts(m);
  }

  /** updateEmojiSummary over the filtered titles, as written: the top
      title's emoji comes from the noun table. */
  method Summarise(order: seq<Title>, titles: seq<Title>) returns (s: Summary)
    requires Seqs.Distinct(order)
    requires forall k :: k in order <==> k in titles
    ensures s == NoData <==> titles == []
    ensures s.MostlyFelt? ==> s.title in titles && s.emoji == SummaryEmojiAsWritten(s.title)
    ensures s.MostlyFelt? ==> forall k :: k in titles ==> Seqs.Count(titles, k) <= Seqs.Count(titles, s.title)
  {
    if titles == [] {
      return NoData;
    }
    var top, at := TopMood(order, titles);
    s := MostlyFelt(SummaryEmojiAsWritten(top), top);
  }

  /** As written, a summary of moods saved through the picker always shows
      the fallback emoji, whichever mood comes out on top. */
  method SummaryShowsFallback(order: seq<Title>, titles: seq<Title>) returns (s: Summary)
    requires Seqs.Distinct(order)
    requires forall k :: k in order <==> k in titles
    requires forall k :: k in titles ==> k.Some? && Moods.FromName(k.value).Some?
    ensures s == NoData <==> titles == []
    ensures s.MostlyFelt? ==> s.emoji == FallbackEmoji
  {
    s := Summarise(order, titles);
    if s.MostlyFelt? {
      var m := Moods.FromName(s.title.value).value;
      Moods.FromNameInverts(m);
      PickerTitlesGetFallback(m);
    }
  }

  /** updateEmojiSummary with the corrected emoji table. */
  method SummariseFixed(order: seq<Title>, titles: seq<Title>) returns (s: Summary)
    requires Seqs.Distinct(order)
    requires forall k :: k in order <==> k in titles
    ensures s == NoData <==> titles == []
    ensures s.MostlyFelt? ==> s.title in titles && s.emoji == SummaryEmoji(s.title)
    ensures s.MostlyFelt? ==> forall k :: k in titles ==> Seqs.Count(titles, k) <= Seqs.Count(titles, s.title)
    ensures s.MostlyFelt? && s.title.Some? && Moods.FromName(s.title.value).Some? ==> s.emoji != FallbackEmoji
  {
    if titles == [] {
      return NoData;
    }
    var top, at := TopMood(order, titles);
    s := MostlyFelt(SummaryEmoji(top), top);
    if top.Some? && Moods.FromName(top.value).Some? {
      var m := Moods.FromName(top.value).value;
      Moods.FromNameInverts(m);
      PickerTitlesGetOwnEmoji(m);
    }
  }

  /** One card of the activity's list: a day and the moods dated on it. */
  datatype DailyCard = DailyCard(day: int, moods: seq<Records.MoodRecord>)

  /** A mood dated on `day`, with `dayOf` the platform's local-calendar day
      of an instant. */
  predicate OnDay(e: Records.MoodRecord, day: int, dayOf: int -> int) {
    e.date.Some? && dayOf(e.date.value) == day
  }

  /** A mood dated on one of the days `first`..`last`. */
  predicate InDays(e: Records.MoodRecord, first: int, last: int, dayOf: int -> int) {
    e.date.Some? && first <= dayOf(e.date.value) <= last
  }

  /** updateDailyMoodCards: the cards from `today` back to `startDay`, each
      with the moods dated on its day. */
  function DailyCards(moods: seq<Records.MoodRecord>, startDay: int, today: int, dayOf: int -> int): (r: seq<DailyCard>)
    ensures |r| == if startDay <= today then today - startDay + 1 else 0
    ensures forall i :: 0 <= i < |r| ==> r[i].day == today - i
    ensures forall i :: 0 <= i < |r| ==> forall e :: e in r[i].moods ==> e in moods && OnDay(e, today - i, dayOf)
    decreases today - startDay
  {
    if startDay > today then []
    else [DailyCard(today, Seqs.Filter(e => OnDay(e, today, dayOf), moods))]
         + DailyCards(moods, startDay, today - 1, dayOf)
  }

  /** The cards of a window: from the day of the cutoff to the current day. */
  function CardsFor(moods: seq<Records.MoodRecord>, now: int, days: int, dayOf: int -> int): seq<DailyCard> {
    DailyCards(moods, dayOf(now - days * Records.DayMs), dayOf(now), dayOf)
  }

  /** Number of moods shown over all cards. */
  function TotalSize(cards: seq<DailyCard>): nat {
    if cards == [] then 0 else |cards[0].moods| + TotalSize(cards[1..])
  }

  /** The cards together show each mood of the covered days exactly once. */
  lemma {:induction false} CardsPartitionDays(moods: seq<Records.MoodRecord>, startDay: int, today: int, dayOf: int -> int)
    ensures TotalSize(DailyCards(moods, startDay, today, dayOf))
         == |Seqs.Filter(e => InDays(e, startDay, today, dayOf), moods)|
    decreases today - startDay
  {
    var all := e => InDays(e, startDay, today, dayOf);
    if startDay > today {
      Seqs.FilterKeepsNone(all, moods);
    } else {
      var cards := DailyCards(moods, startDay, today, dayOf);
      var older := DailyCards(moods, startDay, today - 1, dayOf);
      assert cards[1..] == older;
      CardsPartitionDays(moods, startDay, today - 1, dayOf);
      Seqs.FilterSplit(all, e => OnDay(e, today, dayOf), e => InDays(e, startDay, today - 1, dayOf), moods);
    }
  }

  /** When the calendar day never goes backwards in time and no mood is
      dated in the future, every mood of the window is on exactly one card. */
  lemma WindowFitsCards(events: seq<Records.MoodRecord>, now: int, days: int, dayOf: int -> int)
    requires forall a, b :: a <= b ==> dayOf(a) <= dayOf(b)
    requires forall i :: 0 <= i < |events| && events[i].date.Some? ==> events[i].date.value <= now
    ensures TotalSize(CardsFor(FilterMoods(events, now, days), now, days, dayOf)) == |FilterMoods(events, now, days)|
  {
    var moods := FilterMoods(events, now, days);
    var startDay, today := dayOf(now - days * Records.DayMs), dayOf(now);
    CardsPartitionDays(moods, startDay, today, dayOf);
    forall i | 0 <= i < |moods| ensures InDays(moods[i], startDay, today, dayOf) {
      assert moods[i] in events;
    }
    Seqs.FilterKeepsAll(e => InDays(e, startDay, today, dayOf), moods);
  }

  /** The chips of a card: its titles (an empty chip for a missing title),
      or a single "No moods" chip. */
  function Chips(card: DailyCard): (r: seq<string>)
    ensures |r| >= 1
    ensures card.moods == [] ==> r == ["No moods"]
    ensures card.moods != [] ==> |r| == |card.moods|
  {
    if card.moods == [] then ["No moods"]
    else seq(|card.moods|, i requires 0 <= i < |card.moods| => if card.moods[i].moodTitle.Some? then card.moods[i].moodTitle.value else "")
  }
}

=== FILE: levels.dfy ===
/** AchievementActivity: the level card. The XP bar spans the current
    level's threshold to the next one; a gain that fills it moves the user
    up one level and may unlock a theme. */
module Levels {
  import opened Wrappers
  import opened Social

  /** A row of the level table. */
  datatype Level = Level(level: int, xpRequired: int, unlocks: Option<string>)

  /** Position of the first row for level `n`. */
  function FirstRow(levels: seq<Level>, n: int): (r: Option<nat>)
    ensures r.Some? ==> r.value < |levels| && levels[r.value].level == n
    ensures r.Some? ==> forall k :: 0 <= k < r.value ==> levels[k].level != n
    ensures r.None? <==> forall k :: 0 <= k < |levels| ==> levels[k].level != n
  {
    if levels == [] then None
    else if levels[0].level == n then Some(0)
    else match FirstRow(levels[1..], n)
      case None => None
      case Some(k) => Some(k + 1)
  }

  /** getXPForLevel: the loop returning the first match, 0 when none. */
  function XpForLevel(levels: seq<Level>, n: int): (xp: int)
  {
    if levels == [] then 0
    else if levels[0].level == n then levels[0].xpRequired
    else XpForLevel(levels[1..], n)
  }

  /** The loop agrees with the first-row reading. */
  lemma {:induction false} XpForLevelIsFirstRow(levels: seq<Level>, n: int)
    ensures XpForLevel(levels, n) == match FirstRow(levels, n) case None => 0 case Some(k) => levels[k].xpRequired
    decreases |levels|
  {
    if levels != [] && levels[0].level != n {
      XpForLevelIsFirstRow(levels[1..], n);
    }
  }

  /** The XP bar of updateUI. */
  datatype Bar = Bar(max: int, into: int, left: int)

  /** The upper threshold; a missing next level (0) falls back to the
      current one, so the bar is empty at the top level. */
  function NextThreshold(levels: seq<Level>, level: int): int {
    var next := XpForLevel(levels, level + 1);
    if next == 0 then XpForLevel(levels, level) else next
  }

  function BarFor(levels: seq<Level>, xp: int, level: int): (b: Bar)
    ensures b.into + b.left == b.max
    ensures XpForLevel(levels, level + 1) == 0 ==> b.max == 0
    ensures XpForLevel(levels, level + 1) != 0 ==> b.max == XpForLevel(levels, level + 1) - XpForLevel(levels, level)
    ensures b.into == xp - XpForLevel(levels, level)
    ensures XpForLevel(levels, level + 1) != 0 ==> b.left == XpForLevel(levels, level + 1) - xp
    ensures XpForLevel(levels, level + 1) == 0 ==> b.left == -b.into
  {
    var cur := XpForLevel(levels, level);
    var next := NextThreshold(levels, level);
    Bar(next - cur, xp - cur, next - xp)
  }

  /** Android's ProgressBar keeps its progress within 0..max. */
  function Clamp(v: int, max: int): (r: int)
    requires max >= 0
    ensures 0 <= r <= max
    ensures 0 <= v <= max ==> r == v
  {
    if v < 0 then 0 else if v > max then max else v
  }

  /** The outcome of an XP gain on the bar. */
  datatype XpGain = Stay(progress: int) | LevelUp(newLevel: int, leftover: int)

  /** animateXpGain as written: the gain is added to the bar's progress and
      a full bar moves the user up one level, carrying the overflow. */
  function GainAsWritten(barMax: int, barProgress: int, xp: int, level: int): (g: XpGain)
    ensures g.LevelUp? <==> barProgress + xp >= barMax
    ensures g.LevelUp? ==> g.newLevel == level + 1 && g.leftover == barProgress + xp - barMax && g.leftover >= 0
    ensures g.Stay? ==> g.progress == barProgress + xp < barMax
  {
    var p := barProgress + xp;
    if p >= barMax then LevelUp(level + 1, p - barMax) else Stay(p)
  }

  /** The bar after a level-up: the leftover is the progress, and the XP
      left is never negative. */
  function AfterLevelUp(levels: seq<Level>, newLevel: int, leftover: int): (r: (int, int))
    ensures r.0 == NextThreshold(levels, newLevel) - XpForLevel(levels, newLevel)
    ensures r.1 >= 0
    ensures r.1 == if r.0 - leftover > 0 then r.0 - leftover else 0
  {
    var range := NextThreshold(levels, newLevel) - XpForLevel(levels, newLevel);
    (range, if range - leftover > 0 then range - leftover else 0)
  }

  /** Whether level `n` is in the table. */
  predicate HasLevel(levels: seq<Level>, n: int) {
    exists k :: 0 <= k < |levels| && levels[k].level == n
  }

  /** The table of the app's first levels, used for the example below. */
  const TwoLevels: seq<Level> := [Level(1, 0, None), Level(2, 100, None)]

  /** At the top level the bar's maximum is 0, so any claim fills it and
      the user moves to a level the table does not have. */
  lemma TopLevelStillLevelsUp(xp: int, gain: int)
    requires xp >= 100 && gain >= 0
    ensures var b := BarFor(TwoLevels, xp, 2);
      b.max == 0
      && GainAsWritten(b.max, Clamp(b.into, b.max), gain, 2) == LevelUp(3, gain)
      && !HasLevel(TwoLevels, 3)
  {
    assert XpForLevel(TwoLevels, 3) == 0;
    assert XpForLevel(TwoLevels, 2) == 100;
  }

  /** The gain with the top-level guard the bar's own fallback implies:
      without a next level there is nothing to move up to. */
  function GainCapped(levels: seq<Level>, barMax: int, barProgress: int, xp: int, level: int): (g: XpGain)
    ensures g.LevelUp? <==> HasLevel(levels, level + 1) && barProgress + xp >= barMax
    ensures g.LevelUp? ==> g.newLevel == level + 1 && HasLevel(levels, g.newLevel)
    ensures HasLevel(levels, level + 1) ==> g == GainAsWritten(barMax, barProgress, xp, level)
  {
    if HasLevel(levels, level + 1) then GainAsWritten(barMax, barProgress, xp, level)
    else Stay(barProgress + xp)
  }

  /** With the guard, a user on a level of the table stays on one through
      any run of gains. */
  lemma {:induction false} LevelStaysInTable(levels: seq<Level>, level: int, gains: seq<(int, int, int)>)
    requires HasLevel(levels, level)
    ensures HasLevel(levels, LevelAfter(levels, level, gains))
    decreases |gains|
  {
    if gains != [] {
      var g := GainCapped(levels, gains[0].0, gains[0].1, gains[0].2, level);
      LevelStaysInTable(levels, if g.LevelUp? then g.newLevel else level, gains[1..]);
    }
  }

  /** The level after a run of gains, each given as (bar max, bar progress,
      XP gained). */
  function LevelAfter(levels: seq<Level>, level: int, gains: seq<(int, int, int)>): int
    decreases |gains|
  {
    if gains == [] then level
    else
      var g := GainCapped(levels, gains[0].0, gains[0].1, gains[0].2, level);
      LevelAfter(levels, if g.LevelUp? then g.newLevel else level, gains[1..])
  }

  /** getUnlockedThemeForLevel: the loop returns the first matching row's
      `unlocks` (possibly null), or "N/A" when no row matches. */
  function UnlockedThemeLoop(levels: seq<Level>, n: int): Option<string>
  {
    if levels == [] then Some("N/A")
    else if levels[0].level == n then levels[0].unlocks
    else UnlockedThemeLoop(levels[1..], n)
  }

  /** unlockThemeIfAvailable's stream: the first matching row's `unlocks`,
      with a missing row or a null value both becoming "N/A". */
  function UnlockedThemeStream(levels: seq<Level>, n: int): (r: string)
    ensures FirstRow(levels, n).None? ==> r == "N/A"
    ensures FirstRow(levels, n).Some? ==> r == levels[FirstRow(levels, n).value].unlocks.GetOr("N/A")
  {
    match FirstRow(levels, n)
    case None => "N/A"
    case Some(k) => levels[k].unlocks.GetOr("N/A")
  }

  /** A theme to unlock: not null and not "N/A". */
  predicate Unlocks(v: Option<string>) {
    v.Some? && v.value != "N/A"
  }

  /** The two lookups decide the same unlock, naming the same theme. */
  lemma {:induction false} LookupsAgree(levels: seq<Level>, n: int)
    ensures Unlocks(UnlockedThemeLoop(levels, n)) <==> Unlocks(Some(UnlockedThemeStream(levels, n)))
    ensures Unlocks(UnlockedThemeLoop(levels, n)) ==> UnlockedThemeLoop(levels, n).value == UnlockedThemeStream(levels, n)
    decreases |levels|
  {
    if levels != [] && levels[0].level != n {
      LookupsAgree(levels[1..], n);
      assert FirstRow(levels, n) == match FirstRow(levels[1..], n) case None => None case Some(k) => Some(k + 1);
    }
  }

  /** unlockThemeIfAvailable: the theme leaves the locked list and joins the
      unlocked one; "N/A" changes nothing. */
  function UnlockForLevel(levels: seq<Level>, n: int, locked: seq<string>, unlocked: seq<string>): (r: (seq<string>, seq<string>))
    ensures UnlockedThemeStream(levels, n) == "N/A" ==> r == (locked, unlocked)
    ensures UnlockedThemeStream(levels, n) != "N/A" ==>
      UnlockedThemeStream(levels, n) !in r.0 && UnlockedThemeStream(levels, n) in r.1
    ensures forall t :: t != UnlockedThemeStream(levels, n) ==> (t in r.0 <==> t in locked) && (t in r.1 <==> t in unlocked)
  {
    var theme := UnlockedThemeStream(levels, n);
    if theme == "N/A" then (locked, unlocked)
    else (ArrayRemove(locked, theme), ArrayUnion(unlocked, theme))
  }

  /** A theme as the asset file describes it. */
  datatype ThemeData = ThemeData(id: string, name: string, bundleTitle: string, unlockedBy: string, backgroundRes: string)

  /** findThemeData: the first theme with that id; none when the list was
      never loaded. */
  function FindThemeData(themes: Option<seq<ThemeData>>, id: string): (r: Option<ThemeData>)
    ensures r.Some? ==> themes.Some? && r.value in themes.value && r.value.id == id
    ensures r.None? <==> themes.None? || forall k :: 0 <= k < |themes.value| ==> themes.value[k].id != id
    decreases if themes.Some? then |themes.value| else 0
  {
    match themes
    case None => None
    case Some(ts) =>
      if ts == [] then None
      else if ts[0].id == id then Some(ts[0])
      else
        var r := FindThemeData(Some(ts[1..]), id);
        assert forall k :: 1 <= k < |ts| ==> ts[k] == ts[1..][k - 1];
        r
  }
}

=== FILE: list_adapter.dfy ===
/** The searchable list kept by the feed adapters (ProfilePage.PostAdapter
    and MoodEventAdapter): the displayed list, the list searches start from,
    and the latest search result. */
module ListAdapters {
  import Text
  import Seqs

  datatype ListState<T> = ListState(displayed: seq<T>, original: seq<T>, current: seq<T>)

  /** updatePosts / updateMoodEvents: all three lists become the new list. */
  function Update<T>(newItems: seq<T>): (s: ListState<T>)
    ensures s.displayed == newItems && s.original == newItems && s.current == newItems
  {
    ListState(newItems, newItems, newItems)
  }

  /** getItemCount(). */
  function ItemCount<T>(s: ListState<T>): (n: nat)
    ensures n == |s.displayed|
  {
    |s.displayed|
  }

  /** The query as the adapters normalise it: lower-cased, then trimmed. */
  function Normalize(query: string): string {
    Text.Trim(Text.Lower(query))
  }

  /** filter(query): a blank query shows the original list again; otherwise
      the original items that `matches` the normalised query, in order. The
      original list is never touched. */
  function Search<T>(s: ListState<T>, query: string, matches: (T, string) -> bool): (r: ListState<T>)
    ensures r.original == s.original
    ensures r.displayed == r.current
    ensures Normalize(query) == [] ==> r.displayed == s.original
    ensures Seqs.IsSubseq(r.displayed, s.original)
    ensures Normalize(query) != [] ==>
      (forall i :: 0 <= i < |r.displayed| ==> matches(r.displayed[i], Normalize(query)))
      && (forall i :: 0 <= i < |s.original| && matches(s.original[i], Normalize(query))
            ==> s.original[i] in r.displayed)
  {
    var q := Normalize(query);
    var found := if q == [] then s.original else Seqs.Filter(x => matches(x, q), s.original);
    assert q == [] ==> Seqs.IsSubseq(found, s.original) by {
      if q == [] { Seqs.SubseqRefl(s.original); }
    }
    ListState(found, s.original, found)
  }

  /** Searches do not narrow each other: a search after any earlier search
      sees the same original list, so `filter(q); filter("")` shows the full
      list again. */
  lemma SearchesDoNotCompound<T>(s: ListState<T>, q1: string, q2: string, matches: (T, string) -> bool)
    ensures Search(Search(s, q1, matches), q2, matches) == Search(s, q2, matches)
    ensures Search(Search(s, q1, matches), "", matches).displayed == s.original
  {
    assert Normalize("") == [];
  }

  /** A blank or whitespace-only query is treated like the empty query. */
  lemma BlankQueryRestores<T>(s: ListState<T>, query: string, matches: (T, string) -> bool)
    requires forall k :: 0 <= k < |query| ==> Text.IsTrimmable(query[k])
    ensures Search(s, query, matches).displayed == s.original
  {
    var low := Text.Lower(query);
    assert forall k :: 0 <= k < |low| ==> Text.IsTrimmable(low[k]);
    Text.BlankIffAllTrimmable(low);
  }

  /** After an update, the item count is the length of the new list, and a
      later search starts from it. */
  lemma UpdateThenSearch<T>(items: seq<T>, query: string, matches: (T, string) -> bool)
    ensures ItemCount(Update(items)) == |items|
    ensures Search(Update(items), query, matches).original == items
  {
  }
}

=== FILE: login.dfy ===
/** Sign-in and sign-up screens: input checks before contacting the
    authentication service, and the routing that follows from whether the
    signed-in account already has a users/{uid} document. */
module Login {
  import opened Wrappers

  /** Where a screen sends the user. */
  datatype Route = ToHome | ToMain | ToProfile | ToUserDetails | Stay

  /** The profile-document check: None when the read fails, which leaves
      the user on the screen. */
  type DocCheck = Option<bool>

  /** Login.onStart for a signed-in user. */
  function LoginStartRoute(check: DocCheck): (r: Route)
    ensures r == Stay <==> check.None?
    ensures check == Some(true) ==> r == ToHome
    ensures check == Some(false) ==> r == ToUserDetails
  {
    match check
    case None => Stay
    case Some(exists_) => if exists_ then ToHome else ToUserDetails
  }

  /** Register.onStart for a signed-in user. */
  function RegisterStartRoute(check: DocCheck): (r: Route)
    ensures r == Stay <==> check.None?
    ensures check == Some(true) ==> r == ToMain
    ensures check == Some(false) ==> r == ToUserDetails
  {
    match check
    case None => Stay
    case Some(exists_) => if exists_ then ToMain else ToUserDetails
  }

  /** After a Google sign-in on the registration screen. */
  function GoogleRoute(check: DocCheck): (r: Route)
    ensures r == Stay <==> check.None?
    ensures check == Some(true) ==> r == ToProfile
    ensures check == Some(false) ==> r == ToUserDetails
  {
    match check
    case None => Stay
    case Some(exists_) => if exists_ then ToProfile else ToUserDetails
  }

  /** All three entry points agree on new accounts: a signed-in user without
      a profile document is always sent to fill in the profile, and one with
      a document never is. */
  lemma MissingProfileAsksForDetails(check: DocCheck)
    ensures LoginStartRoute(check) == ToUserDetails <==> check == Some(false)
    ensures RegisterStartRoute(check) == ToUserDetails <==> check == Some(false)
    ensures GoogleRoute(check) == ToUserDetails <==> check == Some(false)
  {
  }

  /** A press of the login or register button. */
  datatype Submit = Refused(toast: string, progressVisible: bool) | Attempt(email: string, password: string)

  const EnterEmail: string := "Please enter your email"
  const EnterPassword: string := "Please enter your password"

  /** Login's button: the progress bar is shown first; an empty email hides
      it again, an empty password leaves it showing. */
  function LoginSubmit(email: string, password: string): (r: Submit)
    ensures r.Attempt? <==> email != [] && password != []
    ensures r.Attempt? ==> r.email == email && r.password == password
    ensures email == [] ==> r == Refused(EnterEmail, false)
    ensures email != [] && password == [] ==> r == Refused(EnterPassword, true)
  {
    if email == [] then Refused(EnterEmail, false)
    else if password == [] then Refused(EnterPassword, true)
    else Attempt(email, password)
  }

  /** Register's button: the same checks in the same order, but neither
      refusal hides the progress bar. */
  function RegisterSubmit(email: string, password: string): (r: Submit)
    ensures r.Attempt? <==> email != [] && password != []
    ensures r.Attempt? ==> r.email == email && r.password == password
    ensures email == [] ==> r == Refused(EnterEmail, true)
    ensures email != [] && password == [] ==> r == Refused(EnterPassword, true)
  {
    if email == [] then Refused(EnterEmail, true)
    else if password == [] then Refused(EnterPassword, true)
    else Attempt(email, password)
  }

  /** The two screens accept and refuse the same inputs with the same
      message; they differ only in the progress bar after an empty email. */
  lemma SubmitsAgreeButForProgress(email: string, password: string)
    ensures LoginSubmit(email, password).Attempt? == RegisterSubmit(email, password).Attempt?
    ensures LoginSubmit(email, password).Refused? ==> LoginSubmit(email, password).toast == RegisterSubmit(email, password).toast
    ensures LoginSubmit(email, password).Refused? ==>
              (LoginSubmit(email, password).progressVisible != RegisterSubmit(email, password).progressVisible <==> email == [])
  {
  }

  /** Where a successful email sign-in or sign-up leads: sign-in goes home,
      a new account goes to the profile form. A failure stays. */
  function LoginResult(success: bool): (r: Route)
    ensures r == ToHome <==> success
    ensures !success ==> r == Stay
  {
    if success then ToHome else Stay
  }

  function RegisterResult(success: bool): (r: Route)
    ensures r == ToUserDetails <==> success
    ensures !success ==> r == Stay
  {
    if success then ToUserDetails else Stay
  }

  /** The type tag of a Google ID token credential in the credential
      library. */
  const GoogleIdTokenType: string := "com.google.android.libraries.identity.googleid.TYPE_GOOGLE_ID_TOKEN_CREDENTIAL"

  /** A credential returned by the credential manager. */
  datatype Credential = CustomCredential(credType: string, idToken: string) | OtherCredential(credType: string)

  /** handleSignUp: the ID token to sign in with, or the
      "Invalid credential type" refusal. */
  function AcceptCredential(c: Option<Credential>): (r: Option<string>)
    ensures r.Some? <==> c.Some? && c.value.CustomCredential? && c.value.credType == GoogleIdTokenType
    ensures r.Some? ==> r.value == c.value.idToken
  {
    match c
    case Some(CustomCredential(t, token)) => if t == GoogleIdTokenType then Some(token) else None
    case _ => None
  }
}

=== FILE: maps.dfy ===
/** MapsActivity: the mood map shows the user's own located moods, or, in
    followers mode, the public located moods of followed users within a
    chosen radius. */
module Maps {
  import opened Wrappers
  import Seqs
  import Moods
  import MoodForms

  /** The radius slider runs from 0 to 95; the radius from 5 to 100 km. */
  const SliderTop: int := 95
  const MinRadiusKm: int := 5
  const MaxRadiusKm: int := 100

  /** onProgressChanged: MIN + progress * (MAX - MIN) / 95. The values are
      small whole numbers, so the float arithmetic is exact. */
  function RadiusFor(progress: int): (km: int)
    requires 0 <= progress <= SliderTop
    ensures MinRadiusKm <= km <= MaxRadiusKm
    ensures km == MinRadiusKm + progress
  {
    MinRadiusKm + progress * (MaxRadiusKm - MinRadiusKm) / SliderTop
  }

  /** The radius grows strictly with the slider. */
  lemma RadiusStrictlyIncreasing(p: int, q: int)
    requires 0 <= p < q <= SliderTop
    ensures RadiusFor(p) < RadiusFor(q)
  {
  }

  datatype Mode = Mode(followers: bool, radiusKm: int, slider: int, radiusPanel: bool)

  const InitialMode := Mode(false, MinRadiusKm, 0, false)

  /** The mode toggle: followers mode shows the radius panel and starts
      again from 5 km; personal mode hides the panel. */
  function Toggle(m: Mode, on: bool): (r: Mode)
    ensures r.followers == on && r.radiusPanel == on
    ensures on ==> r.radiusKm == MinRadiusKm && r.slider == 0
    ensures !on ==> r.radiusKm == m.radiusKm && r.slider == m.slider
  {
    if on then Mode(true, MinRadiusKm, 0, true) else m.(followers := false, radiusPanel := false)
  }

  /** Moving the slider. */
  function Slide(m: Mode, progress: int): (r: Mode)
    requires 0 <= progress <= SliderTop
    ensures r.radiusKm == RadiusFor(progress) && r.slider == progress
    ensures r.followers == m.followers && r.radiusPanel == m.radiusPanel
  {
    m.(radiusKm := RadiusFor(progress), slider := progress)
  }

  /** Switching followers mode off and on again forgets the radius. */
  lemma ReenteringResetsRadius(m: Mode, progress: int)
    requires 0 <= progress <= SliderTop
    ensures Toggle(Toggle(Slide(Toggle(m, true), progress), false), true).radiusKm == MinRadiusKm
  {
  }

  /** A position. */
  datatype Point = Point(lat: real, lng: real)

  /** A stored mood as the map reads it. */
  datatype MapDoc = MapDoc(isPublic: Option<bool>, lat: Option<real>, lng: Option<real>,
                           mood: Option<string>, intensity: Option<int>)

  /** The marker colour: the palette colour (gray for an unknown title) and
      the intensity adjustment when an intensity is stored. */
  datatype MarkerColor = MarkerColor(base: nat, adjust: Option<MoodForms.ColorAdjustment>)

  function ColorFor(d: MapDoc): (c: MarkerColor)
    ensures d.mood.None? || Moods.FromName(d.mood.value).None? ==> c.base == Moods.Gray
    ensures d.intensity == Some(5) ==> c.adjust == Some(MoodForms.KeepBase)
    ensures d.intensity.None? ==> c.adjust.None?
  {
    var base := if d.mood.Some? then Moods.ColorOfName(d.mood.value) else Moods.Gray;
    MarkerColor(base, if d.intensity.Some? then Some(MoodForms.ColorAdjustmentFor(d.intensity.value)) else None)
  }

  datatype Marker = Marker(at: Point, title: Option<string>, color: MarkerColor, ownerId: string, own: bool)

  /** Position of a document, when both coordinates are stored. */
  function Position(d: MapDoc): Option<Point> {
    if d.lat.Some? && d.lng.Some? then Some(Point(d.lat.value, d.lng.value)) else None
  }

  /** The user's own moods: every document with both coordinates, whatever
      its visibility. */
  function OwnMarker(owner: string, d: MapDoc): (r: Option<Marker>)
    ensures r.Some? <==> Position(d).Some?
  {
    match Position(d)
    case None => None
    case Some(p) => Some(Marker(p, d.mood, ColorFor(d), owner, true))
  }

  function OwnMarkers(owner: string, docs: seq<MapDoc>): (r: seq<Marker>)
    ensures |r| <= |docs|
  {
    Seqs.FilterMap(d => OwnMarker(owner, d), docs)
  }

  /** isWithinRange: no user location, no match. The distance is the
      platform's great-circle distance, given as a parameter. */
  function IsWithinRange(mood: Point, user: Option<Point>, radiusKm: int, distanceKm: (Point, Point) -> real): (r: bool)
    ensures user.None? ==> !r
    ensures user.Some? ==> (r <==> distanceKm(user.value, mood) <= radiusKm as real)
  {
    user.Some? && distanceKm(user.value, mood) <= radiusKm as real
  }

  /** A followed user's mood: public, located and within range. */
  function FollowedMarker(owner: string, d: MapDoc, user: Option<Point>, radiusKm: int, distanceKm: (Point, Point) -> real): (r: Option<Marker>)
    ensures r.Some? <==> d.isPublic == Some(true) && Position(d).Some? && IsWithinRange(Position(d).value, user, radiusKm, distanceKm)
    ensures r.Some? ==> !r.value.own && r.value.ownerId == owner
  {
    if d.isPublic != Some(true) then None
    else match Position(d)
      case None => None
      case Some(p) => if IsWithinRange(p, user, radiusKm, distanceKm) then Some(Marker(p, d.mood, ColorFor(d), owner, false)) else None
  }

  function FollowedMarkers(owner: string, docs: seq<MapDoc>, user: Option<Point>, radiusKm: int, distanceKm: (Point, Point) -> real): (r: seq<Marker>)
    ensures |r| <= |docs|
  {
    Seqs.FilterMap(d => FollowedMarker(owner, d, user, radiusKm, distanceKm), docs)
  }

  /** Without a known location the followers map stays empty. */
  lemma NoLocationNoFollowedMarkers(owner: string, docs: seq<MapDoc>, radiusKm: int, distanceKm: (Point, Point) -> real)
    ensures FollowedMarkers(owner, docs, None, radiusKm, distanceKm) == []
  {
    var f := d => FollowedMarker(owner, d, None, radiusKm, distanceKm);
    Seqs.FilterMapNone(f, docs);
  }

  /** Own moods are shown whatever their visibility: a private located mood
      is drawn on one's own map. */
  lemma OwnMapIgnoresVisibility(owner: string, docs: seq<MapDoc>)
    requires forall k :: 0 <= k < |docs| ==> Position(docs[k]).Some?
    ensures |OwnMarkers(owner, docs)| == |docs|
  {
  }

  /** The marker bitmap is taller when a username is drawn. */
  function MarkerHeight(username: Option<string>): (h: int)
    ensures username.Some? <==> h == 310
    ensures username.None? <==> h == 280
  {
    if username.Some? then 310 else 280
  }
}

=== FILE: mood_adapter.dfy ===
/** MoodEventAdapter: the mood-event feed list, its search box and what
    each row shows. */
module MoodEventAdapter {
  import opened Wrappers
  import Text
  import Moods
  import ListAdapters
  import Seqs
  import opened Records

  /** The search test: the reason, lower-cased, contains the query; an
      event without a reason never matches. */
  predicate ReasonMatches(e: MoodRecord, q: string) {
    e.reasonWhy.Some? && Text.Contains(Text.Lower(e.reasonWhy.value), q)
  }

  function Search(s: ListAdapters.ListState<MoodRecord>, query: string): (r: ListAdapters.ListState<MoodRecord>)
    ensures r.original == s.original
    ensures r.displayed == r.current
    ensures ListAdapters.Normalize(query) == [] ==> r.displayed == s.original
    ensures Seqs.IsSubseq(r.displayed, s.original)
    ensures ListAdapters.Normalize(query) != [] ==>
      (forall i :: 0 <= i < |r.displayed| ==> ReasonMatches(r.displayed[i], ListAdapters.Normalize(query)))
      && (forall i :: 0 <= i < |s.original| && ReasonMatches(s.original[i], ListAdapters.Normalize(query))
            ==> s.original[i] in r.displayed)
  {
    ListAdapters.Search(s, query, ReasonMatches)
  }

  /** For a non-blank query an event of the full list is shown exactly when
      it has a reason containing the normalised query. */
  lemma SearchShowsExactlyMatches(s: ListAdapters.ListState<MoodRecord>, query: string, i: int)
    requires ListAdapters.Normalize(query) != [] && 0 <= i < |s.original|
    ensures s.original[i] in Search(s, query).displayed
        <==> s.original[i].reasonWhy.Some? && Text.Contains(Text.Lower(s.original[i].reasonWhy.value), ListAdapters.Normalize(query))
  {
    var r := Search(s, query);
    var q := ListAdapters.Normalize(query);
    if s.original[i] in r.displayed {
      var k :| 0 <= k < |r.displayed| && r.displayed[k] == s.original[i];
      assert ReasonMatches(r.displayed[k], q);
    } else {
      assert !ReasonMatches(s.original[i], q);
    }
  }

  /** An event without a reason is never found by a non-blank query. */
  lemma NoReasonNeverFound(s: ListAdapters.ListState<MoodRecord>, query: string, e: MoodRecord)
    requires ListAdapters.Normalize(query) != [] && e.reasonWhy.None?
    ensures e !in Search(s, query).displayed
  {
  }

  /** `filter(q)` followed by `filter("")` shows the full list again. */
  lemma SearchThenClearRestores(s: ListAdapters.ListState<MoodRecord>, q: string)
    ensures Search(Search(s, q), "").displayed == s.original
  {
    ListAdapters.SearchesDoNotCompound(s, q, "", ReasonMatches);
  }

  /** getMoodColor: the palette colour of a mood name, gray otherwise (a
      null title is not a key). */
  function MoodColor(title: Option<string>): (c: nat)
    ensures c == Moods.Gray <==> title.None? || Moods.FromName(title.value).None?
    ensures title.Some? && Moods.FromName(title.value).Some? ==> c == Moods.Color(Moods.FromName(title.value).value)
  {
    Moods.GrayIffUnknown(title.GetOr(""));
    match title
    case Some(t) => Moods.ColorOfName(t)
    case None => Moods.Gray
  }

  /** The hasPhoto test: a bitmap, or a URI that is neither empty nor "N/A". */
  predicate HasPhoto(e: MoodRecord) {
    e.photoBitmap || (e.photoUri.Some? && e.photoUri.value != "" && e.photoUri.value != "N/A")
  }

  /** What one row shows. `title` is `None` when the row keeps its layout
      default. */
  datatype Row = Row(
    menuShown: bool,
    emoji: Option<string>,
    title: Option<string>,
    color: nat,
    intensity: int,
    socialShown: bool,
    contentShown: bool,
    photoShown: bool)

  /** onBindViewHolder's decisions. */
  function Bind(e: MoodRecord, showMenu: bool): (r: Row)
    ensures r.title.Some? <==> e.reasonWhy.Some? && !Text.IsBlank(e.reasonWhy.value)
    ensures r.title.Some? ==> r.title == e.reasonWhy
    ensures r.socialShown <==> e.socialSituation.Some? && !Text.IsBlank(e.socialSituation.value)
    ensures r.contentShown == r.socialShown
    ensures r.photoShown == HasPhoto(e)
    ensures r.color == MoodColor(e.moodTitle)
  {
    var social := e.socialSituation.Some? && !Text.IsBlank(e.socialSituation.value);
    Row(showMenu, e.emoji,
        if e.reasonWhy.Some? && !Text.IsBlank(e.reasonWhy.value) then e.reasonWhy else None,
        MoodColor(e.moodTitle), e.intensity, social, social, HasPhoto(e))
  }

  /** A photo URI of "N/A" or "" shows no photo unless a bitmap is held. */
  lemma PlaceholderUriShowsNoPhoto(e: MoodRecord, showMenu: bool)
    requires !e.photoBitmap && (e.photoUri.None? || e.photoUri.value in {"", "N/A"})
    ensures !Bind(e, showMenu).photoShown
  {
  }

  /** A social situation of spaces alone hides both the social line and
      the content block. */
  lemma BlankSocialHidden(e: MoodRecord, showMenu: bool)
    requires e.socialSituation.Some?
    requires forall k :: 0 <= k < |e.socialSituation.value| ==> Text.IsTrimmable(e.socialSituation.value[k])
    ensures !Bind(e, showMenu).socialShown && !Bind(e, showMenu).contentShown
  {
    Text.BlankIffAllTrimmable(e.socialSituation.value);
  }
}

=== FILE: mood_event.dfy ===
/** MoodEvent.java: the emotional state string "<emoji> <mood>", its
    splitting, and the conversion to and from a Firestore document. */
module MoodEvents {
  import opened Wrappers
  import Text
  import opened Photographs

  /** Java `int`. */
  type Int32 = x: int | -0x8000_0000 <= x < 0x8000_0000

  /** Long.intValue(): keep the low 32 bits, read them as two's complement. */
  function WrapInt32(n: int): (r: Int32)
    ensures -0x8000_0000 <= n < 0x8000_0000 ==> r == n
    ensures (r - n) % 0x1_0000_0000 == 0
  {
    var m := n % 0x1_0000_0000;
    if m < 0x8000_0000 then m else m - 0x1_0000_0000
  }

  datatype MoodEvent = MoodEvent(
    emotionalState: Option<string>,
    trigger: Option<string>,
    socialSituation: Option<string>,
    timestamp: Option<string>,
    intensity: Int32,
    photograph: Option<Photograph>)

  /** The three-argument constructor. `clock` is the formatted current time
      the constructor reads; intensity starts at 5 and there is no photograph. */
  function Create(emotionalState: Option<string>, trigger: Option<string>, socialSituation: Option<string>, clock: string): (e: MoodEvent)
    ensures e.intensity == 5 && e.photograph.None? && e.timestamp == Some(clock)
    ensures e.emotionalState == emotionalState && e.trigger == trigger && e.socialSituation == socialSituation
  {
    MoodEvent(emotionalState, trigger, socialSituation, Some(clock), 5, None)
  }

  /** getEmoji(): the text before the first space, or "" without a space. */
  function Emoji(e: MoodEvent): (r: string)
    ensures ' ' !in r
    ensures e.emotionalState.None? ==> r == ""
  {
    match e.emotionalState
    case None => ""
    case Some(s) =>
      match Text.IndexOf(s, ' ')
      case None => ""
      case Some(k) => s[..k]
  }

  /** getMood(): the text after the first space, or the whole state (possibly
      null) without a space. */
  function MoodText(e: MoodEvent): (r: Option<string>)
    ensures r.None? <==> e.emotionalState.None?
  {
    match e.emotionalState
    case None => None
    case Some(s) =>
      match Text.IndexOf(s, ' ')
      case None => Some(s)
      case Some(k) => Some(s[k + 1..])
  }

  /** Splitting on the first space and joining with a space gives back the
      state; without a space the emoji is empty and the mood is the state. */
  lemma SplitJoin(e: MoodEvent, s: string)
    requires e.emotionalState == Some(s)
    ensures ' ' in s ==> Emoji(e) + " " + MoodText(e).value == s
    ensures ' ' in s ==> |Emoji(e)| < |s|
    ensures ' ' !in s ==> Emoji(e) == "" && MoodText(e) == Some(s)
  {
    if ' ' in s {
      var k := Text.IndexOf(s, ' ').value;
      assert s == s[..k] + [s[k]] + s[k + 1..];
    }
  }

  /** getPhotoUri(): only the Uri object is consulted. */
  function PhotoUri(e: MoodEvent): (r: string)
    ensures e.photograph.None? ==> r == "N/A"
    ensures e.photograph.Some? && e.photograph.value.imageUri.None? ==> r == "N/A"
    ensures e.photograph.Some? && e.photograph.value.imageUri.Some? ==> r == e.photograph.value.imageUri.value
  {
    match e.photograph
    case Some(Photograph(Some(u), _, _, _, _, _)) => u
    case _ => "N/A"
  }

  /** Field values of a stored document. Firestore hands back every integer
      as a Long, so ints and longs are one kind here; `VTime` is a Firestore
      Timestamp. */
  datatype Value = VNull | VStr(s: string) | VLong(n: int) | VBool(b: bool) | VTime(ms: int)

  /** The document fields MoodEvent reads and writes; fromMap ignores any
      other field, so a document is modelled as a map over these names. */
  datatype Field =
    | EmotionalStateField | TriggerField | SocialSituationField | TimestampField
    | IntensityField | EmojiField | MoodField | HasPhotoField | PhotoUriField
    | PhotoDateTakenField | PhotoLocationField | PhotoSizeKBField

  /** The Firestore key of each field. */
  function Key(f: Field): string {
    match f
    case EmotionalStateField => "emotionalState"
    case TriggerField => "trigger"
    case SocialSituationField => "socialSituation"
    case TimestampField => "timestamp"
    case IntensityField => "intensity"
    case EmojiField => "emoji"
    case MoodField => "mood"
    case HasPhotoField => "hasPhoto"
    case PhotoUriField => "photoUri"
    case PhotoDateTakenField => "photoDateTaken"
    case PhotoLocationField => "photoLocation"
    case PhotoSizeKBField => "photoSizeKB"
  }

  type Doc = map<Field, Value>

  function OptStr(s: Option<string>): Value {
    match s
    case Some(x) => VStr(x)
    case None => VNull
  }

  /** The fields toMap() writes for every event. */
  function CoreFields(e: MoodEvent): Doc {
    map[
      EmotionalStateField := OptStr(e.emotionalState),
      TriggerField := OptStr(e.trigger),
      SocialSituationField := OptStr(e.socialSituation),
      TimestampField := OptStr(e.timestamp),
      IntensityField := VLong(e.intensity),
      EmojiField := VStr(Emoji(e)),
      MoodField := OptStr(MoodText(e))]
  }

  /** toMap(), with `photoUri` computed by the given reading of the URI. */
  function ToMapWith(e: MoodEvent, uri: string): (d: Doc)
    ensures HasPhotoField in d && d[HasPhotoField] == VBool(e.photograph.Some?)
    ensures e.photograph.Some? <==> PhotoUriField in d
    ensures PhotoDateTakenField in d <==> e.photograph.Some? && e.photograph.value.dateTaken.Some?
  {
    var core := CoreFields(e);
    match e.photograph
    case None => core[HasPhotoField := VBool(false)]
    case Some(p) =>
      var withPhoto := core[HasPhotoField := VBool(true)][PhotoUriField := VStr(uri)]
        [PhotoLocationField := OptStr(p.location)][PhotoSizeKBField := VLong(p.fileSizeKB)];
      match p.dateTaken
      case Some(t) => withPhoto[PhotoDateTakenField := VLong(t)]
      case None => withPhoto
  }

  /** toMap() as written: the URI comes from getPhotoUri(). */
  function ToMap(e: MoodEvent): Doc {
    ToMapWith(e, PhotoUri(e))
  }

  /** A field read either yields a value or fails the way the Java casts do
      (ClassCastException, or NullPointerException when unboxing null). */
  datatype Decoded<T> = Decoded(value: T) | CastFailure(field: Field)

  /** `(String) data.get(key)`: missing keys and nulls read as null. */
  function StrAt(d: Doc, key: Field): (r: Decoded<Option<string>>)
    ensures key !in d ==> r == Decoded(None)
    ensures key in d && d[key].VStr? ==> r == Decoded(Some(d[key].s))
  {
    if key !in d then Decoded(None)
    else match d[key]
      case VNull => Decoded(None)
      case VStr(s) => Decoded(Some(s))
      case _ => CastFailure(key)
  }

  /** The photograph fromMap rebuilds, or None. `now` is the clock reading
      used when no photo date is stored. */
  function PhotoFromMap(d: Doc, now: int): Decoded<Option<Photograph>> {
    if HasPhotoField !in d then Decoded(None)
    else match d[HasPhotoField]
      case VBool(false) => Decoded(None)
      case VBool(true) =>
        (match StrAt(d, PhotoUriField)
         case CastFailure(k) => CastFailure(k)
         case Decoded(None) => Decoded(None)
         case Decoded(Some(uri)) =>
           if uri == "N/A" then Decoded(None)
           else
             var date :=
               if PhotoDateTakenField !in d then now
               else match d[PhotoDateTakenField]
                 case VLong(t) => t
                 case VTime(t) => t
                 case _ => now;
             var loc := if PhotoLocationField in d then StrAt(d, PhotoLocationField) else Decoded(Some("Unknown"));
             var size := if PhotoSizeKBField in d && d[PhotoSizeKBField].VLong? then d[PhotoSizeKBField].n else 0;
             match loc
             case CastFailure(k) => CastFailure(k)
             case Decoded(l) => Decoded(Some(FromUriString(uri, size, Some(date), l))))
      case _ => CastFailure(HasPhotoField)
  }

  /** fromMap(). `clock` is the constructor's formatted current time and
      `now` the current time in milliseconds. */
  function FromMap(d: Doc, clock: string, now: int): Decoded<MoodEvent> {
    match (StrAt(d, EmotionalStateField), StrAt(d, TriggerField), StrAt(d, SocialSituationField))
    case (CastFailure(k), _, _) => CastFailure(k)
    case (_, CastFailure(k), _) => CastFailure(k)
    case (_, _, CastFailure(k)) => CastFailure(k)
    case (Decoded(es), Decoded(tr), Decoded(so)) =>
      var base := Create(es, tr, so, clock);
      var ts := if TimestampField in d then StrAt(d, TimestampField) else Decoded(base.timestamp);
      match ts
      case CastFailure(k) => CastFailure(k)
      case Decoded(t) =>
        var intensity: Decoded<Int32> :=
          if IntensityField !in d then Decoded(5)
          else if d[IntensityField].VLong? then Decoded(WrapInt32(d[IntensityField].n))
          else CastFailure(IntensityField);
        match intensity
        case CastFailure(k) => CastFailure(k)
        case Decoded(i) =>
          match PhotoFromMap(d, now)
          case CastFailure(k) => CastFailure(k)
          case Decoded(p) => Decoded(base.(timestamp := t, intensity := i, photograph := p))
  }

  /** What the fields toMap() writes read back as. */
  lemma ToMapWithReads(e: MoodEvent, uri: string)
    ensures var d := ToMapWith(e, uri);
      && StrAt(d, EmotionalStateField) == Decoded(e.emotionalState)
      && StrAt(d, TriggerField) == Decoded(e.trigger)
      && StrAt(d, SocialSituationField) == Decoded(e.socialSituation)
      && TimestampField in d && StrAt(d, TimestampField) == Decoded(e.timestamp)
      && IntensityField in d && d[IntensityField] == VLong(e.intensity)
  {
    var core := CoreFields(e);
    var d := ToMapWith(e, uri);
    PhotoKeepsCore(e, uri);
    assert d[EmotionalStateField] == OptStr(e.emotionalState);
    assert d[TriggerField] == OptStr(e.trigger);
    assert d[SocialSituationField] == OptStr(e.socialSituation);
    assert d[TimestampField] == OptStr(e.timestamp);
  }

  /** The photo fields leave the core fields as they are. */
  lemma PhotoKeepsCore(e: MoodEvent, uri: string)
    ensures forall f :: f in CoreFields(e) ==> f in ToMapWith(e, uri) && ToMapWith(e, uri)[f] == CoreFields(e)[f]
  {
    var core := CoreFields(e);
    assert forall f :: f in core ==> f !in {HasPhotoField, PhotoUriField, PhotoLocationField, PhotoSizeKBField, PhotoDateTakenField};
  }

  /** The photograph fromMap() rebuilds from toMap()'s photo fields: none
      without a photo or with the URI "N/A", otherwise one built from the
      URI string, dated now when no date was stored. */
  lemma ToMapWithPhoto(e: MoodEvent, uri: string, now: int)
    ensures e.photograph.None? || uri == "N/A" ==> PhotoFromMap(ToMapWith(e, uri), now) == Decoded(None)
    ensures e.photograph.Some? && uri != "N/A" ==>
      var p := e.photograph.value;
      PhotoFromMap(ToMapWith(e, uri), now) == Decoded(Some(FromUriString(uri, p.fileSizeKB, Some(p.dateTaken.GetOr(now)), p.location)))
  {
    var d := ToMapWith(e, uri);
    match e.photograph
    case None =>
      assert d[HasPhotoField] == VBool(false);
    case Some(p) =>
      assert d[HasPhotoField] == VBool(true);
      assert StrAt(d, PhotoUriField) == Decoded(Some(uri));
      assert StrAt(d, PhotoLocationField) == Decoded(p.location);
      assert d[PhotoSizeKBField] == VLong(p.fileSizeKB);
      assert p.dateTaken.Some? ==> d[PhotoDateTakenField] == VLong(p.dateTaken.value);
  }

  /** fromMap() on a document whose text fields, timestamp and intensity
      read back as those of `e` gives `e` with the photograph it rebuilds. */
  lemma FromMapOf(d: Doc, clock: string, now: int, e: MoodEvent)
    requires StrAt(d, EmotionalStateField) == Decoded(e.emotionalState)
    requires StrAt(d, TriggerField) == Decoded(e.trigger)
    requires StrAt(d, SocialSituationField) == Decoded(e.socialSituation)
    requires TimestampField in d && StrAt(d, TimestampField) == Decoded(e.timestamp)
    requires IntensityField in d && d[IntensityField] == VLong(e.intensity)
    ensures PhotoFromMap(d, now).Decoded? ==> FromMap(d, clock, now) == Decoded(e.(photograph := PhotoFromMap(d, now).value))
    ensures PhotoFromMap(d, now).CastFailure? ==> FromMap(d, clock, now).CastFailure?
  {
  }

  /** Storing and reloading keeps the state, trigger, social situation,
      timestamp and intensity; the photograph survives exactly when the
      stored URI is a real one, and it comes back in its string-only form. */
  lemma RoundTripFields(e: MoodEvent, clock: string, now: int)
    ensures FromMap(ToMap(e), clock, now).Decoded?
    ensures var r := FromMap(ToMap(e), clock, now).value;
      && r.emotionalState == e.emotionalState
      && r.trigger == e.trigger
      && r.socialSituation == e.socialSituation
      && r.timestamp == e.timestamp
      && r.intensity == e.intensity
      && (r.photograph.Some? <==> PhotoUri(e) != "N/A")
      && (r.photograph.Some? ==> r.photograph.value.imageUriString == Some(PhotoUri(e)))
  {
    ToMapWithReads(e, PhotoUri(e));
    ToMapWithPhoto(e, PhotoUri(e), now);
    FromMapOf(ToMap(e), clock, now, e);
  }

  /** toMap() records a photograph exactly when one is attached. */
  lemma ToMapHasPhoto(e: MoodEvent)
    ensures ToMap(e)[HasPhotoField] == VBool(true) <==> e.photograph.Some?
  {
  }

  /** fromMap() attaches a photograph exactly when hasPhoto is true and a
      photoUri other than "N/A" is stored (for documents it can read). */
  lemma FromMapPhotoRule(d: Doc, clock: string, now: int)
    requires FromMap(d, clock, now).Decoded?
    ensures FromMap(d, clock, now).value.photograph.Some?
        <==> (HasPhotoField in d && d[HasPhotoField] == VBool(true)
              && PhotoUriField in d && d[PhotoUriField].VStr? && d[PhotoUriField].s != "N/A")
  {
  }

  /** Every photograph fromMap() builds reports "N/A" from getPhotoUri(),
      whatever URI was stored. */
  lemma LoadedPhotoUriLost(d: Doc, clock: string, now: int)
    requires FromMap(d, clock, now).Decoded?
    ensures PhotoUri(FromMap(d, clock, now).value) == "N/A"
  {
  }

  /** An event holding a freshly taken photo with URI "content://p". */
  const PhotoExample: MoodEvent :=
    MoodEvent(None, None, None, None, 5, Some(WithBitmap(Some("content://p"), 10, true, Some(0), None)))

  /** A concrete case: the photo stored with URI "content://p" reloads, and
      getPhotoUri() then answers "N/A"; storing it again drops the photo. */
  lemma PhotoUriLostExample(clock: string, now: int)
    ensures FromMap(ToMap(PhotoExample), clock, now).Decoded?
    ensures FromMap(ToMap(PhotoExample), clock, now).value.photograph.Some?
    ensures PhotoUri(FromMap(ToMap(PhotoExample), clock, now).value) == "N/A"
    ensures FromMap(ToMap(FromMap(ToMap(PhotoExample), clock, now).value), clock, now).Decoded?
    ensures FromMap(ToMap(FromMap(ToMap(PhotoExample), clock, now).value), clock, now).value.photograph.None?
  {
    assert PhotoUri(PhotoExample) == "content://p";
    RoundTripFields(PhotoExample, clock, now);
    var once := FromMap(ToMap(PhotoExample), clock, now).value;
    LoadedPhotoUriLost(ToMap(PhotoExample), clock, now);
    RoundTripFields(once, clock, now);
  }

  /** getPhotoUri() as evidently intended: fall back to the string form the
      four-argument constructor stores. */
  function PhotoUriFixed(e: MoodEvent): (r: string)
    ensures e.photograph.None? ==> r == "N/A"
    ensures e.photograph.Some? && e.photograph.value.imageUri.Some? ==> r == PhotoUri(e)
  {
    match e.photograph
    case Some(Photograph(Some(u), _, _, _, _, _)) => u
    case Some(Photograph(None, Some(u), _, _, _, _)) => u
    case _ => "N/A"
  }

  function ToMapFixed(e: MoodEvent): Doc {
    ToMapWith(e, PhotoUriFixed(e))
  }

  /** With the corrected URI reading, a loaded photograph reports the URI
      that was stored. */
  lemma LoadedPhotoUriKept(d: Doc, clock: string, now: int)
    requires FromMap(d, clock, now).Decoded?
    requires FromMap(d, clock, now).value.photograph.Some?
    ensures PhotoUriFixed(FromMap(d, clock, now).value) == d[PhotoUriField].s
  {
  }

  /** With the corrected URI reading, an event that was loaded from the
      store survives another save and load unchanged, photograph included. */
  lemma LoadedEventRoundTrips(d: Doc, clock: string, now: int, clock2: string, now2: int)
    requires FromMap(d, clock, now).Decoded?
    ensures FromMap(ToMapFixed(FromMap(d, clock, now).value), clock2, now2)
         == FromMap(d, clock, now)
  {
    var loaded := FromMap(d, clock, now).value;
    ToMapWithReads(loaded, PhotoUriFixed(loaded));
    LoadedPhotoReloads(d, clock, now, now2);
    FromMapOf(ToMapFixed(loaded), clock2, now2, loaded);
  }

  /** The photograph part of LoadedEventRoundTrips. */
  lemma LoadedPhotoReloads(d: Doc, clock: string, now: int, now2: int)
    requires FromMap(d, clock, now).Decoded?
    ensures PhotoFromMap(ToMapFixed(FromMap(d, clock, now).value), now2)
         == Decoded(FromMap(d, clock, now).value.photograph)
  {
    var loaded := FromMap(d, clock, now).value;
    var d2 := ToMapFixed(loaded);
    match loaded.photograph
    case None =>
      assert d2[HasPhotoField] == VBool(false);
    case Some(p) =>
      assert p.imageUri.None? && p.imageUriString.Some? && p.dateTaken.Some?;
      assert d2[HasPhotoField] == VBool(true);
      assert d2[PhotoUriField] == VStr(p.imageUriString.value);
      assert d2[PhotoDateTakenField] == VLong(p.dateTaken.value);
      assert StrAt(d2, PhotoLocationField) == Decoded(p.location);
      assert d2[PhotoSizeKBField] == VLong(p.fileSizeKB);
  }
}

=== FILE: mood_form.dfy ===
/** The rules shared by the two mood entry screens (SelectMoodActivity and
    EditMoodActivity): reason validation, the intensity bar and label, and
    the colour-adjustment decision. */
module MoodForms {
  import opened Wrappers
  import Seqs
  import Text

  /** The longest accepted reason. */
  const MaxReasonLength: nat := 200

  const ReasonRequired: string := "Reason why is required."
  const ReasonTooLong: string := "Reason why must be 200 characters or less."

  datatype ReasonCheck = ReasonOk(reason: string) | ReasonRejected(message: string)

  /** The reason check of the save and update buttons: the trimmed input
      must be non-empty (checked first) and at most 200 characters. */
  function ValidateReason(input: string): (r: ReasonCheck)
    ensures r.ReasonOk? <==> Text.Trim(input) != [] && |Text.Trim(input)| <= MaxReasonLength
    ensures r.ReasonOk? ==> r.reason == Text.Trim(input)
    ensures r.ReasonRejected? && Text.IsBlank(input) ==> r.message == ReasonRequired
    ensures r.ReasonRejected? && !Text.IsBlank(input) ==> r.message == ReasonTooLong
  {
    var t := Text.Trim(input);
    if t == [] then ReasonRejected(ReasonRequired)
    else if |t| > MaxReasonLength then ReasonRejected(ReasonTooLong)
    else ReasonOk(t)
  }

  /** An accepted reason passes the check again unchanged, so re-editing a
      saved reason without touching it is accepted. */
  lemma AcceptedReasonIsStable(input: string)
    requires ValidateReason(input).ReasonOk?
    ensures ValidateReason(ValidateReason(input).reason) == ValidateReason(input)
  {
    Text.TrimIdempotent(input);
  }

  /** A reason made only of spaces and control characters is rejected as
      missing, whatever its length. */
  lemma WhitespaceReasonIsMissing(input: string)
    requires forall k :: 0 <= k < |input| ==> Text.IsTrimmable(input[k])
    ensures ValidateReason(input) == ReasonRejected(ReasonRequired)
  {
    Text.BlankIffAllTrimmable(input);
  }

  const Filled: char := '●'
  const Empty: char := '○'

  /** The eleven symbols for positions 0..10: position i is filled exactly
      when i <= progress. */
  function IntensityBar(progress: int): (r: string)
    ensures |r| == 11
    ensures forall i :: 0 <= i < 11 ==> (r[i] == Filled <==> i <= progress)
    ensures forall i :: 0 <= i < 11 ==> r[i] == Filled || r[i] == Empty
  {
    seq(11, i => if i <= progress then Filled else Empty)
  }

  /** Number of filled symbols: progress + 1, kept within 0..11. */
  function FilledCount(progress: int): (n: nat)
    ensures n <= 11
  {
    if progress < 0 then 0 else if progress >= 10 then 11 else progress + 1
  }

  /** The bar is a run of filled symbols followed by a run of empty ones;
      the filled run is progress + 1 long for progress 0..10. */
  lemma BarShape(progress: int)
    ensures IntensityBar(progress) == Seqs.Repeat(Filled, FilledCount(progress)) + Seqs.Repeat(Empty, 11 - FilledCount(progress))
    ensures Seqs.Count(IntensityBar(progress), Filled) == FilledCount(progress)
    ensures Seqs.Count(IntensityBar(progress), Empty) == 11 - FilledCount(progress)
  {
    var k := FilledCount(progress);
    var a := Seqs.Repeat(Filled, k);
    var b := Seqs.Repeat(Empty, 11 - k);
    assert IntensityBar(progress) == a + b;
    Seqs.CountAppend(a, b, Filled);
    Seqs.CountAppend(a, b, Empty);
    Seqs.CountRepeat(Filled, k, Filled);
    Seqs.CountRepeat(Empty, 11 - k, Filled);
    Seqs.CountRepeat(Filled, k, Empty);
    Seqs.CountRepeat(Empty, 11 - k, Empty);
  }

  /** The default intensity draws six filled and five empty symbols. */
  lemma DefaultBar()
    ensures IntensityBar(5) == "●●●●●●○○○○○"
  {
  }

  /** A higher intensity never fills fewer symbols. */
  lemma BarMonotone(p: int, q: int)
    requires p <= q
    ensures forall i :: 0 <= i < 11 && IntensityBar(p)[i] == Filled ==> IntensityBar(q)[i] == Filled
  {
  }

  datatype Degree = Slightly | Plain | Very

  /** The label degree for a slider value. */
  function DegreeOf(progress: int): (d: Degree)
    ensures d == Slightly <==> progress <= 3
    ensures d == Very <==> progress > 7
  {
    if progress <= 3 then Slightly else if progress <= 7 then Plain else Very
  }

  function Rank(d: Degree): nat {
    match d
    case Slightly => 0
    case Plain => 1
    case Very => 2
  }

  /** The degree never drops as the slider moves up. */
  lemma DegreeMonotone(p: int, q: int)
    requires p <= q
    ensures Rank(DegreeOf(p)) <= Rank(DegreeOf(q))
  {
  }

  /** The mood label under the emoji; a null mood prints as "null". */
  function MoodLabel(progress: int, mood: Option<string>): (r: string)
    ensures var m := Text.StringOf(mood);
      && |m| <= |r| && r[|r| - |m|..] == m
      && (DegreeOf(progress) == Plain <==> r == m)
  {
    var m := Text.StringOf(mood);
    match DegreeOf(progress)
    case Slightly => "Slightly " + m
    case Plain => m
    case Very => "Very " + m
  }

  /** What adjustColorIntensity does to the base colour. */
  datatype ColorAdjustment = BlendTowardGray | Saturate | KeepBase

  function ColorAdjustmentFor(intensity: int): (a: ColorAdjustment)
    ensures a == KeepBase <==> intensity == 5
    ensures a == BlendTowardGray <==> intensity < 5
  {
    if intensity < 5 then BlendTowardGray
    else if intensity > 5 then Saturate
    else KeepBase
  }

  /** The slider range and its starting value. */
  const SliderMax: nat := 10
  const SliderDefault: nat := 5

  /** At the starting value the label is the plain mood and the colour is
      the base colour. */
  lemma DefaultIntensityIsNeutral(mood: string)
    ensures MoodLabel(SliderDefault, Some(mood)) == mood
    ensures ColorAdjustmentFor(SliderDefault) == KeepBase
  {
  }

  /** A latitude/longitude pair. */
  datatype LatLng = LatLng(lat: real, lng: real)
}

=== FILE: moods.dfy ===
/** The eight moods of the app (Mood.java) and the per-mood tables that the
    screens keep beside it: display colour and the name-to-emoji map. */
module Moods {
  import opened Wrappers

  datatype Mood = Happy | Sad | Angry | Surprised | Afraid | Disgusted | Confused | Shameful

  /** The enum constants in declaration order. */
  const AllMoods: seq<Mood> := [Happy, Sad, Angry, Surprised, Afraid, Disgusted, Confused, Shameful]

  /** Mood.getName(). */
  function Name(m: Mood): string {
    match m
    case Happy => "Happy"
    case Sad => "Sad"
    case Angry => "Angry"
    case Surprised => "Surprised"
    case Afraid => "Afraid"
    case Disgusted => "Disgusted"
    case Confused => "Confused"
    case Shameful => "Shameful"
  }

  /** Mood.getEmoji(). */
  function Emoji(m: Mood): string {
    match m
    case Happy => "😃"
    case Sad => "😢"
    case Angry => "😡"
    case Surprised => "😲"
    case Afraid => "😨"
    case Disgusted => "🤢"
    case Confused => "🤔"
    case Shameful => "😳"
  }

  /** The enum lists every mood exactly once, and the names and the emojis
      tell the moods apart. */
  lemma EnumIsComplete()
    ensures |AllMoods| == 8
    ensures forall m: Mood :: m in AllMoods
    ensures forall i, j :: 0 <= i < j < |AllMoods| ==> AllMoods[i] != AllMoods[j]
    ensures forall a: Mood, b: Mood :: Name(a) == Name(b) ==> a == b
    ensures forall a: Mood, b: Mood :: Emoji(a) == Emoji(b) ==> a == b
  {
    forall m: Mood
      ensures m in AllMoods
    {
      assert AllMoods[Position(m)] == m;
    }
  }

  /** Index of a mood in declaration order (Enum.ordinal()). */
  function Position(m: Mood): (i: nat)
    ensures i < |AllMoods| && AllMoods[i] == m
  {
    match m
    case Happy => 0
    case Sad => 1
    case Angry => 2
    case Surprised => 3
    case Afraid => 4
    case Disgusted => 5
    case Confused => 6
    case Shameful => 7
  }

  /** The mood whose name is `name`, if any (an exact, case-sensitive match). */
  function FromName(name: string): (r: Option<Mood>)
    ensures r.Some? ==> Name(r.value) == name
    ensures r.None? ==> forall m: Mood :: Name(m) != name
  {
    if name == "Happy" then Some(Happy)
    else if name == "Sad" then Some(Sad)
    else if name == "Angry" then Some(Angry)
    else if name == "Surprised" then Some(Surprised)
    else if name == "Afraid" then Some(Afraid)
    else if name == "Disgusted" then Some(Disgusted)
    else if name == "Confused" then Some(Confused)
    else if name == "Shameful" then Some(Shameful)
    else None
  }

  lemma FromNameInverts(m: Mood)
    ensures FromName(Name(m)) == Some(m)
  {
  }

  /** Colours as unsigned 32-bit ARGB values (Color.parseColor gives an
      opaque colour, alpha 0xFF). */
  const Opaque: nat := 0xFF00_0000
  /** android.graphics.Color.GRAY. */
  const Gray: nat := 0xFF88_8888

  /** The shared mood palette (MoodEventAdapter, SelectMoodActivity and
      MapsActivity hold the same eight entries). */
  function Color(m: Mood): nat {
    Opaque + match m
      case Happy => 0xFBC02D
      case Sad => 0x42A5F5
      case Angry => 0xEF5350
      case Surprised => 0xFF9800
      case Afraid => 0x5C6BC0
      case Disgusted => 0x66BB6A
      case Confused => 0xAB47BC
      case Shameful => 0xEC407A
  }

  /** `moodColors.getOrDefault(name, Color.GRAY)`. */
  function ColorOfName(name: string): (c: nat)
    ensures FromName(name).Some? ==> c == Color(FromName(name).value)
    ensures FromName(name).None? ==> c == Gray
  {
    match FromName(name)
    case Some(m) => Color(m)
    case None => Gray
  }

  /** Gray is returned exactly for strings that are not mood names, because
      no mood is gray and the palette gives every mood its own colour. */
  lemma GrayIffUnknown(name: string)
    ensures ColorOfName(name) == Gray <==> FromName(name).None?
    ensures forall a: Mood, b: Mood :: Color(a) == Color(b) ==> a == b
  {
  }

  /** The name-to-emoji table built in SelectMoodActivity.initializeMoodData. */
  const SelectEmojiTable: map<string, string> := map[
    "Happy" := "😃", "Sad" := "😢", "Angry" := "😡", "Surprised" := "😲",
    "Afraid" := "😨", "Disgusted" := "🤢", "Confused" := "🤔", "Shameful" := "😳"]

  /** The key set of the colour table built in the same method. */
  const SelectColorKeys: set<string> := {
    "Happy", "Sad", "Angry", "Surprised", "Afraid", "Disgusted", "Confused", "Shameful"}

  /** The selection screen's tables agree with the enum: both key sets are
      exactly the eight enum names, each paired with the enum's emoji. */
  lemma TablesMatchEnum()
    ensures SelectEmojiTable.Keys == SelectColorKeys
    ensures SelectColorKeys == set m: Mood | m in AllMoods :: Name(m)
    ensures forall m: Mood :: Name(m) in SelectEmojiTable && SelectEmojiTable[Name(m)] == Emoji(m)
  {
    forall m: Mood
      ensures Name(m) in SelectEmojiTable && SelectEmojiTable[Name(m)] == Emoji(m)
    {
      match m
      case Happy =>
      case Sad =>
      case Angry =>
      case Surprised =>
      case Afraid =>
      case Disgusted =>
      case Confused =>
      case Shameful =>
    }
    var names := set m: Mood | m in AllMoods :: Name(m);
    forall k | k in SelectColorKeys
      ensures k in names
    {
      var m := FromName(k).value;
      assert m in AllMoods && Name(m) == k;
    }
  }
}

=== FILE: navigation.dfy ===
/** NavigationHelper: the bottom navigation bar shared by the main screens. */
module Navigation {
  import opened Wrappers

  /** The screen hosting the bar; Add is the mood picker. */
  datatype Screen = Home | Profile | Add | Search | Map | Other

  /** The bar's items, plus any id the bar does not know. */
  datatype Tab = NavHome | NavProfile | NavAdd | NavSearch | NavMap | UnknownTab

  /** getCurrentItemId: a screen's own tab; any other screen shows home. */
  function CurrentTab(s: Screen): (t: Tab)
    ensures t != UnknownTab
    ensures s != Other ==> TabScreen(t) == Some(s)
    ensures s == Other ==> t == NavHome
  {
    match s
    case Home => NavHome
    case Profile => NavProfile
    case Add => NavAdd
    case Search => NavSearch
    case Map => NavMap
    case Other => NavHome
  }

  /** The screen a tab opens. */
  function TabScreen(t: Tab): Option<Screen> {
    match t
    case NavHome => Some(Home)
    case NavProfile => Some(Profile)
    case NavAdd => Some(Add)
    case NavSearch => Some(Search)
    case NavMap => Some(Map)
    case UnknownTab => None
  }

  /** The selection listener: the screen to start (finishing the current
      one), or None when the listener returns false. */
  function OnTabSelected(current: Screen, t: Tab): (r: Option<Screen>)
    ensures r.Some? <==> t != UnknownTab && TabScreen(t) != Some(current)
    ensures r.Some? ==> r == TabScreen(t) && r.value != Other
  {
    match TabScreen(t)
    case None => None
    case Some(target) => if target == current then None else Some(target)
  }

  /** Re-selecting the tab highlighted on entry never navigates from one of
      the five main screens; from any other screen it opens home. */
  lemma InitialTabStaysPut(s: Screen)
    ensures s != Other ==> OnTabSelected(s, CurrentTab(s)).None?
    ensures s == Other ==> OnTabSelected(s, CurrentTab(s)) == Some(Home)
  {
  }

  /** After a navigation the new screen highlights the tab that opened it. */
  lemma NavigationHighlightsTab(current: Screen, t: Tab)
    requires OnTabSelected(current, t).Some?
    ensures CurrentTab(OnTabSelected(current, t).value) == t
  {
  }
}

=== FILE: notification.dfy ===
/** Notification: the record a follow request, a comment or a reply leaves
    in the receiver's inbox. */
module Notifications {
  import opened Wrappers

  datatype NotifType = FollowRequest | CommentLiked | PostLiked | PostCommentedOn | CommentRepliedTo

  datatype Notification = Notification(
    id: string,
    content: string,
    dateTime: string,
    notifType: NotifType,
    senderUserId: string,
    receiverUserId: string,
    /** "pending", "accepted" or "rejected" for follow requests; null otherwise. */
    requestStatus: Option<string>,
    moodEventId: Option<string>,
    moodOwnerId: Option<string>,
    isRead: bool)

  const Pending := "pending"
  const Accepted := "accepted"
  const Rejected := "rejected"

  /** The status a fresh notification starts with. */
  function InitialStatus(t: NotifType): (r: Option<string>)
    ensures r == Some(Pending) <==> t == FollowRequest
    ensures r.None? <==> t != FollowRequest
  {
    if t == FollowRequest then Some(Pending) else None
  }

  /** The six-argument constructor: unread, no mood event attached. */
  function Create(id: string, content: string, dateTime: string, t: NotifType, sender: string, receiver: string): (n: Notification)
    ensures !n.isRead
    ensures n.requestStatus == Some(Pending) <==> t == FollowRequest
    ensures n.requestStatus.None? <==> t != FollowRequest
    ensures n.moodEventId.None? && n.moodOwnerId.None?
    ensures n.id == id && n.content == content && n.dateTime == dateTime && n.notifType == t
    ensures n.senderUserId == sender && n.receiverUserId == receiver
  {
    Notification(id, content, dateTime, t, sender, receiver, InitialStatus(t), None, None, false)
  }

  /** The eight-argument constructor: as `Create`, plus the mood event it is
      about. */
  function CreateAbout(id: string, content: string, dateTime: string, t: NotifType, sender: string, receiver: string,
                       moodEventId: string, moodOwnerId: string): (n: Notification)
    ensures !n.isRead
    ensures n.requestStatus == Some(Pending) <==> t == FollowRequest
    ensures n.moodEventId == Some(moodEventId) && n.moodOwnerId == Some(moodOwnerId)
    ensures n.senderUserId == sender && n.receiverUserId == receiver && n.notifType == t
  {
    var base := Create(id, content, dateTime, t, sender, receiver);
    base.(moodEventId := Some(moodEventId), moodOwnerId := Some(moodOwnerId))
  }

  /** The two constructors agree on everything but the mood event. */
  lemma ConstructorsAgree(id: string, content: string, dateTime: string, t: NotifType, sender: string, receiver: string,
                          moodEventId: string, moodOwnerId: string)
    ensures CreateAbout(id, content, dateTime, t, sender, receiver, moodEventId, moodOwnerId).(moodEventId := None, moodOwnerId := None)
         == Create(id, content, dateTime, t, sender, receiver)
  {
  }

  /** Two notifications agree on every field except the read flag and the
      request status. */
  predicate SameIdentity(a: Notification, b: Notification) {
    a.id == b.id && a.content == b.content && a.dateTime == b.dateTime && a.notifType == b.notifType
    && a.senderUserId == b.senderUserId && a.receiverUserId == b.receiverUserId
    && a.moodEventId == b.moodEventId && a.moodOwnerId == b.moodOwnerId
  }

  function SetRead(n: Notification, read: bool): (r: Notification)
    ensures r.isRead == read
    ensures SameIdentity(n, r) && r.requestStatus == n.requestStatus
  {
    n.(isRead := read)
  }

  function SetRequestStatus(n: Notification, status: Option<string>): (r: Notification)
    ensures r.requestStatus == status
    ensures SameIdentity(n, r) && r.isRead == n.isRead
  {
    n.(requestStatus := status)
  }

  /** The two setters touch disjoint fields, so their order does not matter,
      and each undoes itself when given the old value back. */
  lemma SettersCommute(n: Notification, read: bool, status: Option<string>)
    ensures SetRead(SetRequestStatus(n, status), read) == SetRequestStatus(SetRead(n, read), status)
    ensures SetRead(SetRead(n, read), n.isRead) == n
    ensures SetRequestStatus(SetRequestStatus(n, status), n.requestStatus) == n
  {
  }
}

=== FILE: notifications_adapter.dfy ===
/** NotificationsAdapter: how an inbox entry is drawn, where a tap leads,
    and what accepting or rejecting a follow request does to both users. */
module NotificationsAdapter {
  import opened Wrappers
  import opened Notifications
  import opened Social
  import UsersProfile

  /** Java's `day % 10`: the remainder truncates toward zero, so it takes
      the sign of the dividend. */
  function LastDigit(a: int): (r: int)
    ensures a >= 0 ==> 0 <= r < 10 && r == a % 10
    ensures a < 0 ==> -10 < r <= 0
    ensures (a - r) % 10 == 0
  {
    if a >= 0 then a % 10 else -((-a) % 10)
  }

  /** The ordinal suffix of a day of the month. */
  function DayOfMonthSuffix(day: int): (r: string)
    ensures 11 <= day <= 13 ==> r == "th"
    ensures !(11 <= day <= 13) && LastDigit(day) == 1 ==> r == "st"
    ensures !(11 <= day <= 13) && LastDigit(day) == 2 ==> r == "nd"
    ensures !(11 <= day <= 13) && LastDigit(day) == 3 ==> r == "rd"
    ensures r == "th" <==> 11 <= day <= 13 || LastDigit(day) !in {1, 2, 3}
  {
    if 11 <= day <= 13 then "th"
    else
      var d := LastDigit(day);
      if d == 1 then "st" else if d == 2 then "nd" else if d == 3 then "rd" else "th"
  }

  /** The suffixes of every day of a month. */
  lemma SuffixesOfTheMonth()
    ensures DayOfMonthSuffix(1) == "st" && DayOfMonthSuffix(2) == "nd" && DayOfMonthSuffix(3) == "rd"
    ensures DayOfMonthSuffix(21) == "st" && DayOfMonthSuffix(22) == "nd" && DayOfMonthSuffix(23) == "rd"
    ensures DayOfMonthSuffix(31) == "st"
    ensures forall d :: 4 <= d <= 20 ==> DayOfMonthSuffix(d) == "th"
    ensures forall d :: 24 <= d <= 30 ==> DayOfMonthSuffix(d) == "th"
  {
  }

  /** What the action area of an entry shows. */
  datatype Actions =
    | AcceptReject
    | StatusIcon(status: string)
    /** A follow request whose status is null: the buttons are not touched. */
    | Untouched
    | NoButtons

  function ActionsFor(n: Notification): (a: Actions)
    ensures a == AcceptReject <==> n.notifType == FollowRequest && n.requestStatus == Some(Pending)
    ensures a.StatusIcon? <==> n.notifType == FollowRequest && n.requestStatus.Some? && n.requestStatus.value != Pending
    ensures a.StatusIcon? ==> Some(a.status) == n.requestStatus
    ensures a == NoButtons <==> n.notifType != FollowRequest
  {
    if n.notifType == FollowRequest then
      match n.requestStatus
      case None => Untouched
      case Some(s) => if s == Pending then AcceptReject else StatusIcon(s)
    else NoButtons
  }

  /** A fresh follow request offers accept and reject; any other fresh
      notification offers neither. */
  lemma FreshRequestOffersChoice(id: string, content: string, dateTime: string, t: NotifType, sender: string, receiver: string)
    ensures ActionsFor(Create(id, content, dateTime, t, sender, receiver)) == (if t == FollowRequest then AcceptReject else NoButtons)
  {
  }

  /** Background: the unread one exactly for unread entries. */
  function UnreadBackground(n: Notification): (r: bool)
    ensures r <==> !n.isRead
  {
    !n.isRead
  }

  /** Where tapping an entry leads. */
  datatype Route = ToProfile(userId: string) | ToComments(moodOwnerId: Option<string>, moodDocId: Option<string>) | Nowhere

  function RouteFor(n: Notification): (r: Route)
    ensures r.ToProfile? <==> n.notifType == FollowRequest
    ensures r.ToProfile? ==> r.userId == n.senderUserId
    ensures r.ToComments? <==> n.notifType in {PostCommentedOn, CommentRepliedTo}
    ensures r.ToComments? ==> r.moodOwnerId == n.moodOwnerId && r.moodDocId == n.moodEventId
  {
    match n.notifType
    case FollowRequest => ToProfile(n.senderUserId)
    case PostCommentedOn => ToComments(n.moodOwnerId, n.moodEventId)
    case CommentRepliedTo => ToComments(n.moodOwnerId, n.moodEventId)
    case _ => Nowhere
  }

  /** The position of the first inbox entry with the given id: the first
      document the query returns. */
  function FirstWithId(ns: seq<Notification>, id: string): (r: Option<nat>)
    ensures r.Some? ==> r.value < |ns| && ns[r.value].id == id
    ensures r.Some? ==> forall j :: 0 <= j < r.value ==> ns[j].id != id
    ensures r.None? ==> forall j :: 0 <= j < |ns| ==> ns[j].id != id
  {
    if ns == [] then None
    else if ns[0].id == id then Some(0)
    else
      match FirstWithId(ns[1..], id)
      case None => None
      case Some(k) => Some(k + 1)
  }

  /** The status of the first inbox entry with the given id is replaced;
      when no entry has the id nothing changes. */
  function MarkStatus(ns: seq<Notification>, id: string, status: string): (r: seq<Notification>)
    ensures |r| == |ns|
    ensures forall k :: 0 <= k < |ns| ==> SameIdentity(ns[k], r[k]) && r[k].isRead == ns[k].isRead
    ensures forall k :: 0 <= k < |ns| && ns[k].id != id ==> r[k] == ns[k]
    ensures forall k :: 0 <= k < |ns| && ns[k].id == id && (forall j :: 0 <= j < k ==> ns[j].id != id) ==>
      r[k].requestStatus == Some(status)
    ensures forall k :: 0 <= k < |ns| && (exists j :: 0 <= j < k && ns[j].id == id) ==> r[k] == ns[k]
  {
    match FirstWithId(ns, id)
    case None => ns
    case Some(k) => ns[k := SetRequestStatus(ns[k], Some(status))]
  }

  /** Accepting a request from `sender`: the sender leaves the request list,
      joins the followers, the current user joins the sender's following,
      both counters go up and the entry is marked accepted. */
  function Accept(current: Account, currentId: string, sender: Account, n: Notification): (r: (Account, Account))
    ensures n.senderUserId !in r.0.followReqs && n.senderUserId in r.0.followerIds
    ensures currentId in r.1.followingIds
    ensures r.0.followerCount == current.followerCount + 1 && r.1.followingCount == sender.followingCount + 1
    ensures r.0.followingIds == current.followingIds && r.1.followerIds == sender.followerIds
    ensures r.0.newNotificationCount == current.newNotificationCount
    ensures r.0.followReqs == ArrayRemove(current.followReqs, n.senderUserId)
    ensures r.0.followerIds == ArrayUnion(current.followerIds, n.senderUserId)
    ensures r.1.followingIds == ArrayUnion(sender.followingIds, currentId)
    ensures r.0.notifications == MarkStatus(current.notifications, n.id, Accepted)
    ensures r.1.notifications == sender.notifications && r.1.followReqs == sender.followReqs
  {
    var who := n.senderUserId;
    (current.(followReqs := ArrayRemove(current.followReqs, who),
              followerIds := ArrayUnion(current.followerIds, who),
              followerCount := current.followerCount + 1,
              notifications := MarkStatus(current.notifications, n.id, Accepted)),
     sender.(followingIds := ArrayUnion(sender.followingIds, currentId),
             followingCount := sender.followingCount + 1))
  }

  /** Rejecting: the sender leaves the request list and the entry is marked
      rejected; followers and counters stay. */
  function Reject(current: Account, n: Notification): (r: Account)
    ensures n.senderUserId !in r.followReqs
    ensures r.followerIds == current.followerIds && r.followerCount == current.followerCount
    ensures r.followingIds == current.followingIds && r.followingCount == current.followingCount
    ensures r.followReqs == ArrayRemove(current.followReqs, n.senderUserId)
    ensures r.notifications == MarkStatus(current.notifications, n.id, Rejected)
    ensures r.newNotificationCount == current.newNotificationCount
  {
    current.(followReqs := ArrayRemove(current.followReqs, n.senderUserId),
             notifications := MarkStatus(current.notifications, n.id, Rejected))
  }

  /** Accept and reject clear the request the same way. */
  lemma AcceptAndRejectClearAlike(current: Account, currentId: string, sender: Account, n: Notification)
    ensures Accept(current, currentId, sender, n).0.followReqs == Reject(current, n).followReqs
  {
  }

  /** After accepting, the sender sees Following on the current user's
      page; after rejecting, Follow (unless already a follower). */
  lemma DecisionIsSeen(current: Account, currentId: string, sender: Account, n: Notification)
    ensures UsersProfile.StateIn(Accept(current, currentId, sender, n).0, n.senderUserId) == UsersProfile.Following
    ensures n.senderUserId !in current.followerIds ==>
      UsersProfile.StateIn(Reject(current, n), n.senderUserId) == UsersProfile.Follow
  {
  }

  /** Accepting a new follower and having them unfollow restores both
      follow lists and all four counters. */
  lemma UnfollowUndoesAccept(current: Account, currentId: string, sender: Account, n: Notification)
    requires n.senderUserId !in current.followerIds && currentId !in sender.followingIds
    ensures var (c, s) := Accept(current, currentId, sender, n);
      var (c2, s2) := UsersProfile.Unfollow(c, currentId, s, n.senderUserId);
      c2.followerIds == current.followerIds && s2.followingIds == sender.followingIds
      && c2.followerCount == current.followerCount && s2.followingCount == sender.followingCount
  {
    RemoveUndoesUnion(current.followerIds, n.senderUserId);
    RemoveUndoesUnion(sender.followingIds, currentId);
  }
}

=== FILE: photograph.dfy ===
/** A photograph attached to a mood event (Photograph.java). The image
    bitmap is reduced to whether one is held; dates are epoch milliseconds. */
module Photographs {
  import opened Wrappers
  import Text

  datatype Photograph = Photograph(
    imageUri: Option<string>,
    imageUriString: Option<string>,
    fileSizeKB: int,
    hasBitmap: bool,
    dateTaken: Option<int>,
    location: Option<string>)

  /** The five-argument constructor: keeps the Uri object and the bitmap;
      the string form of the URI is left null. */
  function WithBitmap(uri: Option<string>, sizeKB: int, bitmap: bool, date: Option<int>, location: Option<string>): Photograph {
    Photograph(uri, None, sizeKB, bitmap, date, location)
  }

  /** The four-argument constructor: keeps only the string form of the URI;
      the Uri object and the bitmap are left null. */
  function FromUriString(uri: string, sizeKB: int, date: Option<int>, location: Option<string>): Photograph {
    Photograph(None, Some(uri), sizeKB, false, date, location)
  }

  /** Which URI field each constructor fills: they never agree, so code that
      reads only getImageUri() sees no URI on a photograph built from a string. */
  lemma ConstructorsStoreUriDifferently(uri: string, size: int, bitmap: bool, date: Option<int>, loc: Option<string>)
    ensures WithBitmap(Some(uri), size, bitmap, date, loc).imageUri == Some(uri)
    ensures WithBitmap(Some(uri), size, bitmap, date, loc).imageUriString.None?
    ensures FromUriString(uri, size, date, loc).imageUri.None?
    ensures FromUriString(uri, size, date, loc).imageUriString == Some(uri)
    ensures !FromUriString(uri, size, date, loc).hasBitmap
  {
  }

  /** The size part of getFormattedDetails: whole kilobytes below 1024 KB,
      otherwise megabytes (whose two-decimal float rendering is not modelled). */
  datatype SizeLabel = Kilobytes(text: string) | Megabytes(sizeKB: int)

  function SizeLabelOf(sizeKB: int): (r: SizeLabel)
    ensures r.Kilobytes? <==> sizeKB < 1024
    ensures r.Kilobytes? ==> |r.text| > 3 && r.text[|r.text| - 3..] == " KB"
    ensures r.Megabytes? ==> r.sizeKB == sizeKB
  {
    if sizeKB >= 1024 then Megabytes(sizeKB) else Kilobytes(Text.IntToDecimal(sizeKB) + " KB")
  }

  /** The kilobyte label carries the exact number: reading the digits back
      gives the size. */
  lemma KilobyteLabelExact(sizeKB: nat)
    requires sizeKB < 1024
    ensures SizeLabelOf(sizeKB).text == Text.NatToDecimal(sizeKB) + " KB"
    ensures Text.DecimalValue(SizeLabelOf(sizeKB).text[..|SizeLabelOf(sizeKB).text| - 3]) == sizeKB
  {
    var t := SizeLabelOf(sizeKB).text;
    assert t[..|t| - 3] == Text.NatToDecimal(sizeKB);
    Text.DecimalRoundTrip(sizeKB);
  }

  /** The two cases checked by the unit tests: 500 KB stays in kilobytes,
      1500 KB switches to megabytes. */
  lemma SizeLabelExamples()
    ensures SizeLabelOf(500) == Kilobytes("500 KB")
    ensures SizeLabelOf(1500).Megabytes?
  {
  }

  /** Date and location parts of getFormattedDetails; `format` stands for
      the locale-dependent SimpleDateFormat. */
  function DateLabel(p: Photograph, format: int -> string): (r: string)
    ensures p.dateTaken.None? ==> r == "Date unknown"
  {
    match p.dateTaken
    case Some(d) => format(d)
    case None => "Date unknown"
  }

  function LocationLabel(p: Photograph): (r: string)
    ensures p.location.None? ==> r == "Location unknown"
    ensures p.location.Some? ==> r == p.location.value
  {
    p.location.GetOr("Location unknown")
  }
}

=== FILE: profile.dfy ===
/** ProfilePage: building the feed posts from stored mood documents, the
    feed filter, the search box, and the edit/delete bookkeeping. */
module ProfilePage {
  import opened Wrappers
  import Seqs
  import Text
  import Moods
  import ME = MoodEvents
  import ListAdapters
  import FilterDialogs
  import EditMood

  /** A feed post. `title` is the mood text, `mood` the emoji. */
  datatype Post = Post(
    title: Option<string>,
    mood: string,
    date: int,
    documentId: string,
    trigger: Option<string>,
    socialSituation: Option<string>,
    subtitle: string,
    photoUri: string,
    intensity: int,
    timestamp: Option<string>)

  predicate NonEmpty(s: Option<string>) {
    s.Some? && s.value != ""
  }

  /** The subtitle: "Trigger: t" and "Social: s", each only when present
      and non-empty, separated by " | " when both are there. */
  function Subtitle(trigger: Option<string>, social: Option<string>): (r: string)
    ensures r == "" <==> !NonEmpty(trigger) && !NonEmpty(social)
    ensures NonEmpty(trigger) ==> |"Trigger: " + trigger.value| <= |r| && r[..|"Trigger: " + trigger.value|] == "Trigger: " + trigger.value
    ensures NonEmpty(social) ==> |"Social: " + social.value| <= |r| && r[|r| - |"Social: " + social.value|..] == "Social: " + social.value
    ensures NonEmpty(trigger) && NonEmpty(social) ==> |r| == |"Trigger: " + trigger.value| + 3 + |"Social: " + social.value|
  {
    var t := if NonEmpty(trigger) then "Trigger: " + trigger.value else "";
    var s := if NonEmpty(social) then "Social: " + social.value else "";
    if t != "" && s != "" then t + " | " + s else t + s
  }

  /** The separator appears at the join exactly when both parts are shown. */
  lemma SubtitleSeparator(trigger: Option<string>, social: Option<string>)
    requires NonEmpty(trigger) && NonEmpty(social)
    ensures var r := Subtitle(trigger, social); var k := |"Trigger: " + trigger.value|;
      r[k..k + 3] == " | "
  {
  }

  /** The post for one decoded event. The date is the parsed timestamp,
      or `now` when there is none or it does not parse (`parse` stands for
      the locale date parser). The photo URI is getPhotoUri() as written,
      MoodEvents.PhotoUri. */
  function PostOf(e: ME.MoodEvent, documentId: string, now: int, parse: string -> Option<int>): (p: Post)
    ensures p.title == ME.MoodText(e) && p.mood == ME.Emoji(e) && p.documentId == documentId
    ensures p.date == if e.timestamp.Some? && parse(e.timestamp.value).Some? then parse(e.timestamp.value).value else now
    ensures p.trigger == (if NonEmpty(e.trigger) then e.trigger else None)
    ensures p.socialSituation == (if NonEmpty(e.socialSituation) then e.socialSituation else None)
    ensures p.subtitle == Subtitle(e.trigger, e.socialSituation)
    ensures p.photoUri == ME.PhotoUri(e) && p.intensity == e.intensity && p.timestamp == e.timestamp
  {
    Post(ME.MoodText(e), ME.Emoji(e),
         if e.timestamp.Some? && parse(e.timestamp.value).Some? then parse(e.timestamp.value).value else now,
         documentId,
         if NonEmpty(e.trigger) then e.trigger else None,
         if NonEmpty(e.socialSituation) then e.socialSituation else None,
         Subtitle(e.trigger, e.socialSituation),
         ME.PhotoUri(e), e.intensity, e.timestamp)
  }

  /** The post with the corrected photo URI reading of
      MoodEvents.PhotoUriFixed; every other field as PostOf. */
  function PostOfFixed(e: ME.MoodEvent, documentId: string, now: int, parse: string -> Option<int>): (p: Post)
    ensures p.(photoUri := "") == PostOf(e, documentId, now, parse).(photoUri := "")
    ensures e.photograph.None? ==> p.photoUri == "N/A"
    ensures e.photograph.Some? && e.photograph.value.imageUri.Some? ==> p.photoUri == e.photograph.value.imageUri.value
  {
    PostOf(e, documentId, now, parse).(photoUri := ME.PhotoUriFixed(e))
  }

  /** A stored document and its id. */
  datatype StoredMood = StoredMood(id: string, data: ME.Doc)

  /** loadMoodsFromFirestore: one post per document that decodes, in query
      order; a document that fails to decode is skipped. */
  function LoadPosts(docs: seq<StoredMood>, clock: string, now: int, parse: string -> Option<int>): (posts: seq<Post>)
    ensures |posts| <= |docs|
    ensures (forall i :: 0 <= i < |docs| ==> ME.FromMap(docs[i].data, clock, now).Decoded?) ==>
      |posts| == |docs| && forall i :: 0 <= i < |docs| ==> posts[i].documentId == docs[i].id
  {
    Seqs.FilterMap((d: StoredMood) => LoadOne(d, clock, now, parse), docs)
  }

  /** Loading a list in two parts gives the posts of both parts: a failing
      document removes only its own post. */
  lemma LoadSkipsOnlyFailures(a: seq<StoredMood>, b: seq<StoredMood>, clock: string, now: int, parse: string -> Option<int>)
    ensures LoadPosts(a + b, clock, now, parse) == LoadPosts(a, clock, now, parse) + LoadPosts(b, clock, now, parse)
  {
    Seqs.FilterMapAppend((d: StoredMood) => LoadOne(d, clock, now, parse), a, b);
  }

  /** The post of one document, or `None` when fromMap throws. */
  function LoadOne(d: StoredMood, clock: string, now: int, parse: string -> Option<int>): (r: Option<Post>)
    ensures r.Some? <==> ME.FromMap(d.data, clock, now).Decoded?
    ensures r.Some? ==> r.value == PostOf(ME.FromMap(d.data, clock, now).value, d.id, now, parse)
  {
    match ME.FromMap(d.data, clock, now)
    case CastFailure(_) => None
    case Decoded(e) => Some(PostOf(e, d.id, now, parse))
  }

  /** As written, a loaded post never carries the stored photo URI: the
      post gets "N/A" even when the document holds a photograph, so the
      editor is opened with "N/A" as the photo. */
  lemma LoadedPostLosesPhotoUri(d: StoredMood, clock: string, now: int, parse: string -> Option<int>)
    requires ME.FromMap(d.data, clock, now).Decoded?
    requires ME.FromMap(d.data, clock, now).value.photograph.Some?
    ensures LoadPosts([d], clock, now, parse) == [PostOf(ME.FromMap(d.data, clock, now).value, d.id, now, parse)]
    ensures LoadPosts([d], clock, now, parse)[0].photoUri == "N/A"
  {
    ME.LoadedPhotoUriLost(d.data, clock, now);
  }

  /** With the corrected reading, a loaded post keeps the stored photo URI. */
  lemma LoadedPostKeepsPhotoUri(d: StoredMood, clock: string, now: int, parse: string -> Option<int>)
    requires ME.FromMap(d.data, clock, now).Decoded?
    requires ME.FromMap(d.data, clock, now).value.photograph.Some?
    ensures PostOfFixed(ME.FromMap(d.data, clock, now).value, d.id, now, parse).photoUri == d.data[ME.PhotoUriField].s
  {
    ME.LoadedPhotoUriKept(d.data, clock, now);
  }

  // ---------------------------------------------------------------- filter

  /** The four boxes ProfilePage's filter receives. */
  datatype Boxes = Boxes(happy: bool, sad: bool, afraid: bool, confused: bool)

  predicate NoBox(b: Boxes) {
    !b.happy && !b.sad && !b.afraid && !b.confused
  }

  /** The time check of applyFilters: the four windows are inclusive,
      "all_time" passes everything and any other string passes nothing. */
  predicate WithinTime(timeFilter: string, now: int, date: int) {
    match FilterDialogs.WindowMs(timeFilter)
    case Some(w) => now - date <= w
    case None => timeFilter == "all_time"
  }

  /** The mood check as written: `post.mood` (the emoji) against the
      upper-case mood names. */
  predicate MoodCheckAsWritten(b: Boxes, p: Post) {
    (b.happy && p.mood == "HAPPY") || (b.sad && p.mood == "SAD")
    || (b.afraid && p.mood == "AFRAID") || (b.confused && p.mood == "CONFUSED")
    || NoBox(b)
  }

  /** applyFilters as written. */
  function ApplyFiltersAsWritten(posts: seq<Post>, timeFilter: string, b: Boxes, now: int): (r: seq<Post>)
    ensures Seqs.IsSubseq(r, posts)
    ensures forall i :: 0 <= i < |r| ==> WithinTime(timeFilter, now, r[i].date) && MoodCheckAsWritten(b, r[i])
    ensures forall i :: 0 <= i < |posts| && WithinTime(timeFilter, now, posts[i].date) && MoodCheckAsWritten(b, posts[i]) ==> posts[i] in r
  {
    Seqs.Filter((p: Post) => WithinTime(timeFilter, now, p.date) && MoodCheckAsWritten(b, p), posts)
  }

  /** An unknown time filter keeps nothing (FilterDialog keeps everything
      for such strings). */
  lemma UnknownTimeFilterKeepsNothing(posts: seq<Post>, timeFilter: string, b: Boxes, now: int)
    requires FilterDialogs.WindowMs(timeFilter).None? && timeFilter != "all_time"
    ensures ApplyFiltersAsWritten(posts, timeFilter, b, now) == []
  {
    Seqs.FilterKeepsNone((p: Post) => WithinTime(timeFilter, now, p.date) && MoodCheckAsWritten(b, p), posts);
  }

  /** As written, once a box is checked no post built from an emoji-and-mood
      state survives: its emoji is never one of the upper-case names. */
  lemma EmojiPostsNeverMatch(posts: seq<Post>, timeFilter: string, b: Boxes, now: int)
    requires !NoBox(b)
    requires forall i :: 0 <= i < |posts| ==> exists m :: posts[i].mood == Moods.Emoji(m)
    ensures ApplyFiltersAsWritten(posts, timeFilter, b, now) == []
  {
    forall i | 0 <= i < |posts|
      ensures !MoodCheckAsWritten(b, posts[i])
    {
      var m :| posts[i].mood == Moods.Emoji(m);
      match m
      case Happy => case Sad => case Angry => case Surprised =>
      case Afraid => case Disgusted => case Confused => case Shameful =>
    }
    Seqs.FilterKeepsNone((p: Post) => WithinTime(timeFilter, now, p.date) && MoodCheckAsWritten(b, p), posts);
  }

  /** A concrete case: a Happy post from "😃 Happy", just created, with the
      Happy box checked and all time selected, is filtered out. */
  const HappyPost: Post := Post(Some("Happy"), "😃", 0, "d", None, None, "", "N/A", 5, None)

  lemma HappyPostFilteredOut()
    ensures ApplyFiltersAsWritten([HappyPost], "all_time", Boxes(true, false, false, false), 0) == []
  {
    assert HappyPost.mood == Moods.Emoji(Moods.Happy);
    EmojiPostsNeverMatch([HappyPost], "all_time", Boxes(true, false, false, false), 0);
  }

  /** The checked boxes as a set of moods. */
  function CheckedMoods(b: Boxes): (s: set<Moods.Mood>)
    ensures s == {} <==> NoBox(b)
    ensures Moods.Happy in s <==> b.happy
    ensures Moods.Confused in s <==> b.confused
  {
    (if b.happy then {Moods.Happy} else {}) + (if b.sad then {Moods.Sad} else {})
    + (if b.afraid then {Moods.Afraid} else {}) + (if b.confused then {Moods.Confused} else {})
  }

  /** The mood check as evidently intended: the mood text (the title),
      upper-cased, against the checked names, as FilterDialog does. */
  predicate MoodCheckFixed(b: Boxes, p: Post) {
    FilterDialogs.MoodMatches(CheckedMoods(b), p.title)
  }

  function ApplyFilters(posts: seq<Post>, timeFilter: string, b: Boxes, now: int): (r: seq<Post>)
    ensures Seqs.IsSubseq(r, posts)
    ensures forall i :: 0 <= i < |r| ==> WithinTime(timeFilter, now, r[i].date) && MoodCheckFixed(b, r[i])
    ensures forall i :: 0 <= i < |posts| && WithinTime(timeFilter, now, posts[i].date) && MoodCheckFixed(b, posts[i]) ==> posts[i] in r
  {
    Seqs.Filter((p: Post) => WithinTime(timeFilter, now, p.date) && MoodCheckFixed(b, p), posts)
  }

  /** With the corrected check, a post whose mood text names a checked mood
      is kept, and with no box checked the mood check never removes a post. */
  lemma CheckedMoodKept(b: Boxes, m: Moods.Mood, p: Post)
    requires m in CheckedMoods(b) && p.title == Some(Moods.Name(m))
    ensures MoodCheckFixed(b, p)
    ensures NoBox(b) ==> MoodCheckFixed(b, p) && MoodCheckAsWritten(b, p)
  {
    FilterDialogs.AnyCaseMatches(CheckedMoods(b), m);
  }

  lemma HappyPostKept()
    ensures ApplyFilters([HappyPost], "all_time", Boxes(true, false, false, false), 0) == [HappyPost]
  {
    CheckedMoodKept(Boxes(true, false, false, false), Moods.Happy, HappyPost);
    Seqs.FilterKeepsAll((p: Post) => WithinTime("all_time", 0, p.date) && MoodCheckFixed(Boxes(true, false, false, false), p), [HappyPost]);
  }

  // ---------------------------------------------------------------- search

  /** PostAdapter.filter's test: the title or the subtitle, lower-cased,
      contains the query. */
  predicate PostMatches(p: Post, q: string) {
    (p.title.Some? && Text.Contains(Text.Lower(p.title.value), q)) || Text.Contains(Text.Lower(p.subtitle), q)
  }

  function Search(s: ListAdapters.ListState<Post>, query: string): (r: ListAdapters.ListState<Post>)
    ensures r.original == s.original
  {
    ListAdapters.Search(s, query, PostMatches)
  }

  /** For a non-blank query a post of the full list is shown exactly when
      its title or subtitle contains the normalised query. */
  lemma SearchShowsExactlyMatches(s: ListAdapters.ListState<Post>, query: string, i: int)
    requires ListAdapters.Normalize(query) != [] && 0 <= i < |s.original|
    ensures s.original[i] in Search(s, query).displayed <==> PostMatches(s.original[i], ListAdapters.Normalize(query))
  {
    var r := Search(s, query);
    if s.original[i] in r.displayed {
      var k :| 0 <= k < |r.displayed| && r.displayed[k] == s.original[i];
    }
  }

  // ------------------------------------------------------- edit and delete

  /** The values ProfilePage reads back from the editor's result. It asks
      for "updatedTrigger", which the editor never sends, so the trigger is
      always null. */
  datatype EditReply = EditReply(
    updatedMood: Option<string>,
    updatedEmoji: Option<string>,
    updatedTrigger: Option<string>,
    updatedSocialSituation: Option<string>,
    updatedIntensity: int,
    moodPosition: int,
    updatedPhotoUri: Option<string>)

  function ReadReply(r: EditMood.Result): (x: EditReply)
    ensures x.updatedTrigger.None?
    ensures x.moodPosition == r.moodPosition && x.updatedPhotoUri == Some(r.updatedPhotoUri)
  {
    EditReply(r.updatedMood, r.updatedEmoji, None, Some(r.updatedSocialSituation), r.updatedIntensity, r.moodPosition,
              Some(r.updatedPhotoUri))
  }

  /** The stored update as written: every reply field, the trigger
      included, and the photo flag. */
  function UpdateDocAsWritten(x: EditReply): (d: ME.Doc)
    ensures ME.HasPhotoField in d && d[ME.HasPhotoField] == ME.VBool(x.updatedPhotoUri.Some? && x.updatedPhotoUri.value != "N/A")
    ensures ME.PhotoUriField in d <==> x.updatedPhotoUri.Some? && x.updatedPhotoUri.value != "N/A"
    ensures ME.EmotionalStateField in d && d[ME.EmotionalStateField] == ME.VStr(Text.StringOf(x.updatedEmoji) + " " + Text.StringOf(x.updatedMood))
    ensures ME.TriggerField in d && d[ME.TriggerField] == ME.OptStr(x.updatedTrigger)
  {
    var base := map[
      ME.EmojiField := ME.OptStr(x.updatedEmoji),
      ME.MoodField := ME.OptStr(x.updatedMood),
      ME.EmotionalStateField := ME.VStr(Text.StringOf(x.updatedEmoji) + " " + Text.StringOf(x.updatedMood)),
      ME.TriggerField := ME.OptStr(x.updatedTrigger),
      ME.SocialSituationField := ME.OptStr(x.updatedSocialSituation),
      ME.IntensityField := ME.VLong(x.updatedIntensity)];
    if x.updatedPhotoUri.Some? && x.updatedPhotoUri.value != "N/A" then
      base[ME.HasPhotoField := ME.VBool(true)][ME.PhotoUriField := ME.VStr(x.updatedPhotoUri.value)]
    else base[ME.HasPhotoField := ME.VBool(false)]
  }

  /** Firestore's update: the written fields replace, the others stay. */
  function Merge(stored: ME.Doc, update: ME.Doc): (d: ME.Doc)
    ensures d.Keys == stored.Keys + update.Keys
    ensures forall k :: k in update ==> d[k] == update[k]
    ensures forall k :: k in stored && k !in update ==> d[k] == stored[k]
  {
    stored + update
  }

  /** As written, every edit made through the editor erases the stored
      trigger. */
  lemma EditErasesTrigger(stored: ME.Doc, r: EditMood.Result)
    ensures Merge(stored, UpdateDocAsWritten(ReadReply(r)))[ME.TriggerField] == ME.VNull
  {
  }

  /** The stored update as evidently intended: a trigger the reply does not
      carry is not written. */
  function UpdateDoc(x: EditReply): (d: ME.Doc)
    ensures ME.TriggerField in d <==> x.updatedTrigger.Some?
    ensures ME.HasPhotoField in d && d[ME.HasPhotoField] == ME.VBool(x.updatedPhotoUri.Some? && x.updatedPhotoUri.value != "N/A")
    ensures ME.EmotionalStateField in d && d[ME.EmotionalStateField] == ME.VStr(Text.StringOf(x.updatedEmoji) + " " + Text.StringOf(x.updatedMood))
  {
    var full := UpdateDocAsWritten(x);
    if x.updatedTrigger.Some? then full else full - {ME.TriggerField}
  }

  /** With the corrected update, an edit keeps the stored trigger. */
  lemma EditKeepsTrigger(stored: ME.Doc, r: EditMood.Result)
    requires ME.TriggerField in stored
    ensures Merge(stored, UpdateDoc(ReadReply(r)))[ME.TriggerField] == stored[ME.TriggerField]
  {
  }

  /** The written state splits back into the emoji and the mood when the
      emoji has no space. */
  lemma UpdatedStateSplits(x: EditReply, clock: string)
    requires x.updatedEmoji.Some? && x.updatedMood.Some? && ' ' !in x.updatedEmoji.value
    ensures var es := Text.StringOf(x.updatedEmoji) + " " + Text.StringOf(x.updatedMood);
      var e := ME.Create(Some(es), None, None, clock);
      ME.Emoji(e) == x.updatedEmoji.value && ME.MoodText(e) == x.updatedMood
  {
    var em := x.updatedEmoji.value;
    var es := em + " " + x.updatedMood.value;
    var e := ME.Create(Some(es), None, None, clock);
    var k := Text.IndexOf(es, ' ').value;
    assert es[|em|] == ' ';
    assert es[..|em|] == em;
    assert ' ' in es[..|em| + 1];
    assert k == |em|;
    assert es[..k] == em;
    assert es[k + 1..] == x.updatedMood.value;
  }

  /** onActivityResult: an update is sent only for a position inside the
      loaded list, for that post's document. The position is the one the
      row's menu passed to the editor: the row's index in the DISPLAYED
      list, which after a filter or a search is not its index in
      `allPosts`. */
  datatype PendingUpdate = PendingUpdate(documentId: string, update: ME.Doc)

  function OnEditResult(allPosts: seq<Post>, x: EditReply): (r: Option<PendingUpdate>)
    ensures r.Some? <==> 0 <= x.moodPosition < |allPosts|
    ensures r.Some? ==> r.value.documentId == allPosts[x.moodPosition].documentId
    ensures r.Some? ==> r.value.update == UpdateDocAsWritten(x)
    ensures r.Some? ==> ME.TriggerField in r.value.update && r.value.update[ME.TriggerField] == ME.OptStr(x.updatedTrigger)
  {
    if 0 <= x.moodPosition < |allPosts| then Some(PendingUpdate(allPosts[x.moodPosition].documentId, UpdateDocAsWritten(x)))
    else None
  }

  /** A result from an editor opened without a position (-1) changes
      nothing. */
  lemma UnpositionedEditIgnored(allPosts: seq<Post>, x: EditReply)
    requires x.moodPosition == -1
    ensures OnEditResult(allPosts, x).None?
  {
  }

  /** Deleting the post at `position` after the store confirms: the local
      list loses exactly that post; a position outside the list is the
      IndexOutOfBoundsException case, `None`. As with the editor, the
      position is the row's index in the displayed list. */
  function DeletePost(allPosts: seq<Post>, position: int): (r: Option<seq<Post>>)
    ensures r.Some? <==> 0 <= position < |allPosts|
    ensures r.Some? ==> |r.value| == |allPosts| - 1
    ensures r.Some? ==> r.value[..position] == allPosts[..position] && r.value[position..] == allPosts[position + 1..]
  {
    if 0 <= position < |allPosts| then Some(allPosts[..position] + allPosts[position + 1..]) else None
  }

  /** The deleted post and the remaining posts together are the old list. */
  lemma DeleteRemovesOne(allPosts: seq<Post>, position: int)
    requires 0 <= position < |allPosts|
    ensures multiset(DeletePost(allPosts, position).value) + multiset{allPosts[position]} == multiset(allPosts)
  {
    assert allPosts == allPosts[..position] + [allPosts[position]] + allPosts[position + 1..];
  }

  /** After a delete the adapter shows the remaining posts, and its count
      drops by one. */
  lemma DeleteRefreshesAdapter(allPosts: seq<Post>, position: int)
    requires 0 <= position < |allPosts|
    ensures ListAdapters.ItemCount(ListAdapters.Update(DeletePost(allPosts, position).value)) == |allPosts| - 1
  {
  }

  // ------------------------------------------------ positions after a filter

  /** Two loaded posts, and the list shown after a filter that keeps only
      the second. */
  const PostA: Post := Post(Some("Happy"), "a", 0, "docA", None, None, "", "N/A", 5, None)
  const PostB: Post := Post(Some("Sad"), "b", 0, "docB", None, None, "", "N/A", 5, None)

  /** As written, after a filter the row positions and `allPosts` disagree:
      editing the only shown post (row 0, PostB) writes the update to
      PostA's document, and deleting it removes PostA from the local list
      while the store deletes PostB's document. */
  lemma FilteredRowHitsOtherPost(x: EditReply)
    requires x.moodPosition == 0
    ensures var shown := Seqs.Filter((p: Post) => p.documentId == "docB", [PostA, PostB]);
      shown == [PostB]
      && OnEditResult([PostA, PostB], x) == Some(PendingUpdate(PostA.documentId, UpdateDocAsWritten(x)))
      && PostA.documentId != shown[0].documentId
      && DeletePost([PostA, PostB], 0) == Some([PostB])
  {
    var f := (p: Post) => p.documentId == "docB";
    assert [PostA, PostB][1..] == [PostB];
    assert Seqs.Filter(f, [PostB]) == [PostB] by {
      assert [PostB][1..] == [];
    }
  }

  /** The corrected edit handler: the editor reports the tapped post's
      document id, and the update is sent for that document when a loaded
      post has it. */
  function OnEditResultById(allPosts: seq<Post>, documentId: string, x: EditReply): (r: Option<PendingUpdate>)
    ensures r.Some? <==> exists i :: 0 <= i < |allPosts| && allPosts[i].documentId == documentId
    ensures r.Some? ==> r.value == PendingUpdate(documentId, UpdateDoc(x))
  {
    if exists i :: 0 <= i < |allPosts| && allPosts[i].documentId == documentId
    then Some(PendingUpdate(documentId, UpdateDoc(x)))
    else None
  }

  /** With the correction, editing a row of any list shown from `allPosts`
      (a filter or a search result) updates the document of the row that
      was tapped. */
  lemma EditReachesTappedPost(allPosts: seq<Post>, shown: seq<Post>, position: nat, x: EditReply)
    requires forall p :: p in shown ==> p in allPosts
    requires position < |shown|
    ensures OnEditResultById(allPosts, shown[position].documentId, x)
         == Some(PendingUpdate(shown[position].documentId, UpdateDoc(x)))
  {
    assert shown[position] in shown;
    var i :| 0 <= i < |allPosts| && allPosts[i] == shown[position];
  }

  /** The corrected local delete: the posts of the deleted document leave
      the list; every other post stays, in order. */
  function DeletePostById(allPosts: seq<Post>, documentId: string): (r: seq<Post>)
    ensures forall p :: p in r ==> p in allPosts && p.documentId != documentId
    ensures forall i :: 0 <= i < |allPosts| && allPosts[i].documentId != documentId ==> allPosts[i] in r
    ensures Seqs.IsSubseq(r, allPosts)
  {
    Seqs.Filter((p: Post) => p.documentId != documentId, allPosts)
  }

  /** With the correction, deleting a shown row removes exactly the copies
      of that post's document from the local list, whatever was shown. */
  lemma DeleteRemovesTappedPost(allPosts: seq<Post>, shown: seq<Post>, position: nat, p: Post)
    requires position < |shown|
    ensures var r := DeletePostById(allPosts, shown[position].documentId);
      Seqs.Count(r, p) == if p.documentId == shown[position].documentId then 0 else Seqs.Count(allPosts, p)
  {
    Seqs.FilterCount((q: Post) => q.documentId != shown[position].documentId, allPosts, p);
  }
}

=== FILE: records.dfy ===
/** The mood event as the screens read it: title, reason, social situation,
    date, visibility and photo. MoodEvent.java keeps the emotional state as
    one string; the screens use a richer accessor set (getMoodTitle,
    getReasonWhy, getDate, isPublic), which is modelled by this record. */
module Records {
  import opened Wrappers

  datatype MoodRecord = MoodRecord(
    moodTitle: Option<string>,
    emoji: Option<string>,
    reasonWhy: Option<string>,
    socialSituation: Option<string>,
    /** getDate() in epoch milliseconds; null when unknown. */
    date: Option<int>,
    isPublic: bool,
    intensity: int,
    /** A photograph with a bitmap is attached. */
    photoBitmap: bool,
    /** getPhotoUri(). */
    photoUri: Option<string>)

  /** Milliseconds in a day. */
  const DayMs: int := 86_400_000
}

=== FILE: search.dfy ===
/** SearchUserPage: prefix search over the lower-cased usernames, at most
    twenty users, never the signed-in user. */
module UserSearch {
  import opened Wrappers
  import Seqs
  import Text

  const ResultLimit: nat := 20

  /** A users/{id} document, as the query orders it. */
  datatype UserDoc = UserDoc(docId: string, username: Option<string>, usernameLowercase: Option<string>)

  /** A listed user; its id is the document id. */
  datatype User = User(userId: string, username: Option<string>)

  /** The query's range from q to q + U+F8FF, read as a prefix test. */
  predicate Matches(d: UserDoc, q: string) {
    d.usernameLowercase.Some? && q <= d.usernameLowercase.value
  }

  /** The match test for one query. */
  function MatchOf(q: string): UserDoc -> bool {
    d => Matches(d, q)
  }

  /** The server side: the first twenty matches in username order (`docs`
      is the collection in that order). */
  function ServerQuery(docs: seq<UserDoc>, q: string): (r: seq<UserDoc>)
    ensures |r| <= ResultLimit
    ensures forall i :: 0 <= i < |r| ==> Matches(r[i], q) && r[i] in docs
    ensures |r| == if |Seqs.Filter(MatchOf(q), docs)| < ResultLimit then |Seqs.Filter(MatchOf(q), docs)| else ResultLimit
  {
    Seqs.TakeAtMost(Seqs.Filter(MatchOf(q), docs), ResultLimit)
  }

  /** Completeness: a matching document is returned whenever fewer than
      twenty matches come before it; so with at most twenty matches all of
      them are returned, and otherwise the first twenty. */
  lemma ServerQueryComplete(docs: seq<UserDoc>, q: string, i: nat)
    requires i < |docs| && Matches(docs[i], q)
    requires |Seqs.Filter(MatchOf(q), docs[..i])| < ResultLimit
    ensures docs[i] in ServerQuery(docs, q)
    ensures |Seqs.Filter(MatchOf(q), docs[..i])| < |ServerQuery(docs, q)|
    ensures ServerQuery(docs, q)[|Seqs.Filter(MatchOf(q), docs[..i])|] == docs[i]
  {
    var m := MatchOf(q);
    assert docs == docs[..i] + docs[i..];
    Seqs.FilterAppend(m, docs[..i], docs[i..]);
    assert docs[i..][0] == docs[i];
    var before := Seqs.Filter(m, docs[..i]);
    assert Seqs.Filter(m, docs[i..]) == [docs[i]] + Seqs.Filter(m, docs[i..][1..]);
    assert Seqs.Filter(m, docs)[|before|] == docs[i];
  }

  /** Every match is returned when there are at most twenty. */
  lemma FewMatchesAllReturned(docs: seq<UserDoc>, q: string, i: nat)
    requires i < |docs| && Matches(docs[i], q)
    requires |Seqs.Filter(MatchOf(q), docs)| <= ResultLimit
    ensures docs[i] in ServerQuery(docs, q)
  {
    var m := MatchOf(q);
    assert docs == docs[..i] + docs[i..];
    Seqs.FilterAppend(m, docs[..i], docs[i..]);
    assert docs[i..][0] == docs[i];
    assert Seqs.Filter(m, docs[i..]) == [docs[i]] + Seqs.Filter(m, docs[i..][1..]);
    ServerQueryComplete(docs, q, i);
  }

  /** The client side: each hit becomes a user with the document id, and
      the signed-in user is skipped. */
  function Listed(hit: UserDoc, current: string): Option<User> {
    if hit.docId == current then None else Some(User(hit.docId, hit.username))
  }

  function ListHits(hits: seq<UserDoc>, current: string): (r: seq<User>)
    ensures |r| <= |hits|
  {
    Seqs.FilterMap(h => Listed(h, current), hits)
  }

  /** Exactly the hits other than the signed-in user are listed. */
  lemma {:induction false} ListedIffOther(hits: seq<UserDoc>, current: string, u: User)
    ensures u in ListHits(hits, current) <==> exists h :: h in hits && h.docId == u.userId && h.username == u.username && u.userId != current
  {
    if hits != [] {
      ListedIffOther(hits[1..], current, u);
      var h := hits[0];
      if h.docId != current {
        assert ListHits(hits, current) == [User(h.docId, h.username)] + ListHits(hits[1..], current);
      } else {
        assert ListHits(hits, current) == ListHits(hits[1..], current);
      }
      assert forall x :: x in hits <==> x == h || x in hits[1..];
    }
  }

  datatype Results = Cleared | Found(users: seq<User>)

  /** onTextChanged: a blank box clears the list; otherwise the trimmed,
      lower-cased text is searched. */
  function OnTextChanged(text: string, current: string, docs: seq<UserDoc>): (r: Results)
    ensures r == Cleared <==> Text.IsBlank(text)
    ensures r.Found? ==> |r.users| <= ResultLimit
  {
    var q := Text.Trim(text);
    if q == [] then Cleared
    else Found(ListHits(ServerQuery(docs, Text.Lower(q)), current))
  }

  /** Every listed user is another user whose lower-cased username starts
      with the lower-cased query, and each such user among the first twenty
      matches is listed. */
  lemma SearchFindsOthers(text: string, current: string, docs: seq<UserDoc>, u: User)
    requires !Text.IsBlank(text)
    ensures u in OnTextChanged(text, current, docs).users <==>
              u.userId != current
              && exists h :: h in ServerQuery(docs, Text.Lower(Text.Trim(text))) && h.docId == u.userId && h.username == u.username
    ensures u in OnTextChanged(text, current, docs).users ==>
              exists h :: h in docs && h.docId == u.userId && Matches(h, Text.Lower(Text.Trim(text)))
  {
    ListedIffOther(ServerQuery(docs, Text.Lower(Text.Trim(text))), current, u);
  }
}

=== FILE: select_mood.dfy ===
/** SelectMoodActivity: choosing a mood card, validating the form and the
    document written for a new mood event. */
module SelectMood {
  import opened Wrappers
  import Seqs
  import Text
  import opened Moods
  import opened MoodForms

  /** The mood shown as chosen: name, emoji and colour. */
  datatype Chosen = Chosen(mood: string, emoji: string, color: nat)

  /** The field initialisers: Happy, its emoji and its colour. */
  const InitialChoice: Chosen := Chosen("Happy", "😃", Opaque + 0xFBC02D)

  /** selectMood(mood): the emoji and the colour come from the two tables.
      The colour is unboxed into an `int` without a default, so a name that
      is not a key throws (`None`) instead of showing a choice. */
  function SelectMood(mood: string): (c: Option<Chosen>)
    ensures c.Some? <==> mood in SelectColorKeys
    ensures c.Some? ==> c.value.mood == mood && mood in SelectEmojiTable && c.value.emoji == SelectEmojiTable[mood]
    ensures c.Some? ==> c.value.color == Color(FromName(mood).value)
  {
    TablesMatchEnum();
    if FromName(mood).Some? then Some(Chosen(mood, SelectEmojiTable[mood], Color(FromName(mood).value))) else None
  }

  /** Choosing a card shows that mood's enum emoji and palette colour; the
      initial choice is the one the Happy card gives. */
  lemma SelectingMoodUsesEnum(m: Mood)
    ensures SelectMood(Name(m)) == Some(Chosen(Name(m), Emoji(m), Color(m)))
    ensures SelectMood("Happy") == Some(InitialChoice)
  {
    TablesMatchEnum();
    FromNameInverts(m);
  }

  /** One mood card, built from a key of the emoji table. */
  datatype Card = Card(mood: string, emoji: string, color: nat)

  /** createMoodButtons: one card per key, in the map's iteration order
      (`keyOrder`, which HashMap leaves unspecified). */
  function Cards(keyOrder: seq<string>): (cards: seq<Card>)
    requires forall i :: 0 <= i < |keyOrder| ==> keyOrder[i] in SelectEmojiTable
    ensures |cards| == |keyOrder|
    ensures forall i :: 0 <= i < |cards| ==>
      cards[i].mood == keyOrder[i] && SelectMood(cards[i].mood) == Some(Chosen(cards[i].mood, cards[i].emoji, cards[i].color))
  {
    TablesMatchEnum();
    seq(|keyOrder|, i requires 0 <= i < |keyOrder| =>
      Card(keyOrder[i], SelectEmojiTable[keyOrder[i]], Color(FromName(keyOrder[i]).value)))
  }

  /** The eight names as a list. */
  const NameList: seq<string> := ["Happy", "Sad", "Angry", "Surprised", "Afraid", "Disgusted", "Confused", "Shameful"]

  /** The emoji table has eight keys. */
  lemma EightKeys()
    ensures |SelectEmojiTable.Keys| == 8
  {
    TablesMatchEnum();
    NameListIsKeys();
    NameListDistinct();
    Seqs.DistinctCard(NameList);
  }

  lemma NameListIsKeys()
    ensures (set k | k in NameList) == SelectColorKeys
  {
  }

  lemma NameListDistinct()
    ensures Seqs.Distinct(NameList)
  {
  }

  /** Whatever order the map iterates in, there are exactly eight cards and
      every mood has a card. */
  lemma EightCards(keyOrder: seq<string>)
    requires Seqs.Distinct(keyOrder)
    requires (set k | k in keyOrder) == SelectEmojiTable.Keys
    ensures |Cards(keyOrder)| == 8
    ensures forall m: Mood :: exists i :: 0 <= i < 8 && Cards(keyOrder)[i].mood == Name(m)
  {
    EightKeys();
    Seqs.DistinctCard(keyOrder);
    assert |keyOrder| == 8;
    forall m: Mood
      ensures exists i :: 0 <= i < 8 && Cards(keyOrder)[i].mood == Name(m)
    {
      NameIsKey(m);
      assert Name(m) in (set k | k in keyOrder);
      var i :| 0 <= i < |keyOrder| && keyOrder[i] == Name(m);
      assert Cards(keyOrder)[i].mood == Name(m);
    }
  }

  lemma NameIsKey(m: Mood)
    ensures Name(m) in SelectEmojiTable
  {
    TablesMatchEnum();
  }

  /** The photo part of a saved document. */
  datatype SavedPhoto = SavedPhoto(uri: string, dateTaken: int, location: string, sizeKB: int)

  /** The document written for a new mood event. The location triple
      (moodLocation, moodLatitude, moodLongitude) and the photo keys are
      either all present or all absent, so each group is one optional
      part; `hasPhoto` is always written. */
  datatype SavedMood = SavedMood(
    emoji: string,
    mood: string,
    socialSituation: string,
    timestamp: string,
    intensity: int,
    reasonWhy: string,
    ownerUserId: string,
    isPublic: bool,
    location: Option<(string, LatLng)>,
    hasPhoto: bool,
    photo: Option<SavedPhoto>)

  /** The form as the save button reads it. */
  datatype Form = Form(
    chosen: Chosen,
    reasonInput: string,
    socialItem: string,
    progress: int,
    isPublic: bool,
    imageUri: Option<string>,
    hasBitmap: bool,
    photoSizeKB: int,
    locationName: Option<string>,
    locationCoords: Option<LatLng>)

  /** The location a photograph taken here is tagged with. */
  const PhotoLocationTag: string := "VibeVerse Location"

  /** A photograph is attached only when both a URI and a bitmap exist. */
  predicate HasAttachedPhoto(f: Form) {
    f.imageUri.Some? && f.hasBitmap
  }

  /** saveMoodToFirestore for a validated form: `reason` is the trimmed
      reason, `timestamp` the event's timestamp and `now` the photo time. */
  function SaveDocument(f: Form, reason: string, userId: string, timestamp: string, now: int): (d: SavedMood)
    ensures d.location.Some? <==> f.locationName.Some? && f.locationCoords.Some?
    ensures d.location.Some? ==> d.location.value == (f.locationName.value, f.locationCoords.value)
    ensures d.hasPhoto <==> HasAttachedPhoto(f)
    ensures d.hasPhoto <==> d.photo.Some?
    ensures d.photo.Some? ==> d.photo.value == SavedPhoto(f.imageUri.value, now, PhotoLocationTag, f.photoSizeKB)
    ensures d.reasonWhy == reason && d.intensity == f.progress && d.isPublic == f.isPublic
    ensures d.socialSituation == Text.Trim(f.socialItem)
    ensures d.mood == f.chosen.mood && d.emoji == f.chosen.emoji && d.ownerUserId == userId
  {
    SavedMood(
      f.chosen.emoji, f.chosen.mood, Text.Trim(f.socialItem), timestamp, f.progress, reason, userId, f.isPublic,
      if f.locationName.Some? && f.locationCoords.Some? then Some((f.locationName.value, f.locationCoords.value)) else None,
      HasAttachedPhoto(f),
      if HasAttachedPhoto(f) then Some(SavedPhoto(f.imageUri.value, now, PhotoLocationTag, f.photoSizeKB)) else None)
  }

  datatype SaveOutcome = Invalid(message: string) | Written(document: SavedMood)

  /** The save button: the reason check first, then the document. */
  function Save(f: Form, userId: string, timestamp: string, now: int): (r: SaveOutcome)
    ensures r.Invalid? <==> ValidateReason(f.reasonInput).ReasonRejected?
    ensures r.Invalid? ==> r.message == ValidateReason(f.reasonInput).message
    ensures r.Written? ==> r.document.reasonWhy == Text.Trim(f.reasonInput)
    ensures r.Written? ==> 0 < |r.document.reasonWhy| <= MaxReasonLength
  {
    match ValidateReason(f.reasonInput)
    case ReasonRejected(msg) => Invalid(msg)
    case ReasonOk(reason) => Written(SaveDocument(f, reason, userId, timestamp, now))
  }

  /** A photo without its bitmap is not saved: the document says hasPhoto
      false and carries no photo part. */
  lemma UriWithoutBitmapNotSaved(f: Form, reason: string, userId: string, timestamp: string, now: int)
    requires f.imageUri.Some? && !f.hasBitmap
    ensures !SaveDocument(f, reason, userId, timestamp, now).hasPhoto
    ensures SaveDocument(f, reason, userId, timestamp, now).photo.None?
  {
  }
}

=== FILE: seqs.dfy ===
/** Order-preserving filtering of lists, the shape shared by every list
    filter of the app (feed filters, search, insights). */
module Seqs {
  import opened Wrappers

  /** `a` can be obtained from `b` by deleting elements, keeping the order. */
  ghost predicate IsSubseq<T>(a: seq<T>, b: seq<T>)
    decreases |b|
  {
    |a| == 0
    || (|b| > 0
        && ((a[0] == b[0] && IsSubseq(a[1..], b[1..])) || IsSubseq(a, b[1..])))
  }

  /** Keeps, in order, exactly the elements satisfying `p`. */
  function Filter<T>(p: T -> bool, s: seq<T>): (r: seq<T>)
    ensures |r| <= |s|
    ensures forall i :: 0 <= i < |r| ==> p(r[i]) && r[i] in s
    ensures forall i :: 0 <= i < |s| && p(s[i]) ==> s[i] in r
    ensures IsSubseq(r, s)
  {
    if s == [] then []
    else if p(s[0]) then [s[0]] + Filter(p, s[1..])
    else Filter(p, s[1..])
  }

  /** A filter that every element passes is the identity. */
  lemma {:induction false} FilterKeepsAll<T>(p: T -> bool, s: seq<T>)
    requires forall i :: 0 <= i < |s| ==> p(s[i])
    ensures Filter(p, s) == s
  {
    if s != [] {
      FilterKeepsAll(p, s[1..]);
    }
  }

  /** A filter that no element passes yields the empty list. */
  lemma {:induction false} FilterKeepsNone<T>(p: T -> bool, s: seq<T>)
    requires forall i :: 0 <= i < |s| ==> !p(s[i])
    ensures Filter(p, s) == []
  {
    if s != [] {
      FilterKeepsNone(p, s[1..]);
    }
  }

  /** Filtering twice by `q` then `p` is filtering once by their conjunction. */
  lemma {:induction false} FilterFilter<T>(p: T -> bool, q: T -> bool, pq: T -> bool, s: seq<T>)
    requires forall x :: pq(x) == (q(x) && p(x))
    ensures Filter(p, Filter(q, s)) == Filter(pq, s)
  {
    if s != [] {
      FilterFilter(p, q, pq, s[1..]);
    }
  }

  /** Filters distribute over concatenation. */
  lemma {:induction false} FilterAppend<T>(p: T -> bool, a: seq<T>, b: seq<T>)
    ensures Filter(p, a + b) == Filter(p, a) + Filter(p, b)
  {
    if a == [] {
      assert a + b == b;
    } else {
      assert (a + b)[1..] == a[1..] + b;
      FilterAppend(p, a[1..], b);
    }
  }

  /** Filters that agree on every element of `s` give the same result. */
  lemma {:induction false} FilterCongruent<T>(p: T -> bool, q: T -> bool, s: seq<T>)
    requires forall i :: 0 <= i < |s| ==> p(s[i]) == q(s[i])
    ensures Filter(p, s) == Filter(q, s)
  {
    if s != [] {
      FilterCongruent(p, q, s[1..]);
    }
  }

  /** Number of occurrences of `x` in `s`. */
  function Count<T(==)>(s: seq<T>, x: T): (n: nat)
    ensures n <= |s|
    ensures n > 0 <==> x in s
  {
    if s == [] then 0
    else (if s[0] == x then 1 else 0) + Count(s[1..], x)
  }

  /** Filtering keeps every copy of a passing element and no copy of a
      failing one: with duplicates, each occurrence is decided alone. */
  lemma {:induction false} FilterCount<T>(p: T -> bool, s: seq<T>, x: T)
    ensures Count(Filter(p, s), x) == if p(x) then Count(s, x) else 0
    decreases |s|
  {
    if s != [] {
      FilterCount(p, s[1..], x);
      if p(s[0]) {
        assert ([s[0]] + Filter(p, s[1..]))[1..] == Filter(p, s[1..]);
      }
    }
  }

  /** Every list is a subsequence of itself. */
  lemma {:induction false} SubseqRefl<T>(s: seq<T>)
    ensures IsSubseq(s, s)
    decreases |s|
  {
    if s != [] {
      SubseqRefl(s[1..]);
    }
  }

  /** `n` copies of `x`. */
  function Repeat<T>(x: T, n: nat): (r: seq<T>)
    ensures |r| == n
    ensures forall i :: 0 <= i < n ==> r[i] == x
  {
    seq(n, _ => x)
  }

  /** Counting distributes over concatenation. */
  lemma {:induction false} CountAppend<T>(a: seq<T>, b: seq<T>, x: T)
    ensures Count(a + b, x) == Count(a, x) + Count(b, x)
    decreases |a|
  {
    if a == [] {
      assert a + b == b;
    } else {
      assert (a + b)[1..] == a[1..] + b;
      CountAppend(a[1..], b, x);
    }
  }

  /** `n` copies of `x` hold `x` exactly `n` times and any other value never. */
  lemma {:induction false} CountRepeat<T>(x: T, n: nat, y: T)
    ensures Count(Repeat(x, n), y) == if x == y then n else 0
    decreases n
  {
    if n > 0 {
      assert Repeat(x, n)[1..] == Repeat(x, n - 1);
      CountRepeat(x, n - 1, y);
    }
  }

  /** No element occurs twice. */
  ghost predicate Distinct<T>(s: seq<T>) {
    forall i, j :: 0 <= i < j < |s| ==> s[i] != s[j]
  }

  /** A list without repetitions has as many elements as its element set. */
  lemma {:induction false} DistinctCard<T>(s: seq<T>)
    requires Distinct(s)
    ensures |set x | x in s| == |s|
    decreases |s|
  {
    if s != [] {
      DistinctCard(s[1..]);
      assert (set x | x in s) == {s[0]} + (set x | x in s[1..]);
      assert s[0] !in (set x | x in s[1..]);
    }
  }

  /** Maps each element through `f`, dropping those it maps to `None`. */
  function FilterMap<A, B>(f: A -> Option<B>, s: seq<A>): (r: seq<B>)
    ensures |r| <= |s|
    ensures (forall i :: 0 <= i < |s| ==> f(s[i]).Some?) ==>
      |r| == |s| && forall i :: 0 <= i < |s| ==> r[i] == f(s[i]).value
  {
    if s == [] then []
    else
      var rest := FilterMap(f, s[1..]);
      match f(s[0])
      case None => rest
      case Some(y) => [y] + rest
  }

  /** FilterMap distributes over concatenation. */
  lemma {:induction false} FilterMapAppend<A, B>(f: A -> Option<B>, a: seq<A>, b: seq<A>)
    ensures FilterMap(f, a + b) == FilterMap(f, a) + FilterMap(f, b)
    decreases |a|
  {
    if a == [] {
      assert a + b == b;
    } else {
      assert (a + b)[1..] == a[1..] + b;
      assert (a + b)[0] == a[0];
      FilterMapAppend(f, a[1..], b);
    }
  }

  /** A map that never yields gives nothing. */
  lemma {:induction false} FilterMapNone<A, B>(f: A -> Option<B>, s: seq<A>)
    requires forall i :: 0 <= i < |s| ==> f(s[i]).None?
    ensures FilterMap(f, s) == []
    decreases |s|
  {
    if s != [] {
      assert forall i :: 0 <= i < |s[1..]| ==> s[1..][i] == s[i + 1];
      FilterMapNone(f, s[1..]);
    }
  }

  /** A filter by a disjunction of two exclusive conditions keeps as many
      elements as the two filters together. */
  lemma {:induction false} FilterSplit<T>(p: T -> bool, a: T -> bool, b: T -> bool, s: seq<T>)
    requires forall x :: p(x) == (a(x) || b(x))
    requires forall x :: !(a(x) && b(x))
    ensures |Filter(p, s)| == |Filter(a, s)| + |Filter(b, s)|
  {
    if s != [] {
      FilterSplit(p, a, b, s[1..]);
    }
  }

  /** The first `n` elements, or all of them when there are fewer. */
  function TakeAtMost<T>(s: seq<T>, n: nat): (r: seq<T>)
    ensures |r| == if |s| < n then |s| else n
    ensures forall i :: 0 <= i < |r| ==> r[i] == s[i]
  {
    if |s| <= n then s else s[..n]
  }
}

=== FILE: social.dfy ===
/** The follow graph as each user document stores it: followers, following
    and pending requests as Firestore arrays, plus the counters and the
    inbox. */
module Social {
  import Seqs
  import opened Notifications

  /** FieldValue.arrayUnion with one element: append it unless present. */
  function ArrayUnion(s: seq<string>, x: string): (r: seq<string>)
    ensures x in r
    ensures forall y :: y in r <==> y in s || y == x
    ensures x in s ==> r == s
    ensures x !in s ==> |r| == |s| + 1
  {
    if x in s then s else s + [x]
  }

  /** FieldValue.arrayRemove with one element: drop every occurrence. */
  function ArrayRemove(s: seq<string>, x: string): (r: seq<string>)
    ensures x !in r
    ensures forall y :: y in r <==> y in s && y != x
    ensures x !in s ==> r == s
  {
    if x !in s then Seqs.FilterKeepsAll(y => y != x, s); s
    else Seqs.Filter(y => y != x, s)
  }

  /** Adding an absent element and removing it again gives the array back. */
  lemma RemoveUndoesUnion(s: seq<string>, x: string)
    requires x !in s
    ensures ArrayRemove(ArrayUnion(s, x), x) == s
  {
    Seqs.FilterAppend(y => y != x, s, [x]);
    Seqs.FilterKeepsAll(y => y != x, s);
  }

  /** A user document with its follow sub-collections. */
  datatype Account = Account(
    followerIds: seq<string>,
    followingIds: seq<string>,
    followReqs: seq<string>,
    followerCount: int,
    followingCount: int,
    newNotificationCount: int,
    notifications: seq<Notification>)
}

=== FILE: text.dfy ===
/** The few java.lang.String operations the app's rules are built from:
    trim, case mapping, substring search and prefix tests. */
module Text {

  import opened Wrappers

  /** Java's trim removes every leading and trailing character whose code
      is at most U+0020 (space and the control characters). */
  predicate IsTrimmable(c: char) {
    c <= ' '
  }

  function TrimStart(s: string): (r: string)
    ensures |r| <= |s| && r == s[|s| - |r|..]
    ensures r == [] || !IsTrimmable(r[0])
    ensures forall k :: 0 <= k < |s| - |r| ==> IsTrimmable(s[k])
  {
    if |s| > 0 && IsTrimmable(s[0]) then TrimStart(s[1..]) else s
  }

  function TrimEnd(s: string): (r: string)
    ensures |r| <= |s| && r == s[..|r|]
    ensures r == [] || !IsTrimmable(r[|r| - 1])
    ensures forall k :: |r| <= k < |s| ==> IsTrimmable(s[k])
  {
    if |s| > 0 && IsTrimmable(s[|s| - 1]) then TrimEnd(s[..|s| - 1]) else s
  }

  /** String.trim(). */
  function Trim(s: string): (r: string)
  {
    TrimEnd(TrimStart(s))
  }

  /** `s.trim().isEmpty()`. */
  predicate IsBlank(s: string) {
    Trim(s) == []
  }

  /** The trimmed text starts and ends with a character trim keeps. */
  lemma TrimEndsKept(s: string)
    ensures Trim(s) == [] || (!IsTrimmable(Trim(s)[0]) && !IsTrimmable(Trim(s)[|Trim(s)| - 1]))
  {
    var t := TrimStart(s);
    var e := TrimEnd(t);
    assert Trim(s) == e;
    if e != [] {
      assert e[0] == t[0];
    }
  }

  /** A string is blank exactly when every character is trimmable. */
  lemma BlankIffAllTrimmable(s: string)
    ensures IsBlank(s) <==> forall k :: 0 <= k < |s| ==> IsTrimmable(s[k])
  {
    var t := TrimStart(s);
    assert t == [] || t[0] == s[|s| - |t|];
  }

  /** Trimming twice is trimming once. */
  lemma TrimIdempotent(s: string)
    ensures Trim(Trim(s)) == Trim(s)
  {
    var t := Trim(s);
    if t != [] {
      assert TrimStart(t) == t;
      assert TrimEnd(t) == t;
    }
  }

  /** How Java's string concatenation renders a possibly null string. */
  function StringOf(s: Option<string>): (r: string)
    ensures s.Some? ==> r == s.value
    ensures s.None? ==> r == "null"
  {
    match s
    case Some(x) => x
    case None => "null"
  }

  /** ASCII case mapping; non-ASCII letters are left as they are. */
  function LowerChar(c: char): char {
    if 'A' <= c <= 'Z' then (c as int + 32) as char else c
  }

  function UpperChar(c: char): char {
    if 'a' <= c <= 'z' then (c as int - 32) as char else c
  }

  /** String.toLowerCase() restricted to ASCII letters. */
  function Lower(s: string): (r: string)
    ensures |r| == |s|
    ensures forall i :: 0 <= i < |s| ==> r[i] == LowerChar(s[i])
  {
    seq(|s|, i requires 0 <= i < |s| => LowerChar(s[i]))
  }

  /** String.toUpperCase(Locale.ROOT) restricted to ASCII letters. */
  function Upper(s: string): (r: string)
    ensures |r| == |s|
    ensures forall i :: 0 <= i < |s| ==> r[i] == UpperChar(s[i])
  {
    seq(|s|, i requires 0 <= i < |s| => UpperChar(s[i]))
  }

  lemma LowerIdempotent(s: string)
    ensures Lower(Lower(s)) == Lower(s)
  {
  }

  /** `s.contains(q)`: `q` occurs in `s` at some position. */
  predicate Contains(s: string, q: string)
    decreases |s|
  {
    q <= s || (|s| > 0 && Contains(s[1..], q))
  }

  /** `q` occurs in `s` starting at index `i`. */
  predicate OccursAt(s: string, q: string, i: int) {
    0 <= i <= |s| - |q| && q == s[i..i + |q|]
  }

  /** An occurrence after the first character is an occurrence in the
      tail, one position earlier. */
  lemma OccursAtTail(s: string, q: string, i: int)
    requires |s| > 0 && i >= 1
    ensures OccursAt(s, q, i) <==> OccursAt(s[1..], q, i - 1)
  {
    if 0 <= i <= |s| - |q| {
      assert s[1..][i - 1..i - 1 + |q|] == s[i..i + |q|];
    }
  }

  /** Contains agrees with the positional reading of String.contains. */
  lemma {:induction false} ContainsAt(s: string, q: string)
    ensures Contains(s, q) <==> exists i :: OccursAt(s, q, i)
    decreases |s|
  {
    if q <= s {
      assert OccursAt(s, q, 0);
    } else if |s| > 0 {
      ContainsAt(s[1..], q);
      forall i | OccursAt(s, q, i) ensures Contains(s[1..], q) {
        assert i != 0;
        OccursAtTail(s, q, i);
      }
      if Contains(s[1..], q) {
        var i :| OccursAt(s[1..], q, i);
        OccursAtTail(s, q, i + 1);
      }
    }
  }

  /** The empty query occurs in every string. */
  lemma ContainsEmpty(s: string)
    ensures Contains(s, [])
  {
  }

  /** Position of the first occurrence of `c`, if any. */
  function IndexOf(s: string, c: char): (r: Option<nat>)
    ensures r.None? <==> c !in s
    ensures r.Some? ==> r.value < |s| && s[r.value] == c && c !in s[..r.value]
  {
    if s == [] then None
    else if s[0] == c then Some(0)
    else match IndexOf(s[1..], c)
      case None => None
      case Some(k) =>
        assert s[..k + 1] == [s[0]] + s[1..][..k];
        Some(k + 1)
  }

  predicate IsDigit(c: char) {
    '0' <= c <= '9'
  }

  /** An ASCII letter, upper or lower case. */
  predicate IsAsciiLetter(c: char) {
    'A' <= c <= 'Z' || 'a' <= c <= 'z'
  }

  function DigitChar(d: nat): (c: char)
    requires d < 10
    ensures IsDigit(c)
  {
    ('0' as int + d) as char
  }

  /** Decimal rendering of a non-negative number, as string concatenation
      of an int or long does. */
  function NatToDecimal(n: nat): (r: string)
    ensures |r| >= 1
    ensures forall i :: 0 <= i < |r| ==> IsDigit(r[i])
    ensures n >= 10 <==> |r| >= 2
    decreases n
  {
    if n < 10 then [DigitChar(n)] else NatToDecimal(n / 10) + [DigitChar(n % 10)]
  }

  /** Decimal rendering of any int: a minus sign for negatives. */
  function IntToDecimal(n: int): (r: string)
    ensures |r| >= 1
    ensures n < 0 <==> r[0] == '-'
  {
    if n < 0 then "-" + NatToDecimal(-n) else NatToDecimal(n)
  }

  /** The value a string of digits denotes. */
  function DecimalValue(s: string): nat
    requires forall i :: 0 <= i < |s| ==> IsDigit(s[i])
  {
    if s == [] then 0
    else
      assert IsDigit(s[|s| - 1]);
      DecimalValue(s[..|s| - 1]) * 10 + (s[|s| - 1] as int - '0' as int)
  }

  /** Rendering a number in decimal loses nothing. */
  lemma {:induction false} DecimalRoundTrip(n: nat)
    ensures DecimalValue(NatToDecimal(n)) == n
    decreases n
  {
    if n >= 10 {
      var r := NatToDecimal(n);
      assert r[..|r| - 1] == NatToDecimal(n / 10);
      DecimalRoundTrip(n / 10);
    }
  }

  /** Distinct numbers render differently. */
  lemma DecimalInjective(a: nat, b: nat)
    requires NatToDecimal(a) == NatToDecimal(b)
    ensures a == b
  {
    DecimalRoundTrip(a);
    DecimalRoundTrip(b);
  }
}

=== FILE: themes.dfy ===
/** ThemeAdapter and VibeStoreActivity: the theme store lists unlocked
    themes before locked ones and marks the user's selected theme. */
module Themes {
  import opened Wrappers
  import Text

  /** The select button of a card or popup. */
  datatype SelectButton = SelectButton(text: string, enabled: bool)

  /** A theme card: locked overlay, select button (absent when hidden) and
      whether the blue outline is drawn. */
  datatype Card = Card(lockedOverlay: bool, button: Option<SelectButton>, outlined: bool)

  function CardFor(themeId: string, locked: set<string>, selected: string): (c: Card)
    ensures c.lockedOverlay <==> themeId in locked
    ensures c.button.None? <==> themeId in locked
    ensures themeId in locked ==> !c.outlined
    ensures c.button == Some(SelectButton("Selected", false)) <==> themeId !in locked && themeId == selected
    ensures c.button == Some(SelectButton("Select", true)) <==> themeId !in locked && themeId != selected
    ensures c.outlined <==> c.button == Some(SelectButton("Selected", false))
  {
    if themeId in locked then Card(true, None, false)
    else if themeId == selected then Card(false, Some(SelectButton("Selected", false)), true)
    else Card(false, Some(SelectButton("Select", true)), false)
  }

  predicate ShowsSelected(c: Card) {
    c.button == Some(SelectButton("Selected", false))
  }

  /** After updateSelectedTheme(x), the unlocked theme x is the only card
      shown as Selected. */
  lemma SelectionIsUnique(themes: seq<string>, locked: set<string>, x: string)
    ensures forall i :: 0 <= i < |themes| ==>
      (ShowsSelected(CardFor(themes[i], locked, x)) <==> themes[i] == x && x !in locked)
    ensures forall i, j :: 0 <= i < |themes| && 0 <= j < |themes| && ShowsSelected(CardFor(themes[i], locked, x)) && ShowsSelected(CardFor(themes[j], locked, x)) ==> themes[i] == themes[j]
  {
  }

  /** The details popup: a locked theme says who unlocks it and has no
      button; an unlocked one has the card's button. */
  datatype Popup = Popup(lockedMessage: Option<string>, button: Option<SelectButton>)

  function PopupFor(themeId: string, unlockedBy: string, locked: set<string>, selected: string): (p: Popup)
    ensures themeId in locked <==> p.lockedMessage.Some?
    ensures themeId in locked ==> p.lockedMessage == Some("Unlocked by " + unlockedBy) && p.button.None?
    ensures themeId !in locked ==> p.button == CardFor(themeId, locked, selected).button
  {
    if themeId in locked then Popup(Some("Unlocked by " + unlockedBy), None)
    else Popup(None, CardFor(themeId, locked, selected).button)
  }

  /** The drawable name of a mood's emoji in a theme. */
  function EmojiResourceName(mood: string, theme: string): (r: string)
    ensures |r| == 7 + |mood| + |theme|
    ensures r[..6] == "emoji_"
    ensures r[6..6 + |mood|] == Text.Lower(mood) && r[6 + |mood|] == '_' && r[7 + |mood|..] == Text.Lower(theme)
  {
    "emoji_" + Text.Lower(mood) + "_" + Text.Lower(theme)
  }

  /** The name does not depend on the case the mood or theme is written in. */
  lemma EmojiNameIgnoresCase(mood: string, theme: string)
    ensures EmojiResourceName(Text.Upper(mood), Text.Upper(theme)) == EmojiResourceName(mood, theme)
  {
    LowerOfUpper(mood);
    LowerOfUpper(theme);
  }

  lemma LowerOfUpper(s: string)
    ensures Text.Lower(Text.Upper(s)) == Text.Lower(s)
  {
  }

  /** The concatenation of the `themeNames` arrays, in document order; a
      null or empty array adds nothing. */
  function Flatten(docs: seq<Option<seq<string>>>): (r: seq<string>)
    ensures forall t :: t in r <==> exists k :: 0 <= k < |docs| && docs[k].Some? && t in docs[k].value
  {
    if docs == [] then []
    else
      var rest := Flatten(docs[1..]);
      assert forall k :: 1 <= k < |docs| ==> docs[k] == docs[1..][k - 1];
      (if docs[0].Some? then docs[0].value else []) + rest
  }

  /** What loadThemes builds: every unlocked name, then every locked name;
      the locked set holds exactly the locked names. */
  datatype Store = Store(themeList: seq<string>, lockedSet: set<string>)

  function LoadThemes(unlockedDocs: seq<Option<seq<string>>>, lockedDocs: seq<Option<seq<string>>>): (s: Store)
    ensures s.themeList == Flatten(unlockedDocs) + Flatten(lockedDocs)
    ensures forall t :: t in s.lockedSet <==> t in Flatten(lockedDocs)
  {
    var locked := Flatten(lockedDocs);
    Store(Flatten(unlockedDocs) + locked, set t | t in locked)
  }

  /** An unlocked name listed only among the unlocked documents gets a
      Select or Selected card; every locked name a locked card. */
  lemma StoreCardsFollowLists(unlockedDocs: seq<Option<seq<string>>>, lockedDocs: seq<Option<seq<string>>>, selected: string)
    ensures var s := LoadThemes(unlockedDocs, lockedDocs);
      forall t :: t in Flatten(lockedDocs) ==> CardFor(t, s.lockedSet, selected).lockedOverlay
    ensures var s := LoadThemes(unlockedDocs, lockedDocs);
      forall t :: t in Flatten(unlockedDocs) && t !in Flatten(lockedDocs) ==> CardFor(t, s.lockedSet, selected).button.Some?
  {
  }

  /** The selected theme read from the user document; "" when the document
      or the field is missing. */
  function SelectedThemeOf(docExists: bool, field: Option<string>): (r: string)
    ensures docExists && field.Some? ==> r == field.value
    ensures !docExists || field.None? ==> r == ""
  {
    if docExists then field.GetOr("") else ""
  }
}

=== FILE: user_details.dfy ===
/** The profile-creation forms. UserDetails and activity_user_details share
    one validation: five required fields, every one checked so that each
    empty field is flagged, and a Firestore write of the trimmed values only
    when all pass. UserDetailsActivity is an older form that keeps the
    values, untrimmed, in the device preferences. */
module UserDetails {
  import opened Wrappers
  import Text

  const RequiredMessage: string := "Required!"
  const FillAllToast: string := "Please fill in all required fields!"

  /** The form as typed; the gender is a spinner position into `options`,
      position 0 being the "select" placeholder. */
  datatype ProfileForm = ProfileForm(fullName: string, username: string, bio: string, dob: string,
                                     genderPos: nat, options: seq<string>)

  /** Which fields show "Required!". */
  datatype FieldErrors = FieldErrors(fullName: bool, username: bool, bio: bool, dob: bool, gender: bool)

  predicate NoErrors(e: FieldErrors) {
    !e.fullName && !e.username && !e.bio && !e.dob && !e.gender
  }

  /** The five checks, each on its own field: one failing check does not
      stop the next from flagging its field. */
  function Errors(f: ProfileForm): (e: FieldErrors)
    ensures e.fullName <==> Text.IsBlank(f.fullName)
    ensures e.username <==> Text.IsBlank(f.username)
    ensures e.bio <==> Text.IsBlank(f.bio)
    ensures e.dob <==> Text.IsBlank(f.dob)
    ensures e.gender <==> f.genderPos == 0
  {
    FieldErrors(Text.IsBlank(f.fullName), Text.IsBlank(f.username), Text.IsBlank(f.bio),
                Text.IsBlank(f.dob), f.genderPos == 0)
  }

  /** The document written to users/{uid}. */
  datatype UserDoc = UserDoc(fullName: string, username: string, bio: string, dateOfBirth: string,
                             gender: string, email: Option<string>)

  datatype Continue = Write(doc: UserDoc) | MissingFields(errors: FieldErrors, toast: string)

  /** handleContinueButtonClick, with `email` the signed-in account's
      address (null when the provider gives none). */
  function OnContinue(f: ProfileForm, email: Option<string>): (r: Continue)
    requires f.genderPos < |f.options|
    ensures r.Write? <==> NoErrors(Errors(f))
    ensures r.Write? ==> r.doc.fullName == Text.Trim(f.fullName) && r.doc.username == Text.Trim(f.username)
    ensures r.Write? ==> r.doc.bio == Text.Trim(f.bio) && r.doc.dateOfBirth == Text.Trim(f.dob)
    ensures r.Write? ==> r.doc.gender == f.options[f.genderPos] && r.doc.email == email
    ensures r.Write? ==> r.doc.fullName != [] && r.doc.username != [] && r.doc.bio != [] && r.doc.dateOfBirth != []
    ensures r.MissingFields? ==> r.errors == Errors(f) && r.toast == FillAllToast
  {
    var e := Errors(f);
    if NoErrors(e) then
      Write(UserDoc(Text.Trim(f.fullName), Text.Trim(f.username), Text.Trim(f.bio), Text.Trim(f.dob),
                    f.options[f.genderPos], email))
    else MissingFields(e, FillAllToast)
  }

  /** The form filled in again from a stored profile. */
  function Refill(d: UserDoc, genderPos: nat, options: seq<string>): ProfileForm {
    ProfileForm(d.fullName, d.username, d.bio, d.dateOfBirth, genderPos, options)
  }

  /** Submitting the stored values again writes the same document: the
      stored values are already trimmed and non-blank. */
  lemma ResubmitWritesSame(f: ProfileForm, email: Option<string>)
    requires f.genderPos < |f.options|
    requires OnContinue(f, email).Write?
    ensures OnContinue(Refill(OnContinue(f, email).doc, f.genderPos, f.options), email) == OnContinue(f, email)
  {
    Text.TrimIdempotent(f.fullName);
    Text.TrimIdempotent(f.username);
    Text.TrimIdempotent(f.bio);
    Text.TrimIdempotent(f.dob);
  }

  /** The date picker's text: day, month counted from 1, and year. */
  function DateText(day: nat, month0: nat, year: nat): string {
    Text.NatToDecimal(day) + "/" + Text.NatToDecimal(month0 + 1) + "/" + Text.NatToDecimal(year)
  }

  predicate AllDigits(s: string) {
    forall i :: 0 <= i < |s| ==> Text.IsDigit(s[i])
  }

  /** The first slash of digits + "/" + rest follows the digits. */
  lemma SlashAfterDigits(a: string, rest: string)
    requires AllDigits(a)
    ensures Text.IndexOf(a + "/" + rest, '/') == Some(|a|)
  {
    var s := a + "/" + rest;
    assert s[|a|] == '/';
    assert s[..|a|] == a;
    assert '/' !in a by {
      forall i | 0 <= i < |a| ensures a[i] != '/' {
        assert Text.IsDigit(a[i]);
      }
    }
    assert forall i :: 0 <= i < |a| ==> s[i] == a[i];
  }

  /** Splitting at the first slash recovers the leading digits and the rest. */
  lemma SplitAtSlash(a1: string, r1: string, a2: string, r2: string)
    requires AllDigits(a1) && AllDigits(a2)
    requires a1 + "/" + r1 == a2 + "/" + r2
    ensures a1 == a2 && r1 == r2
  {
    SlashAfterDigits(a1, r1);
    SlashAfterDigits(a2, r2);
    var s := a1 + "/" + r1;
    assert a1 == s[..|a1|];
    assert a2 == s[..|a2|];
    assert r1 == s[|a1| + 1..];
    assert r2 == s[|a2| + 1..];
  }

  /** The date text determines the date picked. */
  lemma DateTextDetermines(d1: nat, m1: nat, y1: nat, d2: nat, m2: nat, y2: nat)
    requires DateText(d1, m1, y1) == DateText(d2, m2, y2)
    ensures d1 == d2 && m1 == m2 && y1 == y2
  {
    var dd1, mm1, yy1 := Text.NatToDecimal(d1), Text.NatToDecimal(m1 + 1), Text.NatToDecimal(y1);
    var dd2, mm2, yy2 := Text.NatToDecimal(d2), Text.NatToDecimal(m2 + 1), Text.NatToDecimal(y2);
    assert DateText(d1, m1, y1) == dd1 + "/" + mm1 + "/" + yy1 == dd1 + "/" + (mm1 + "/" + yy1);
    assert DateText(d2, m2, y2) == dd2 + "/" + mm2 + "/" + yy2 == dd2 + "/" + (mm2 + "/" + yy2);
    SplitAtSlash(dd1, mm1 + "/" + yy1, dd2, mm2 + "/" + yy2);
    SplitAtSlash(mm1, yy1, mm2, yy2);
    Text.DecimalInjective(d1, d2);
    Text.DecimalInjective(m1 + 1, m2 + 1);
    Text.DecimalInjective(y1, y2);
  }

  /** UserDetailsActivity's gender spinner. */
  const LegacyGenderOptions: seq<string> := ["Select Gender", "Male", "Female", "Other"]

  /** UserDetailsActivity's form: it also asks for an age. */
  datatype LegacyForm = LegacyForm(fullName: string, username: string, age: string, dob: string,
                                   bio: string, genderPos: nat)

  const LegacyKeys: set<string> := {"FullName", "Username", "Age", "Gender", "DOB", "Bio"}

  /** saveUserData: None is the "Please fill all required fields" toast;
      otherwise the preference entries written. Only four fields are
      required, and only literal emptiness counts. */
  function SaveLegacy(f: LegacyForm): (r: Option<map<string, string>>)
    requires f.genderPos < |LegacyGenderOptions|
    ensures r.Some? <==> f.fullName != [] && f.username != [] && f.age != [] && f.dob != []
    ensures r.Some? ==> r.value.Keys == LegacyKeys
    ensures r.Some? ==> r.value["FullName"] == f.fullName && r.value["Username"] == f.username
    ensures r.Some? ==> r.value["Age"] == f.age && r.value["DOB"] == f.dob && r.value["Bio"] == f.bio
    ensures r.Some? ==> r.value["Gender"] == LegacyGenderOptions[f.genderPos]
  {
    if f.fullName == [] || f.username == [] || f.age == [] || f.dob == [] then None
    else Some(map["FullName" := f.fullName, "Username" := f.username, "Age" := f.age,
                  "Gender" := LegacyGenderOptions[f.genderPos], "DOB" := f.dob, "Bio" := f.bio])
  }

  /** The two validations differ: a name of spaces (non-empty but blank)
      with an empty bio and the placeholder gender passes the older form and
      is flagged, field by field, by the newer one. */
  lemma ValidationsDiffer(name: string, user: string, age: string, dob: string)
    requires name != [] && Text.IsBlank(name)
    requires !Text.IsBlank(user) && !Text.IsBlank(dob) && age != []
    ensures SaveLegacy(LegacyForm(name, user, age, dob, "", 0)).Some?
    ensures Errors(ProfileForm(name, user, "", dob, 0, LegacyGenderOptions)) == FieldErrors(true, false, true, false, true)
  {
  }
}

=== FILE: users_profile.dfy ===
/** UsersProfile: another user's page. The follow button has three states,
    posts are shown only to followers, and the buttons send, cancel or
    withdraw a follow. */
module UsersProfile {
  import opened Wrappers
  import Seqs
  import ListAdapters
  import MoodEventAdapter
  import HomePage
  import opened Records
  import opened Notifications
  import opened Social

  datatype FollowState = Follow | Requested | Following

  /** checkFollowStatus: a missing document or array is read as `None`.
      Followers are looked at first, then requests. */
  function FollowStateOf(followerIds: Option<seq<string>>, followReqs: Option<seq<string>>, active: string): (r: FollowState)
    ensures r == Following <==> followerIds.Some? && active in followerIds.value
    ensures r == Requested <==> !(followerIds.Some? && active in followerIds.value) && followReqs.Some? && active in followReqs.value
  {
    if followerIds.Some? && active in followerIds.value then Following
    else if followReqs.Some? && active in followReqs.value then Requested
    else Follow
  }

  /** The state the page shows for a stored account. */
  function StateIn(page: Account, active: string): FollowState {
    FollowStateOf(Some(page.followerIds), Some(page.followReqs), active)
  }

  /** Visibility of the Follow, Requested and Following buttons. */
  datatype Buttons = Buttons(follow: bool, requested: bool, following: bool)

  function ButtonsFor(s: FollowState): (b: Buttons)
    ensures (b.follow && !b.requested && !b.following)
         || (!b.follow && b.requested && !b.following)
         || (!b.follow && !b.requested && b.following)
    ensures b.follow <==> s == Follow
    ensures b.requested <==> s == Requested
    ensures b.following <==> s == Following
  {
    match s
    case Follow => Buttons(true, false, false)
    case Requested => Buttons(false, true, false)
    case Following => Buttons(false, false, true)
  }

  /** The buttons shown determine the state. */
  lemma ButtonsDetermineState(s: FollowState, t: FollowState)
    requires ButtonsFor(s) == ButtonsFor(t)
    ensures s == t
  {
  }

  /** What the posts area shows. `PostsThrew` is the callback ending in an
      uncaught ClassCastException from one document, after the post count
      is set. */
  datatype PostsArea = FollowToView | Empty(countShown: Option<nat>) | Shown(postCount: nat, list: ListAdapters.ListState<HomePage.FeedItem>)
                     | PostsThrew(postCount: nat)

  /** The page's public posts: private ones and ones whose timestamp does not
      parse are left out (shared with the home feed's per-document reading);
      `None` when the reading of some document throws. */
  function PublicPosts(docs: seq<HomePage.FeedDoc>, pageUser: string, parse: string -> Option<int>): (r: Option<seq<HomePage.FeedItem>>)
    ensures r.None? <==> exists i :: 0 <= i < |docs| && HomePage.Entry(docs[i], pageUser, None, parse).Thrown?
    ensures r.Some? ==> |r.value| <= |docs|
    ensures r.Some? ==> forall x :: x in r.value ==> x.event.isPublic && x.ownerUserId == pageUser
  {
    if exists i :: 0 <= i < |docs| && HomePage.Entry(docs[i], pageUser, None, parse).Thrown? then None
    else
      var f := HomePage.Keeps(HomePage.EntryOf(pageUser, None, parse));
      KeptArePublic(docs, pageUser, parse);
      Some(Seqs.FilterMap(f, docs))
  }

  /** Every kept post is a public post of the page's user. */
  lemma {:induction false} KeptArePublic(docs: seq<HomePage.FeedDoc>, pageUser: string, parse: string -> Option<int>)
    ensures forall x :: x in Seqs.FilterMap(HomePage.Keeps(HomePage.EntryOf(pageUser, None, parse)), docs)
                    ==> x.event.isPublic && x.ownerUserId == pageUser
    decreases |docs|
  {
    if docs != [] {
      KeptArePublic(docs[1..], pageUser, parse);
    }
  }

  /** loadUserPosts then fetchUserPosts. `followerIds` is `None` when the
      followers list could not be read; `fetched` is `None` when the query
      failed. The post count is the number of fetched documents. */
  function LoadPosts(followerIds: Option<seq<string>>, active: string, pageUser: string,
                     fetched: Option<seq<HomePage.FeedDoc>>, parse: string -> Option<int>): (r: PostsArea)
    ensures r == FollowToView <==> !(followerIds.Some? && active in followerIds.value)
    ensures r.Empty? && r.countShown.None? <==> followerIds.Some? && active in followerIds.value && fetched.None?
    ensures r.PostsThrew? <==> followerIds.Some? && active in followerIds.value && fetched.Some?
                               && PublicPosts(fetched.value, pageUser, parse).None?
    ensures r.Shown? || r.PostsThrew? ==> fetched.Some? && r.postCount == |fetched.value|
    ensures r.Shown? ==> r.list.displayed == PublicPosts(fetched.value, pageUser, parse).value != []
  {
    if !(followerIds.Some? && active in followerIds.value) then FollowToView
    else if fetched.None? then Empty(None)
    else match PublicPosts(fetched.value, pageUser, parse)
      case None => PostsThrew(|fetched.value|)
      case Some(posts) =>
        if posts == [] then Empty(Some(|fetched.value|))
        else Shown(|fetched.value|, ListAdapters.Update(posts))
  }

  /** The count shown never falls below the number of posts listed; it
      exceeds it as soon as one fetched document is private. */
  lemma PostCountCoversList(docs: seq<HomePage.FeedDoc>, pageUser: string, parse: string -> Option<int>, i: nat)
    requires i < |docs| && docs[i].isPublic != HomePage.Flag(true)
    ensures PublicPosts(docs, pageUser, parse).Some? ==> |PublicPosts(docs, pageUser, parse).value| < |docs|
  {
    var f := HomePage.Keeps(HomePage.EntryOf(pageUser, None, parse));
    assert docs == docs[..i] + [docs[i]] + docs[i + 1..];
    Seqs.FilterMapAppend(f, docs[..i] + [docs[i]], docs[i + 1..]);
    Seqs.FilterMapAppend(f, docs[..i], [docs[i]]);
    assert Seqs.FilterMap(f, [docs[i]]) == [] by {
      assert [docs[i]][1..] == [];
    }
  }

  /** The follow request: a FOLLOW_REQUEST notification goes into the page
      user's inbox, its counter goes up by one and the active user joins the
      request list. Nothing happens when the active user has no username. */
  datatype RequestOutcome = NoUsername | Sent(page: Account, state: FollowState)

  function RequestContent(username: string): string {
    username + " has requested to follow you!"
  }

  function SendRequest(page: Account, pageUser: string, active: string, activeUsername: Option<string>,
                       notifId: string, now: string): (r: RequestOutcome)
    ensures r.NoUsername? <==> activeUsername.None? || activeUsername.value == ""
    ensures r.Sent? ==> r.state == Requested
    ensures r.Sent? ==> r.page.followReqs == ArrayUnion(page.followReqs, active)
    ensures r.Sent? ==> r.page.newNotificationCount == page.newNotificationCount + 1
    ensures r.Sent? ==> |r.page.notifications| == |page.notifications| + 1
    ensures r.Sent? ==> r.page.notifications[..|page.notifications|] == page.notifications
    ensures r.Sent? ==> var n := r.page.notifications[|page.notifications|];
      n.notifType == FollowRequest && n.senderUserId == active && n.receiverUserId == pageUser
      && n.requestStatus == Some(Pending) && !n.isRead
    ensures r.Sent? ==> r.page.followerIds == page.followerIds && r.page.followerCount == page.followerCount
  {
    if activeUsername.None? || activeUsername.value == "" then NoUsername
    else
      var n := Create(notifId, RequestContent(activeUsername.value), now, FollowRequest, active, pageUser);
      Sent(page.(followReqs := ArrayUnion(page.followReqs, active),
                 newNotificationCount := page.newNotificationCount + 1,
                 notifications := page.notifications + [n]),
           Requested)
  }

  /** A sent request shows as Requested on the next visit too, unless the
      active user already follows. */
  lemma SentRequestIsSeen(page: Account, pageUser: string, active: string, username: string, notifId: string, now: string)
    requires username != "" && active !in page.followerIds
    ensures var r := SendRequest(page, pageUser, active, Some(username), notifId, now);
      r.Sent? && StateIn(r.page, active) == Requested
  {
  }

  /** Position of the first follow request of `sender` in the inbox. */
  function FirstRequestFrom(ns: seq<Notification>, sender: string): (r: Option<nat>)
    ensures r.Some? ==> r.value < |ns| && ns[r.value].senderUserId == sender && ns[r.value].notifType == FollowRequest
    ensures r.Some? ==> forall k :: 0 <= k < r.value ==> !(ns[k].senderUserId == sender && ns[k].notifType == FollowRequest)
    ensures r.None? ==> forall k :: 0 <= k < |ns| ==> !(ns[k].senderUserId == sender && ns[k].notifType == FollowRequest)
  {
    if ns == [] then None
    else if ns[0].senderUserId == sender && ns[0].notifType == FollowRequest then Some(0)
    else match FirstRequestFrom(ns[1..], sender)
      case None => None
      case Some(k) => Some(k + 1)
  }

  /** Cancelling a request: the active user leaves the request list; the
      first matching notification, if any, is deleted and the counter goes
      down by one. */
  function CancelRequest(page: Account, active: string): (r: Account)
    ensures active !in r.followReqs
    ensures r.followReqs == ArrayRemove(page.followReqs, active)
    ensures FirstRequestFrom(page.notifications, active).None? ==>
      r.notifications == page.notifications && r.newNotificationCount == page.newNotificationCount
    ensures FirstRequestFrom(page.notifications, active).Some? ==>
      |r.notifications| == |page.notifications| - 1 && r.newNotificationCount == page.newNotificationCount - 1
    ensures r.followerIds == page.followerIds
  {
    var reqs := ArrayRemove(page.followReqs, active);
    match FirstRequestFrom(page.notifications, active)
    case None => page.(followReqs := reqs)
    case Some(k) =>
      page.(followReqs := reqs,
            notifications := page.notifications[..k] + page.notifications[k + 1..],
            newNotificationCount := page.newNotificationCount - 1)
  }

  /** Sending a request and cancelling it restores the page user's document,
      when there was no earlier request from the same user. */
  lemma CancelUndoesRequest(page: Account, pageUser: string, active: string, username: string, notifId: string, now: string)
    requires username != ""
    requires active !in page.followReqs
    requires FirstRequestFrom(page.notifications, active).None?
    ensures CancelRequest(SendRequest(page, pageUser, active, Some(username), notifId, now).page, active) == page
  {
    var sent := SendRequest(page, pageUser, active, Some(username), notifId, now).page;
    var ns := page.notifications;
    FirstRequestAppended(ns, sent.notifications[|ns|], active);
    assert sent.notifications == ns + [sent.notifications[|ns|]];
    assert (ns + [sent.notifications[|ns|]])[..|ns|] == ns;
    RemoveUndoesUnion(page.followReqs, active);
  }

  lemma FirstRequestAppended(ns: seq<Notification>, n: Notification, sender: string)
    requires FirstRequestFrom(ns, sender).None?
    requires n.senderUserId == sender && n.notifType == FollowRequest
    ensures FirstRequestFrom(ns + [n], sender) == Some(|ns|)
  {
    var r := FirstRequestFrom(ns + [n], sender);
    assert (ns + [n])[|ns|] == n;
    assert forall k :: 0 <= k < |ns| ==> (ns + [n])[k] == ns[k];
  }

  /** Unfollowing: each side drops the other and both counters go down. */
  function Unfollow(page: Account, pageUser: string, activeAccount: Account, active: string): (r: (Account, Account))
    ensures active !in r.0.followerIds && pageUser !in r.1.followingIds
    ensures r.0.followerCount == page.followerCount - 1 && r.1.followingCount == activeAccount.followingCount - 1
    ensures r.0.followReqs == page.followReqs && r.1.followerIds == activeAccount.followerIds
  {
    (page.(followerIds := ArrayRemove(page.followerIds, active), followerCount := page.followerCount - 1),
     activeAccount.(followingIds := ArrayRemove(activeAccount.followingIds, pageUser), followingCount := activeAccount.followingCount - 1))
  }

  /** After unfollowing, the page shows Follow unless a request is pending. */
  lemma UnfollowShowsFollow(page: Account, pageUser: string, activeAccount: Account, active: string)
    requires active !in page.followReqs
    ensures StateIn(Unfollow(page, pageUser, activeAccount, active).0, active) == Follow
  {
  }

  /** onFilteredResults: the filtered list replaces the adapter's and the
      search text, when there is any, is applied again. */
  function OnFilteredResults(filtered: seq<MoodRecord>, searchText: string): (r: ListAdapters.ListState<MoodRecord>)
    ensures r.original == filtered
    ensures searchText == "" ==> r.displayed == filtered
    ensures searchText != "" ==> r == MoodEventAdapter.Search(ListAdapters.Update(filtered), searchText)
  {
    var s := ListAdapters.Update(filtered);
    if searchText != "" then MoodEventAdapter.Search(s, searchText) else s
  }
}

=== FILE: wrappers.dfy ===
/** Option stands in for a Java reference that may be null. */
module Wrappers {

  datatype Option<+T> = None | Some(value: T) {

    /** The wrapped value, or `default` when the reference is null. */
    function GetOr(default: T): T {
      match this
      case Some(v) => v
      case None => default
    }
  }
}
